=== FILE: README.md ===
# Medical concept mapping, modelled in Dafny

The repository maps a free-text Chinese medical term onto a standard term
of a medical knowledge graph. It works in two parts.

An offline part learns a subword inventory and flattens the graph:
- `STEP-1-get-subword.py` normalises the graph's words and runs a
  byte-pair-encoding merge loop until the most frequent symbol pair occurs
  500 times or fewer.
- `STEP-2-get-Knowledge-Graph.py` lists preferred names, synonyms and
  synonym counts, and strips known subwords from each name.

An online part (`evaluate.py`, `match_func.py`, `subword_embedding.py`,
`utility.py`) answers a query:
1. Normalise it: strip punctuation, lower-case it, and take out its ASCII
   letter and digit runs.
2. Segment it with forward and backward maximum matching against the
   subword inventory.
3. Match the subwords directly against the standard terms and synonyms.
4. Cut out the unmatched stretches of the input.
5. Answer with the single direct match, or hand a pool of terms to a
   ranking step. The ranking step uses `kmp` hit counts, a top-k
   selection and a subword-frequency tie-break.

The project models each of these steps as a pure function over immutable
data, and proves what each one computes. The online side has these
modules:
- `Wrappers`: `Option`, `Result` and Python's exception kinds.
- `Strings`: concatenation, `str.split()`, `str.replace(p, '')`,
  `str.index`, `list.index`, slicing and lower-casing.
- `Kmp`: the `kmp` search of `utility.py`, and STEP-2's copy of it, which
  raises `IndexError`.
- `Normalise`: `Q2B`, `stringQ2B`, the three `remove_punctuation` lists
  and `find_English_term`.
- `Segment`: `FMM`, `BMM` and `get_subword`.
- `Embedding`: which pretrained vectors feed `get_embedding` and
  `load_standard_vector`.
- `Matching`: the helpers of the `Match` class.
- `Evaluate`: the body of the evaluation loop and the accuracy count.

The offline side has two modules:
- `Bpe`: `make_vocab`, `get_pairs`, `merge_pair`, `get_merged_subwords`
  and the merge loop.
- `Knowledge`: `KG_words`, `prefer_names` and STEP-2's `get_subword`.

Collaborators the project cannot see are parameters:
- the jieba tokenizer;
- the pretrained vector table, modelled as a map;
- `np.mean` and negation of a vector;
- `final_mapping`, which is a cosine-similarity ranking.

A Python `dict` is an insertion-ordered list of items. A Python `set`
that is turned back into a list is a Dafny `set`, or a duplicate-free list
whose members are stated. `max` and `list.index` return the first maximum
and the first occurrence.

Some behaviours of the code are easy to miss. The model follows the code
in each case:
- `kmp` is not a complete search, although its docstring
  (utility.py:61) promises the location of the match, or -1 when there is
  none. It misses an occurrence that starts inside a failed partial match
  (`Kmp.KmpMissesOverlap`).
- `kmp` in `utility.py` returns 0 for the empty pattern
  (`Kmp.KmpEmptyPattern`). STEP-2's copy raises `IndexError` instead
  (`Kmp.StrictKmp`).
- `non_match_word` sorts the spans by the whole `[start, end]` pair, so by
  start first (match_func.py:45).
- It cuts the gaps from the raw input, while the spans are positions in
  the normalised input.
- It overwrites `end` with each span's end, so a nested span exposes text
  again that an earlier span covered (`Matching.NestedSpanReexposes`).
- A direct match whose `temp_str.index` fails is still recorded. Only its
  span is dropped (`Evaluate.MatchLoop`).
- The subword-frequency score counts, for each candidate's joined subword
  string, how many of the query's subwords `kmp` finds in it. It does not
  count the candidate's subwords found in the query (`Matching.SubwordFrequency`).
- The maximum subword length is the length of the first cell of the
  subword file, not the length of the longest subword.

## Model

| member | source | states |
|---|---|---|
| Normalise.Q2B | STEP-1-get-subword.py:91-102 | U+3000 becomes a space. U+FF00..U+FF5E move down by 0xFEE0 to ASCII. Every other character is unchanged. |
| Normalise.Q2BIdempotent | STEP-1-get-subword.py:91-102 | Converting a character twice gives the same result as converting it once. |
| Normalise.StringQ2B | STEP-1-get-subword.py:105-109 | The result has the input's length, and position i holds the converted i-th character. |
| Normalise.StringQ2BIdempotent | STEP-1-get-subword.py:105-109 | Converting a string twice gives the same result as converting it once. |
| Normalise.StripAllDeletes | utility.py:99-101 | The `for j in punctuation` replace loop only deletes characters that some entry contains. The other characters survive in order, and no one-character entry survives. |
| Normalise.StripPunctuationList | utility.py:94-101 | With a list shaped like the source's lists, the replace loop deletes exactly the characters the list names. Multi-character entries such as `'[]'` and `'……'` add nothing. |
| Normalise.RemovePunctuationMeaning | utility.py:88-102 | The entry-by-entry replace loop of `remove_punctuation` keeps exactly the characters outside the utility list, in order. |
| Normalise.RemovePunctuationIdempotent | utility.py:88-102 | Running the replace loop twice gives the same result as running it once. |
| Normalise.UtilityKeepsSpace | utility.py:94-98 | The online list does not delete a space. |
| Normalise.OfflineDropsSpace | STEP-1-get-subword.py:118-122 | Both offline lists delete a space. STEP-2-get-Knowledge-Graph.py:92-96 holds the second list. |
| Normalise.PunctuationKeepsAlnum | utility.py:94-98 | No list deletes an ASCII letter or digit. |
| Normalise.Step1RemovePunctuation | STEP-1-get-subword.py:112-129 | The result has one entry per term. |
| Normalise.Step1RemovePunctuationMeaning | STEP-1-get-subword.py:124-128 | Each STEP-1 term is converted to half-width first, then loses exactly the characters of the STEP-1 list. |
| Normalise.Step2RemovePunctuation | STEP-2-get-Knowledge-Graph.py:86-102 | The result has one entry per term. |
| Normalise.Step2RemovePunctuationMeaning | STEP-2-get-Knowledge-Graph.py:98-101 | Each STEP-2 term loses exactly the characters of the STEP-2 list. There is no half-width step. |
| Normalise.RemoveRunsKeepsOthers | utility.py:118-119 | Deleting the letter and digit runs with `re.sub` leaves every other character in place and never lengthens the term. |
| Normalise.FindEnglishTerm | utility.py:105-127 | The runs are the term's maximal ASCII letter and digit runs, left to right, lower-cased and non-empty, and they spell the term's alphanumeric characters. They are wrapped in a one-element list. The residue is a subsequence of the term and keeps every non-alphanumeric character in order. |
| Normalise.AlnumRunsMaximal | utility.py:115 | `re.findall(r'[a-zA-Z0-9]+')` yields the maximal letter-and-digit runs: the term is those runs with non-alphanumeric gaps around them, and two neighbouring runs are split by at least one other character. |
| Normalise.FindEnglishTermFromRuns | utility.py:115-124 | Conversely, for any split of the term into maximal letter-and-digit runs, the English list is exactly those runs lower-cased, in order. |
| Normalise.ResidualKeepsSomeLetters | utility.py:115-119 | Deleting each run everywhere in turn can leave letters behind: for "a ab", the runs are "a" and "ab" and the residue is " b". |
| Kmp.TableLoop | utility.py:67-73 | The `next_ls` loop produces a valid failure table: every entry is -1 or a proper border length of the prefix before it. |
| Kmp.TableStepAdvance | utility.py:68-70 | The matching branch of the table loop keeps the loop invariant. |
| Kmp.TableStepFallBack | utility.py:71-73 | The fall-back branch of the table loop keeps the loop invariant. |
| Kmp.Table | utility.py:63-73 | `next_ls` is a valid failure table whose first two entries are -1. |
| Kmp.Scan | utility.py:75-85 | The scan returns -1, or a position where the pattern really occurs. |
| Kmp.Kmp | utility.py:55-85 | `kmp` is sound: a result other than -1 is an occurrence of the pattern. |
| Kmp.KmpEmptyPattern | utility.py:75-85 | The empty pattern is found at position 0. |
| Kmp.KmpSelf | utility.py:55-85 | Every string is found in itself at position 0. |
| Kmp.KmpSingleChar | utility.py:55-85 | For a one-character pattern, the result is -1 exactly when the character is absent, and otherwise its first position. |
| Kmp.KmpMissesOverlap | utility.py:75-85 | The search is incomplete: "ab" occurs in "aab" but is reported missing, and in "aabab" it is reported at 3 instead of 1. |
| Kmp.StrictKmp | STEP-2-get-Knowledge-Graph.py:125-155 | STEP-2's `kmp` raises `IndexError` exactly for an empty pattern. Otherwise it gives the same sound result. |
| Kmp.BuildTable | STEP-2-get-Knowledge-Graph.py:132-143 | The array loop fills `next_ls` with exactly the failure table of the functional model. |
| Kmp.ScanWithTable | STEP-2-get-Knowledge-Graph.py:145-155 | The array scan returns exactly what the functional search returns. |
| Kmp.KmpWithArrays | STEP-2-get-Knowledge-Graph.py:125-155 | The imperative STEP-2 `kmp` agrees with its functional model, including the `IndexError`. |
| Segment.FmmWidth | subword_embedding.py:25-31 | The window shrinks to the widest slice found in the inventory, or to one character. No wider slice within the start width is in the inventory. |
| Segment.FmmFrom | subword_embedding.py:18-33 | Forward matching cuts the term into pieces that concatenate back to it. Each piece is 1 to `max_len` characters long and is in the inventory or is a single character. It is greedy: each piece starts where the previous one ended, and its width is the largest up to `max_len` (or the rest of the term) whose slice is in the inventory, or 1 when none is. |
| Segment.BmmWidth | subword_embedding.py:42-48 | The backward window shrinks to the widest inventory slice ending at the cursor, or to one character. |
| Segment.BmmFrom | subword_embedding.py:35-50 | Backward matching emits pieces right to left. Reversed, they concatenate back to the term, with the same piece bounds as forward matching. It is greedy: each piece ends where the previous one began, and its width is the largest up to `max_len` (or the cursor) whose slice ending at the cursor is in the inventory, or 1 when none is. |
| Segment.FmmGreedyUnique | subword_embedding.py:18-33 | Conversely, any piece list cut greedily in the sense of `Segment.FmmFrom` is the result of forward matching. |
| Segment.BmmGreedyUnique | subword_embedding.py:35-50 | Conversely, any piece list cut greedily right to left in the sense of `Segment.BmmFrom` is the result of backward matching. |
| Segment.SubwordList | subword_embedding.py:60-75 | An empty term gives `['']`. Otherwise the result holds exactly the pieces of both segmentations, with no duplicates. |
| Segment.GetSubword | subword_embedding.py:52-75 | A non-empty term's subword set is the union of both segmentations and never contains `''`. |
| Segment.SegmentationsCover | subword_embedding.py:18-50 | Both segmentations reassemble the term exactly. |
| Segment.WholeTermFound | subword_embedding.py:18-71 | A non-empty inventory term no longer than `max_len` is its own only piece, both forwards and backwards. |
| Embedding.TokenLoop | subword_embedding.py:86-96 | The loop pools the vectors of exactly the tokens that are in the table, non-empty and not negation markers. The negative flag is set exactly when some token is a marker. |
| Embedding.NGramRow | subword_embedding.py:121-128 | One row of `n_gram` adds exactly the table vectors of the non-empty slices starting at that index. |
| Embedding.NGramLoop | subword_embedding.py:115-129 | `n_gram` adds exactly the table vectors of every non-empty substring of the term. |
| Embedding.PoolLoops | subword_embedding.py:141-145 | The pool built for a term missing from the table is the token vectors plus the substring vectors. The flag records whether a negation marker was seen. |
| Embedding.GetEmbedding | subword_embedding.py:131-153 | A direct hit returns the table entry. Otherwise the result is `None` exactly when the pool is empty, else the pool mean, negated when a negation marker was seen. |
| Embedding.NegationMarkStaysInPool | subword_embedding.py:86-90 | `term.replace(token, '')` is discarded, so a negation marker that is a table key still feeds the pool through `n_gram`. |
| Embedding.SubVectors | subword_embedding.py:175-179 | The collected vectors are embeddings of subwords. The list is empty exactly when no subword has an embedding. |
| Embedding.SubVectorsSnoc | subword_embedding.py:175-179 | One more subword appends its embedding when it has one, and nothing otherwise. |
| Embedding.SubVectorsPositions | subword_embedding.py:175-179 | The collected vectors are the embeddings of exactly the subwords that have one, one per such subword, in subword order. |
| Embedding.SomesPositions | subword_embedding.py:177-179 | Keeping the present values of an option list keeps each once, in position order, and nothing else. |
| Embedding.Cleaned | subword_embedding.py:165-169 | Each synonym is stripped of punctuation before segmentation. |
| Embedding.LoadFrom | subword_embedding.py:165-184 | The output lists are parallel. Each output term has a non-empty vector list and the mean of it. Every term with vectors is listed, and the output terms are a subsequence of the input terms. |
| Embedding.LoadFromCounts | subword_embedding.py:165-184 | Each term is appended once per occurrence: a term with vectors appears in the output as often as in the input, and a term without vectors not at all. |
| Embedding.LoadStandardVector | subword_embedding.py:155-185 | `load_standard_vector` keeps exactly the stripped synonyms that have subword vectors, in order and with their multiplicity, each paired with the mean of its subword embeddings. |
| Strings.SplitByMaximal | match_func.py:38 | `str.split()` and `re.findall` of a character class yield maximal runs: the string is the runs with separator gaps around them, and the gap between two runs is non-empty. |
| Strings.MaximalRunsAreSplit | match_func.py:38 | Conversely, any list of maximal runs of a string is its split, so the split is the only such list. |
| Matching.EngWithSub | match_func.py:31-39 | The result fails exactly when `eng` is empty, where `eng[0]` raises. Otherwise it is the whitespace split of the joined subwords and English runs: non-empty, whitespace-free pieces that spell the input without its whitespace. |
| Matching.EngWithSubKeepsTokens | match_func.py:35-38 | Pieces that are already non-empty and whitespace-free come back unchanged, subwords first. |
| Matching.EngWithSubMaximal | match_func.py:35-38 | The tokens are the maximal whitespace-free pieces of the space-joined list: two neighbouring tokens are split by whitespace in it. |
| Matching.EngWithSubFromRuns | match_func.py:35-38 | Conversely, any split of the space-joined list into maximal whitespace-free pieces is the result of `eng_with_sub`. |
| Matching.InsertSpan | match_func.py:45 | Inserting a span into a sorted list keeps it sorted and adds exactly that span. |
| Matching.SortSpans | match_func.py:45 | The spans come back ordered by start and then by end, as a permutation of the input. |
| Matching.SortSortedSpans | match_func.py:45 | Sorting an already sorted list leaves it unchanged. |
| Matching.NonEmpty | match_func.py:54-55 | The `while '' in subs` loop removes every empty string and nothing else. The concatenation is unchanged. |
| Matching.NonMatchWord | match_func.py:41-56 | No gap is empty. With no spans, the result is the whole input, or nothing when the input is empty. |
| Matching.NonMatchWordUncovered | match_func.py:45-56 | For sorted spans inside the input, none nested in an earlier one (overlaps allowed), the gaps, joined, are the characters no span covers, in order. |
| Matching.NonMatchWordGaps | match_func.py:41-56 | For sorted, non-empty spans inside the input, none nested in an earlier one (overlaps allowed), the gaps are the maximal uncovered stretches, left to right: each gap is the slice of such a stretch, the stretches are separated, and every uncovered character lies in one of them. |
| Matching.NestedSpanReexposes | match_func.py:48-53 | For a span nested in an earlier one, `end` moves back, and text the earlier span covered is returned as unmatched. |
| Matching.CountHits | match_func.py:67-74 | The score of one main string is the number of patterns `kmp` reports, at most the number of patterns. |
| Matching.MatchScore | match_func.py:58-75 | There is one score per main string, and each is its `kmp` hit count. |
| Matching.MatchScoreSound | match_func.py:69-73 | A score never exceeds the number of patterns that really occur in the main string. |
| Matching.MaxOf | match_func.py:84 | `max(scores)` is an element that bounds every score. |
| Matching.IndicesOf | match_func.py:85-87 | The loop collects, in ascending order, exactly the indices holding the given value. |
| Matching.FindMaxScore | match_func.py:77-88 | An empty list raises `ValueError`. Otherwise the result is the ascending, non-empty list of exactly the positions of a maximal score. |
| Matching.InsertDesc | match_func.py:96 | Inserting into a non-increasing list keeps it non-increasing and adds exactly that element. |
| Matching.SortDesc | match_func.py:96 | The result is a non-increasing permutation of the similarities. |
| Matching.PrefixOfSorted | match_func.py:96 | A prefix of a descending permutation is a sub-multiset that dominates every element left out. |
| Matching.TopK | match_func.py:96 | `heapq.nlargest` keeps min(k, n) elements, non-increasing, drawn from the scores as a sub-multiset, each at least as large as every score left out. |
| Matching.Candidate | match_func.py:99-108 | A ranked similarity resolves through its first position in `score` to the first knowledge-graph row whose synonym is the synonym term there. A similarity that is not a score raises `ValueError`. The lookup succeeds when every position of the similarity names a listed synonym, and otherwise fails with the `list.index` or indexing error. |
| Matching.CandidateSubs | match_func.py:110-116 | There is one joined subword string per ranked candidate. Without its spaces it spells the subwords of the candidate's stripped synonym, and `split()` gives those subwords back whenever none holds whitespace. |
| Matching.CandidateSubMeaning | match_func.py:111-116 | For one synonym, the joined `candidate_sub` loses only spaces, and splits back into the synonym's subwords when they are whitespace-free. |
| Matching.RankItems | match_func.py:99-116 | The ranked lookups succeed exactly when every one does, and they give the candidate of each ranked score in order. |
| Matching.RankTop | match_func.py:98-119 | With nothing ranked, `standard_term` is unbound. Otherwise the lists are parallel, the answer is the last candidate, and equal similarities resolve to equal candidates. |
| Matching.TopKResult | match_func.py:90-119 | The call fails as unbound exactly when k or the score list is zero or empty. Otherwise the ranked list is `heapq.nlargest(k, score)`, in non-increasing order, and the answer is the standard term of the last one. |
| Matching.TopOneIsMaximal | match_func.py:96-119 | With k = 1, the answer is the candidate of a maximal similarity. |
| Matching.TopOneBounds | match_func.py:96 | The single largest score bounds every score. |
| Matching.MaxReal | match_func.py:141 | `max(final_score)` is an element that bounds every similarity. |
| Matching.SubwordFrequency | match_func.py:121-145 | With no ranked candidates the call raises `ValueError`. Otherwise it answers the candidate at the first ranked position whose similarity is the largest among the candidates with maximal subword-hit totals. |
| Matching.BestIsFirstMax | match_func.py:134-142 | In a descending ranking, that position has the same similarity as the first position of maximal total. |
| Matching.BestAmong | match_func.py:132-142 | Among the positions of maximal subword-hit total, the chosen position carries the largest similarity, and it is the first ranked position with that similarity. |
| Matching.SubwordFrequencyFirstMax | match_func.py:121-145 | For a descending ranking whose equal similarities name equal candidates, the answer is the candidate at the first position of maximal subword-hit total. |
| Matching.FindStandardTerm | match_func.py:147-166 | The call fails as unbound exactly when there are no scores. Otherwise the answer is the standard term of some score's candidate. Without the final flag that score is a maximal one. With it, the answer is the subword-frequency choice, against the input's subwords, among the `heapq.nlargest(5, score)` ranking. |
| Matching.FinalIsFirstMaximal | match_func.py:147-161 | With the final flag, the answer is the candidate at the first of the five best ranked positions whose subword-hit total is maximal. |
| Matching.FindStandardTermIsStandard | match_func.py:147-166 | Every answer of `find_standard_term` is a standard term of the knowledge graph. |
| Evaluate.Lookup | evaluate.py:63-79 | A subword longer than one character that is a standard term records itself. Otherwise a synonym records the standard term of its first row. Otherwise nothing is recorded. |
| Evaluate.SpanOf | evaluate.py:67-73 | `temp_str.index` gives the first occurrence as `[start, start + len]`, and fails exactly when the subword does not occur. |
| Evaluate.MatchLoop | evaluate.py:59-91 | Every recorded term is a standard term. Every recorded span is the first occurrence of a looked-up subword. There are no more spans than terms and no more terms than subwords. |
| Evaluate.MatchLoopTerms | evaluate.py:59-91 | A term is recorded if and only if it is the lookup of some subword. |
| Evaluate.MatchLoopTermsInOrder | evaluate.py:59-91 | The recorded terms are the lookups of the subwords found in the knowledge graph, one per such subword, in subword order. |
| Evaluate.MatchLoopSpans | evaluate.py:59-91 | A looked-up subword that occurs in the normalised input has its first-occurrence span recorded. When every looked-up subword occurs, there is one span per term. |
| Evaluate.MatchLoopSpansInOrder | evaluate.py:59-91 | The recorded spans are the first-occurrence spans of the subwords that are found in the knowledge graph and occur in the normalised input, one per such subword, in subword order. |
| Evaluate.MatchLoopShortWords | evaluate.py:63-76 | Subwords of at most one character record no term and no span. |
| Evaluate.InputSubwords | evaluate.py:46-56 | The combined subwords are non-empty and whitespace-free, and `re_eng` is the residue of `find_English_term`. |
| Evaluate.Analyse | evaluate.py:46-96 | The normalised input is lower-cased and stripped of punctuation. The matched terms are standard terms. Every span cuts a subword out of the normalised input. The gaps are the unmatched stretches of the raw input. |
| Evaluate.Decide | evaluate.py:99-125 | The query is answered directly exactly when there are no gaps and exactly one match. Otherwise the pool holds exactly the matches, gaps, subwords and jieba tokens. |
| Evaluate.DirectAnswerIsStandard | evaluate.py:99-103 | A direct answer is always a standard term. |
| Evaluate.Score | evaluate.py:128-130 | `score` counts exactly the rows whose synonym query is answered with that row's standard term. |
| Evaluate.Evaluation | evaluate.py:30-130 | The final count never exceeds the number of rows. |
| Bpe.Spaced | STEP-1-get-subword.py:175-179 | A key becomes its characters joined by single spaces. |
| Bpe.SpacedSymbols | STEP-1-get-subword.py:175-179 | A whitespace-free key spelt out splits back into its characters, and deleting the spaces recovers the key. |
| Bpe.MakeVocab | STEP-1-get-subword.py:166-181 | Every key is spelt out, and its count and position are kept. |
| Bpe.MergeSymbols | STEP-1-get-subword.py:206-209 | Merging an adjacent pair never adds symbols, keeps the text, and gives an empty result exactly for empty input. |
| Bpe.MergeSymbolsRuns | STEP-1-get-subword.py:206-209 | Merged symbols stay non-empty and whitespace-free. |
| Bpe.MergeSymbolsShrinks | STEP-1-get-subword.py:206-209 | Merging a pair that occurs removes at least one symbol. |
| Bpe.SubPairJoin | STEP-1-get-subword.py:206-209 | The boundary-anchored `re.sub` on a space-joined word is symbol-level merging, scanning left to right. |
| Bpe.SubPairSymbols | STEP-1-get-subword.py:206-209 | On a well-spaced word, the substitution splits into the merged symbols, stays well spaced, and keeps the characters. |
| Bpe.AddPair | STEP-1-get-subword.py:194 | `pairs[a, b] += freq` adds the count to exactly that pair, and keeps keys distinct. |
| Bpe.WordPairs | STEP-1-get-subword.py:192-194 | One word adds its count once for every adjacent occurrence of a pair. |
| Bpe.PairsFrom | STEP-1-get-subword.py:191-194 | The dictionary loop adds each pair's weighted occurrence count over the remaining words. |
| Bpe.GetPairs | STEP-1-get-subword.py:184-195 | `get_pairs` has distinct keys: exactly the pairs that occur. Each value is the count-weighted number of adjacent occurrences, and the values sum to all adjacent slots. |
| Bpe.GetPairsOrder | STEP-1-get-subword.py:184-195 | The keys of `get_pairs` are the adjacent pairs in order of first occurrence, word by word and left to right. |
| Bpe.FirstMax | STEP-1-get-subword.py:387 | The index is the first position of a maximal count. |
| Bpe.MaxPair | STEP-1-get-subword.py:387-390 | `max(pairs, key=pairs.get)` raises `ValueError` on an empty dictionary. Otherwise it gives the first pair with maximal count. |
| Bpe.MergeStepPicksFirst | STEP-1-get-subword.py:384-390 | The pair a merge step records is `max(pairs, key=pairs.get)`, so of the pairs counted most often it is the one that occurs first in the vocabulary. |
| Bpe.DictSet | STEP-1-get-subword.py:210 | `voc_out[w] = f` keeps keys distinct, adds the item, and appends only for a new key. |
| Bpe.MergeInto | STEP-1-get-subword.py:208-210 | Every output item carries the rewriting of some input word, and the keys stay distinct. |
| Bpe.MergePair | STEP-1-get-subword.py:198-211 | `merge_pair` gives distinct keys, never more items than the input, each the rewriting of an input word. |
| Bpe.MergePairNoCollapse | STEP-1-get-subword.py:198-211 | When no two words rewrite to the same key, `merge_pair` rewrites every word in place and keeps its count. |
| Bpe.MakeVocabWellSpaced | STEP-1-get-subword.py:166-181 | Spelling out whitespace-free keys gives well-spaced words. |
| Bpe.MergePairSpacing | STEP-1-get-subword.py:198-211 | Merging keeps words well spaced, and keeps the characters of some input word. |
| Bpe.KeyMergeShrinks | STEP-1-get-subword.py:384-397 | Merging any pair that `get_pairs` reports strictly lowers the total symbol count of the vocabulary. |
| Bpe.MergeStep | STEP-1-get-subword.py:384-397 | One iteration raises `ValueError` exactly when no pair occurs. Otherwise it merges a most frequent pair, with its exact count, into a well-spaced vocabulary with fewer symbols, each item spelt from an input word. |
| Bpe.MergeLoop | STEP-1-get-subword.py:382-397 | The loop starts with the first iteration's pair. Every recorded pair is a pair of symbols. Every recorded pair but the last occurred more than 500 times, and the last occurred 500 times or fewer. A vocabulary without adjacent symbols raises `ValueError`. |
| Bpe.MergeLoopTrace | STEP-1-get-subword.py:382-397 | The loop is a sequence of merge steps: each recorded pair is the pair of the next `MergeStep`, the pairs before the last all occurred more than 500 times, a successful loop returns exactly those pairs and the vocabulary they end in, and a failing loop ends at a vocabulary without adjacent symbols. |
| Bpe.MergeLoopVocabulary | STEP-1-get-subword.py:382-397 | The final vocabulary has distinct, well-spaced keys. Each key spells, without its spaces, some input word. |
| Bpe.GetMergedSubwords | STEP-1-get-subword.py:214-225 | The list holds one entry per symbol of the vocabulary, in order. Each entry is non-empty and whitespace-free, and they are exactly the vocabulary's symbols. |
| Bpe.LearnSubwords | STEP-1-get-subword.py:370-411 | The learned subwords are distinct, non-empty and whitespace-free, and each occurs in some counted word. The recorded pairs are those of the merge loop on the spelt-out counts, and obey the 500 threshold. The subwords are exactly the symbols of the loop's final vocabulary. The call fails exactly when the loop does. |
| Knowledge.KgWords | STEP-1-get-subword.py:71-88 | Each concept contributes its preferred name, then its synonyms when the list and its first entry are non-empty, at fixed offsets. |
| Knowledge.PreferNames | STEP-2-get-Knowledge-Graph.py:33-62 | The three lists are parallel. At each concept's offsets they hold the concept's words, its preferred name, and the length rule of lines 52-61. |
| Knowledge.PreferNamesAreKgWords | STEP-2-get-Knowledge-Graph.py:33-62 | STEP-2's name list is exactly STEP-1's `KG_words`. |
| Knowledge.ExpandedLengths | STEP-2-get-Knowledge-Graph.py:55-61 | Every word of an expanded concept records the concept's word count. |
| Knowledge.SingletonLength | STEP-2-get-Knowledge-Graph.py:52-53 | A concept with synonym list `[]` or `['']` contributes one word, with length 1. |
| Knowledge.EmptyFirstSynonymDropsAll | STEP-2-get-Knowledge-Graph.py:57 | An empty first synonym hides every synonym: only the preferred name is listed. |
| Knowledge.ChainShortens | STEP-2-get-Knowledge-Graph.py:165-167 | Deleting found subwords one after another removes at least their total length. |
| Knowledge.StripLoop | STEP-2-get-Knowledge-Graph.py:163-167 | The loop raises `IndexError` exactly when an empty subword is listed. Otherwise it walks the subword list in order: each subword `kmp` locates in the word as it then stands is recorded and deleted, each one `kmp` misses is skipped. The recorded subwords are a subsequence of the list, each present in the word it was deleted from. |
| Knowledge.StepsDetermined | STEP-2-get-Knowledge-Graph.py:163-167 | That walk has one outcome: the recorded subwords and the residue are fixed by the word and the subword list. |
| Knowledge.WordPieces | STEP-2-get-Knowledge-Graph.py:160-173 | An empty name records `['']`. A non-empty name fails exactly on an empty subword. Otherwise it records the subwords the in-order walk finds, then the split residue when one remains. |
| Knowledge.GetSubword | STEP-2-get-Knowledge-Graph.py:158-176 | The call fails exactly when some name fails. Otherwise it records one entry per name, in order. |
| Knowledge.WordPiecesShorten | STEP-2-get-Knowledge-Graph.py:162-173 | The residue plus the found subwords is never longer than the name, and finding a subword makes it strictly shorter. |

## Left out

- `cos_similarity`, `final_mapping` and `subword_mapping` (utility.py:23-39, match_func.py:168-210): these rank by floating-point cosine similarity. `final_mapping` is a parameter of the query, and the similarity scores are inputs of `Matching`.
- Similarity scores are `real`s, so NaN is not modelled. In the source, `cos_similarity` of a zero vector gives NaN, and `max` and `heapq.nlargest` then answer by comparison order, because every comparison with NaN is false.
- jieba (`jieba.lcut`), `np.mean` and vector negation are parameters. Vectors are opaque values.
- File and JSON I/O, `read_csv`, pandas, printing, the `__main__` blocks and the CSV files the offline steps write are not modelled. The knowledge graph, the subword list and the pretrained table are inputs.
- `max_len` is a parameter instead of `len(sub_list[0])`. With `header=None` (utility.py:18), that cell is whatever the first row holds. The model takes it positive. With `max_len == 0`, the `for i in range(self.max_len)` loops of FMM and BMM never run, so the cursor never moves and the source loops forever (subword_embedding.py:24-33 and 41-50). That case is reachable: `keep_default_na=False` reads an empty first cell as `''`, of length 0.
- The accuracy division `score / data_num` (evaluate.py:135-137) is floating point. Only the count `score` is modelled.
- Python set iteration order is not modelled. Where the source turns a set back into a list, the model fixes one order and states only the members where the order is arbitrary:
  - `get_subword` (subword_embedding.py:68) is `Dedup` in first-occurrence order (`Segment.SubwordList`). The order reaches the joined `candidate_sub` strings and the order of the direct matches. Because `kmp` can miss an occurrence depending on the text before it, a hit count could in principle depend on this order.
  - The deduplicated term list of STEP-1-get-subword.py:359-362 is the input list `counts` of `Bpe.LearnSubwords`. Its order decides ties: `Bpe.MaxPair` takes the first most frequent pair in dictionary order, so the pairs `Bpe.MergeLoop` and `Bpe.LearnSubwords` record follow the order of `counts`, which the model takes as given.
- `Strings.Lower` lower-cases ASCII letters only. Python's `lower()` also maps cased letters of other scripts; Chinese text has no case. `Normalise.Q2B` covers the full-width block and U+3000 only, as the source does.
- The STEP-1 and STEP-2 copies of `find_English_term` are not modelled. Both make the same `re.findall` and `re.sub` calls as the `utility.py` version, but they differ in what they return:
  - STEP-1-get-subword.py:132-151 takes the whole term list and returns one deduplicated list of all runs, in set order. It does not lower-case. It runs before the punctuation step (line 346), and `Bpe.LearnSubwords` starts from the counted words that follow it.
  - STEP-2-get-Knowledge-Graph.py:105-122 returns one run list per term and does not lower-case either. It is only called from commented-out lines (249 and 265).
  - Only the `utility.py` version (`Normalise.FindEnglishTerm`) lower-cases the runs.
- `eng_with_sub` of STEP-2-get-Knowledge-Graph.py:179-195 is never called and is not modelled.
- `count_terms` (STEP-1-get-subword.py:154-163) appears only through its effect on line 411, a duplicate-free subword list. The counts it computes there are discarded.
- `Bpe.LearnSubwords`: it requires whitespace-free keys. STEP-1's punctuation list deletes spaces and newlines from the terms, but not tabs or other whitespace, which `str.split()` would also cut on. It also accepts keys holding a backslash. `merge_pair` passes `''.join(pair)` to `re.sub` as the replacement (STEP-1-get-subword.py:209), and `re.sub` reads backslash escapes in it, while `Bpe.SubPair` copies the merged pair literally. STEP-1's punctuation list deletes `'\\'` first (STEP-1-get-subword.py:120), so the pipeline never builds such a key.
- `Bpe.MergeLoop`: it starts at the first iteration. The source initialises `max_freq = 10000`, so the loop always runs at least once. `merge_index` and the printed progress are left out.
- `Bpe.MergePair`: when two words rewrite to the same key, the later count replaces the earlier one, as `voc_out[w_out] = ...` does. The contract then states only key distinctness and provenance. `Bpe.MergePairNoCollapse` gives the exact result when no collapse happens.
- `Evaluate.Evaluation`: it states only that the count is at most the number of rows. `Evaluate.Score` states the exact meaning for any answer function.
- `Embedding.LoadFrom`: the `outvec != []` test (subword_embedding.py:178) is not modelled separately, because an embedding is an opaque vector. A missing embedding is `None`.
- A missing JSON key (`dict.get` returning `None`) is not modelled. Every concept has a preferred name and a synonym list.
- `Matching.RankTop`: the printed `Top 10 Mapping` line is left out.
- `Matching.NonMatchWordGaps`: it requires every span to cover at least one character. An empty span inside an uncovered stretch cuts the stretch into two gaps, which are then not maximal. The query never builds such a span, because only subwords longer than one character get one (`Evaluate.MatchLoopShortWords`). `Matching.NonMatchWordUncovered` needs no such requirement. Both lemmas also require that no span sits inside an earlier one (each span ends no earlier than the spans before it). Overlapping spans, which FMM and BMM pieces of one term produce, are covered. A nested span moves `end` back and re-exposes covered text, as `Matching.NestedSpanReexposes` shows, so the gaps are then not the uncovered stretches.
- `Matching.NonMatchWord`: its contract states that no gap is empty and the case without spans. Which stretches come back is stated by `Matching.NonMatchWordGaps`.
- `Matching.NonMatchWordUncovered`: it states the joined gaps only. Where each gap starts and ends is stated by `Matching.NonMatchWordGaps`. Like that lemma, it excludes a span nested in an earlier one.
- `Embedding.SubVectors`: its contract states provenance and emptiness only. The order and the number of the collected vectors are stated by `Embedding.SubVectorsSnoc` and `Embedding.SubVectorsPositions`.
- `Evaluate.MatchLoop`: its contract states bounds and soundness only. The order and multiplicity of the recorded terms and spans are stated by `Evaluate.MatchLoopTermsInOrder` and `Evaluate.MatchLoopSpansInOrder`.
- `Evaluate.MatchLoopTerms`: it states membership only. `Evaluate.MatchLoopTermsInOrder` states one term per found subword, in order.
- `Bpe.GetPairs`: its contract states the keys and values, not their order. The first-occurrence key order, which decides ties, is stated by `Bpe.GetPairsOrder`.
- `Bpe.MergeStep`: its contract states a most frequent pair. That it is the first one, as `max(pairs, key=pairs.get)` picks, is stated by `Bpe.MergeStepPicksFirst`.
- `Bpe.MergeLoop`: its contract pins the first pair and the threshold shape. The pairs after the first and the final vocabulary are stated by `Bpe.MergeLoopTrace`.
- `Normalise.FindEnglishTerm`: the residue is stated as a subsequence of the term that keeps every other character. Which letters survive the run-by-run `re.sub` calls is not characterised; `Normalise.ResidualKeepsSomeLetters` shows that some can.

=== FILE: bpe.dfy ===
/** Byte-pair-encoding vocabulary construction of the offline subword
    step: words are spelt out as space-separated symbols, adjacent symbol
    pairs are counted with the word frequencies, and the most frequent
    pair is merged until its frequency drops to the threshold. A Python
    dictionary is modelled as the list of its items in insertion order. */
module Bpe {
  import opened Wrappers
  import opened Strings

  /** One dictionary item: a word (or spelt-out word) and its count. */
  datatype Item = Item(word: string, freq: nat)

  /** A symbol pair `(a, b)` of `get_pairs`. */
  datatype Pair = Pair(left: string, right: string)

  // ---------------------------------------------------------------------
  // make_vocab

  /** The inner loop of `make_vocab`: the characters of `k`, each followed
      by a space except the last. */
  function Spaced(k: string): (r: string)
    ensures r == Join(" ", Letters(k))
    decreases |k|
  {
    if |k| <= 1 then
      assert |k| == 1 ==> Letters(k) == [k] by {
        if |k| == 1 {
          assert Letters(k)[0] == [k[0]] == k;
        }
      }
      k
    else
      var rest := Spaced(k[1..]);
      assert Letters(k) == [[k[0]]] + Letters(k[1..]);
      [k[0]] + " " + rest
  }

  /** The characters of a word free of whitespace are the symbols of its
      spelt-out form, and deleting the spaces gives the word back. */
  lemma {:induction false} SpacedSymbols(k: string)
    requires NoSep(k, IsSpace)
    ensures Split(Spaced(k)) == Letters(k)
    ensures Drop(Spaced(k), IsSpace) == k
  {
    assert IsSpace(' ');
    assert Runs(Letters(k), IsSpace) by {
      forall i | 0 <= i < |Letters(k)| ensures Letters(k)[i] != "" && NoSep(Letters(k)[i], IsSpace) {
        assert Letters(k)[i] == [k[i]] && k[i] in k;
      }
    }
    SplitJoin(Letters(k), IsSpace);
    JoinDropsSeparators(Letters(k), IsSpace);
    ConcatLetters(k);
    DropNone(k, IsSpace);
  }

  /** `make_vocab(dict_term)`: every key spelt out, its count kept, the
      order of the items kept. */
  function MakeVocab(counts: seq<Item>): (r: seq<Item>)
    ensures |r| == |counts|
    ensures forall i :: 0 <= i < |counts| ==> r[i].freq == counts[i].freq && r[i].word == Join(" ", Letters(counts[i].word))
  {
    seq(|counts|, i requires 0 <= i < |counts| => Item(Spaced(counts[i].word), counts[i].freq))
  }

  // ---------------------------------------------------------------------
  // merge_pair on one word

  /** `re.sub(r'(?<!\S)' + re.escape(pat) + r'(?!\S)', repl, w)` with a
      non-empty `pat`: scanning left to right, an occurrence of `pat`
      that is preceded by whitespace or the start (`boundary`) and
      followed by whitespace or the end is replaced; the scan resumes
      after it. `boundary` is whether the character before `w` in the
      whole string is whitespace. */
  function SubFrom(w: string, pat: string, repl: string, boundary: bool): string
    requires pat != ""
    decreases |w|
  {
    if w == "" then ""
    else if boundary && |pat| <= |w| && w[..|pat|] == pat && (|pat| == |w| || IsSpace(w[|pat|])) then
      repl + SubFrom(w[|pat|..], pat, repl, IsSpace(pat[|pat| - 1]))
    else [w[0]] + SubFrom(w[1..], pat, repl, IsSpace(w[0]))
  }

  /** The substitution `merge_pair` applies to one word. */
  function SubPair(w: string, p: Pair): string
  {
    SubFrom(w, p.left + " " + p.right, p.left + p.right, true)
  }

  /** Merging on symbols: scanning left to right, every adjacent `a, b`
      becomes `ab`, without overlaps. */
  function MergeSymbols(syms: seq<string>, p: Pair): (r: seq<string>)
    ensures |r| <= |syms|
    ensures (r == []) <==> (syms == [])
    ensures Concat(r) == Concat(syms)
    decreases |syms|
  {
    if |syms| >= 2 && syms[0] == p.left && syms[1] == p.right then
      var rest := MergeSymbols(syms[2..], p);
      assert Concat(syms) == syms[0] + (syms[1] + Concat(syms[2..])) by {
        assert syms[1..][0] == syms[1] && syms[1..][1..] == syms[2..];
      }
      [p.left + p.right] + rest
    else if syms == [] then []
    else
      [syms[0]] + MergeSymbols(syms[1..], p)
  }

  /** Merging keeps symbols non-empty and free of whitespace. */
  lemma {:induction false} MergeSymbolsRuns(syms: seq<string>, p: Pair)
    requires Runs(syms, IsSpace)
    ensures Runs(MergeSymbols(syms, p), IsSpace)
    decreases |syms|
  {
    var r := MergeSymbols(syms, p);
    if |syms| >= 2 && syms[0] == p.left && syms[1] == p.right {
      RunsDrop(syms, 2);
      MergeSymbolsRuns(syms[2..], p);
      var ab := p.left + p.right;
      assert NoSep(syms[0], IsSpace) && NoSep(syms[1], IsSpace);
      assert NoSep(ab, IsSpace) by {
        forall c | c in ab ensures !IsSpace(c) {
          assert c in syms[0] || c in syms[1];
        }
      }
      assert r == [ab] + MergeSymbols(syms[2..], p);
      assert forall k :: 1 <= k < |r| ==> r[k] == MergeSymbols(syms[2..], p)[k - 1];
    } else if syms != [] {
      RunsDrop(syms, 1);
      MergeSymbolsRuns(syms[1..], p);
      assert r == [syms[0]] + MergeSymbols(syms[1..], p);
      assert forall k :: 1 <= k < |r| ==> r[k] == MergeSymbols(syms[1..], p)[k - 1];
    }
  }

  /** Merging a pair that occurs removes at least one symbol. */
  lemma {:induction false} MergeSymbolsShrinks(syms: seq<string>, p: Pair)
    requires Adjacent(syms, p) > 0
    ensures |MergeSymbols(syms, p)| < |syms|
    decreases |syms|
  {
    if !(syms[0] == p.left && syms[1] == p.right) {
      assert Adjacent(syms[1..], p) > 0;
      MergeSymbolsShrinks(syms[1..], p);
    }
  }

  /** Characters that are not whitespace pass through the scan, which
      stays off a boundary. */
  lemma {:induction false} PassThrough(x: string, tail: string, pat: string, repl: string)
    requires pat != "" && NoSep(x, IsSpace)
    ensures SubFrom(x + tail, pat, repl, false) == x + SubFrom(tail, pat, repl, false)
    decreases |x|
  {
    if x == "" {
      assert x + tail == tail;
    } else {
      assert (x + tail)[0] == x[0] && (x + tail)[1..] == x[1..] + tail;
      assert x[0] in x;
      assert NoSep(x[1..], IsSpace) by {
        forall c | c in x[1..] ensures !IsSpace(c) {
          assert c in x;
        }
      }
      PassThrough(x[1..], tail, pat, repl);
      assert SubFrom(x + tail, pat, repl, false) == [x[0]] + SubFrom(x[1..] + tail, pat, repl, false);
      assert x == [x[0]] + x[1..];
    }
  }

  /** A space ends a stretch off the boundary and starts a boundary. */
  lemma {:induction false} SpaceStep(j: string, pat: string, repl: string)
    requires pat != ""
    ensures SubFrom(" " + j, pat, repl, false) == " " + SubFrom(j, pat, repl, true)
  {
    assert (" " + j)[0] == ' ' && (" " + j)[1..] == j;
    assert IsSpace(' ');
  }

  /** The length of the leading whitespace-free stretch of `s`. */
  function WordLen(s: string): nat
    decreases |s|
  {
    if s == "" || IsSpace(s[0]) then 0 else 1 + WordLen(s[1..])
  }

  lemma {:induction false} WordLenOf(x: string, t: string)
    requires NoSep(x, IsSpace)
    requires t == "" || IsSpace(t[0])
    ensures WordLen(x + t) == |x|
    decreases |x|
  {
    if x == "" {
      assert x + t == t;
    } else {
      assert (x + t)[0] == x[0] && x[0] in x;
      assert (x + t)[1..] == x[1..] + t;
      assert NoSep(x[1..], IsSpace) by {
        forall c | c in x[1..] ensures !IsSpace(c) {
          assert c in x;
        }
      }
      WordLenOf(x[1..], t);
    }
  }

  /** A whitespace-free word followed by whitespace or the end is
      determined by the string it starts. */
  lemma {:induction false} WordBoundary(x: string, t: string, v: string, u: string)
    requires NoSep(x, IsSpace) && NoSep(v, IsSpace)
    requires t == "" || IsSpace(t[0])
    requires u == "" || IsSpace(u[0])
    requires x + t == v + u
    ensures x == v && t == u
  {
    WordLenOf(x, t);
    WordLenOf(v, u);
    assert x == (x + t)[..|x|] && v == (v + u)[..|v|];
    assert t == (x + t)[|x|..] && u == (v + u)[|v|..];
  }

  /** `Join` peels off its first element. */
  lemma {:induction false} JoinHead(syms: seq<string>)
    requires syms != []
    ensures Join(" ", syms) == syms[0] + (if |syms| == 1 then "" else " " + Join(" ", syms[1..]))
  {
    if |syms| > 1 {
      JoinStep(syms);
    }
  }

  predicate Symbol(s: string)
  {
    s != "" && NoSep(s, IsSpace)
  }

  /** The tail of a list of symbols is a list of symbols. */
  lemma {:induction false} RunsDrop(syms: seq<string>, n: nat)
    requires Runs(syms, IsSpace) && n <= |syms|
    ensures Runs(syms[n..], IsSpace)
  {
    forall k | 0 <= k < |syms[n..]| ensures syms[n..][k] != "" && NoSep(syms[n..][k], IsSpace) {
      assert syms[n..][k] == syms[k + n];
    }
  }

  /** What follows the first symbol of a joined list: nothing, or a
      space and the rest. */
  function After(syms: seq<string>): string
    requires syms != []
  {
    if |syms| == 1 then "" else " " + Join(" ", syms[1..])
  }

  lemma {:induction false} JoinAfter(syms: seq<string>)
    requires syms != []
    ensures Join(" ", syms) == syms[0] + After(syms)
    ensures After(syms) == "" || IsSpace(After(syms)[0])
  {
    JoinHead(syms);
    assert IsSpace(' ');
  }

  /** A match at a boundary is replaced and the scan resumes after it. */
  lemma {:induction false} SubFromMatch(pat: string, repl: string, t: string)
    requires pat != "" && (t == "" || IsSpace(t[0]))
    ensures SubFrom(pat + t, pat, repl, true) == repl + SubFrom(t, pat, repl, IsSpace(pat[|pat| - 1]))
  {
    var w := pat + t;
    assert w[..|pat|] == pat && w[|pat|..] == t;
    assert |pat| == |w| || w[|pat|] == t[0];
  }

  /** A list starting with the pair joins to the pattern `a b` and what
      follows the second symbol. */
  lemma {:induction false} HeadPattern(syms: seq<string>, p: Pair)
    requires |syms| >= 2 && syms[0] == p.left && syms[1] == p.right
    ensures Join(" ", syms) == (p.left + " " + p.right) + After(syms[1..])
    ensures After(syms[1..]) == "" || IsSpace(After(syms[1..])[0])
  {
    JoinAfter(syms);
    JoinAfter(syms[1..]);
    assert syms[1..][0] == syms[1];
    calc {
      Join(" ", syms);
      syms[0] + After(syms);
      p.left + (" " + Join(" ", syms[1..]));
      p.left + (" " + (p.right + After(syms[1..])));
      { AppendAssoc(p.left, " ", p.right + After(syms[1..]));
        AppendAssoc(p.left + " ", p.right, After(syms[1..])); }
      (p.left + " " + p.right) + After(syms[1..]);
    }
  }

  /** A symbol does not end in whitespace. */
  lemma {:induction false} SymbolLast(s: string)
    requires Symbol(s)
    ensures !IsSpace(s[|s| - 1])
  {
    assert s[|s| - 1] in s;
  }

  /** The step of `SubPairJoin` where the first two symbols are the pair. */
  lemma {:induction false} MergeAtHead(syms: seq<string>, p: Pair)
    requires Symbol(p.right)
    requires |syms| >= 2 && syms[0] == p.left && syms[1] == p.right
    requires SubPair(Join(" ", syms[2..]), p) == Join(" ", MergeSymbols(syms[2..], p))
    ensures SubPair(Join(" ", syms), p) == Join(" ", MergeSymbols(syms, p))
  {
    var pat, repl := p.left + " " + p.right, p.left + p.right;
    var t2 := After(syms[1..]);
    var m := MergeSymbols(syms[2..], p);
    HeadPattern(syms, p);
    SymbolLast(p.right);
    assert pat[|pat| - 1] == p.right[|p.right| - 1];
    SubFromMatch(pat, repl, t2);
    assert SubPair(Join(" ", syms), p) == repl + SubFrom(t2, pat, repl, false);
    assert MergeSymbols(syms, p) == [repl] + m;
    assert syms[1..][1..] == syms[2..];
    if |syms| == 2 {
      assert t2 == "";
      assert m == [];
    } else {
      assert t2 == " " + Join(" ", syms[2..]);
      SpaceStep(Join(" ", syms[2..]), pat, repl);
      assert m != [];
      JoinAfter([repl] + m);
      assert ([repl] + m)[1..] == m;
    }
  }

  /** The pattern matches at the start of `w` after a boundary and
      before whitespace or the end. */
  predicate MatchesAt(w: string, pat: string)
  {
    |pat| <= |w| && w[..|pat|] == pat && (|pat| == |w| || IsSpace(w[|pat|]))
  }

  /** Where the pattern `a b` matches at the start of `x`, `x` begins
      with `a`, a space and `b`, and the rest starts at a boundary. */
  lemma {:induction false} MatchShape(w: string, a: string, b: string)
    requires MatchesAt(w, a + " " + b)
    ensures w == a + (" " + (b + w[|a + " " + b|..]))
    ensures w[|a + " " + b|..] == "" || IsSpace(w[|a + " " + b|..][0])
  {
  }

  lemma {:induction false} SpaceAt(x: string, a: string, rest: string)
    ensures x == a + (" " + rest) ==> x[|a|] in x && IsSpace(x[|a|])
  {
    if x == a + (" " + rest) {
      assert x[|a|] == ' ';
    }
  }

  /** A single symbol never matches the pattern: it holds no space. */
  lemma {:induction false} NoMatchOne(x: string, a: string, b: string)
    requires Symbol(x) && Symbol(a)
    ensures !MatchesAt(x, a + " " + b)
  {
    if MatchesAt(x, a + " " + b) {
      MatchShape(x, a, b);
      SpaceAt(x, a, b + x[|a + " " + b|..]);
      assert false;
    }
  }

  /** Two symbols `x y` followed by a boundary match the pattern `a b`
      only when they are `a` and `b`. */
  lemma {:induction false} NoMatchTwo(x: string, y: string, t: string, a: string, b: string)
    requires Symbol(x) && Symbol(y) && Symbol(a) && Symbol(b)
    requires t == "" || IsSpace(t[0])
    requires !(x == a && y == b)
    ensures !MatchesAt(x + (" " + (y + t)), a + " " + b)
  {
    var w := x + (" " + (y + t));
    if MatchesAt(w, a + " " + b) {
      MatchShape(w, a, b);
      var rest0 := w[|a + " " + b|..];
      assert IsSpace(' ');
      WordBoundary(x, " " + (y + t), a, " " + (b + rest0));
      assert (" " + (y + t))[1..] == y + t && (" " + (b + rest0))[1..] == b + rest0;
      WordBoundary(y, t, b, rest0);
      assert false;
    }
  }

  /** No match can start at a symbol unless the symbol and the next are
      the pair. */
  lemma {:induction false} NoMatchAtHead(syms: seq<string>, p: Pair)
    requires Runs(syms, IsSpace) && Symbol(p.left) && Symbol(p.right)
    requires syms != [] && !(|syms| >= 2 && syms[0] == p.left && syms[1] == p.right)
    ensures !MatchesAt(Join(" ", syms), p.left + " " + p.right)
  {
    JoinAfter(syms);
    assert Symbol(syms[0]);
    if |syms| == 1 {
      NoMatchOne(syms[0], p.left, p.right);
    } else {
      JoinAfter(syms[1..]);
      assert syms[1..][0] == syms[1];
      assert Symbol(syms[1]);
      NoMatchTwo(syms[0], syms[1], After(syms[1..]), p.left, p.right);
    }
  }

  /** A symbol at which nothing matches is copied, and the scan is off
      the boundary after it. */
  lemma {:induction false} KeepWord(x: string, t: string, pat: string, repl: string)
    requires Symbol(x) && pat != "" && !MatchesAt(x + t, pat)
    ensures SubFrom(x + t, pat, repl, true) == x + SubFrom(t, pat, repl, false)
  {
    var w := x + t;
    assert !IsSpace(x[0]) by {
      assert x[0] in x;
    }
    assert w[0] == x[0] && w[1..] == x[1..] + t;
    assert NoSep(x[1..], IsSpace) by {
      forall c | c in x[1..] ensures !IsSpace(c) {
        assert c in x;
      }
    }
    PassThrough(x[1..], t, pat, repl);
    assert x == [x[0]] + x[1..];
  }

  /** The step of `SubPairJoin` where the first symbol is kept. */
  lemma {:induction false} KeepHead(syms: seq<string>, p: Pair)
    requires Runs(syms, IsSpace) && Symbol(p.left) && Symbol(p.right)
    requires syms != [] && !(|syms| >= 2 && syms[0] == p.left && syms[1] == p.right)
    requires SubPair(Join(" ", syms[1..]), p) == Join(" ", MergeSymbols(syms[1..], p))
    ensures SubPair(Join(" ", syms), p) == Join(" ", MergeSymbols(syms, p))
  {
    var pat, repl := p.left + " " + p.right, p.left + p.right;
    var x := syms[0];
    var t := After(syms);
    JoinAfter(syms);
    NoMatchAtHead(syms, p);
    assert Symbol(x);
    KeepWord(x, t, pat, repl);
    var m := MergeSymbols(syms[1..], p);
    assert MergeSymbols(syms, p) == [x] + m;
    if |syms| > 1 {
      SpaceStep(Join(" ", syms[1..]), pat, repl);
      JoinAfter([x] + m);
      assert ([x] + m)[1..] == m;
    }
  }

  /** `merge_pair` on a word spelt as single-spaced symbols merges the
      adjacent whole symbols `a, b`: the look-around assertions keep the
      pattern from matching inside a symbol. */
  lemma {:induction false} SubPairJoin(syms: seq<string>, p: Pair)
    requires Runs(syms, IsSpace) && Symbol(p.left) && Symbol(p.right)
    ensures SubPair(Join(" ", syms), p) == Join(" ", MergeSymbols(syms, p))
    decreases |syms|
  {
    if syms != [] {
      if |syms| >= 2 && syms[0] == p.left && syms[1] == p.right {
        RunsDrop(syms, 2);
        SubPairJoin(syms[2..], p);
        MergeAtHead(syms, p);
      } else {
        RunsDrop(syms, 1);
        SubPairJoin(syms[1..], p);
        KeepHead(syms, p);
      }
    }
  }

  // ---------------------------------------------------------------------
  // get_pairs

  /** One item of the `pairs` dictionary. */
  datatype Counted = Counted(pair: Pair, freq: nat)

  function PairsOf(d: seq<Counted>): (r: seq<Pair>)
    ensures |r| == |d| && forall i :: 0 <= i < |d| ==> r[i] == d[i].pair
  {
    seq(|d|, i requires 0 <= i < |d| => d[i].pair)
  }

  predicate DistinctPairs(d: seq<Counted>)
  {
    forall i, j :: 0 <= i < j < |d| ==> d[i].pair != d[j].pair
  }

  /** `pairs[p]` of a `defaultdict(int)`: 0 for a missing key. */
  function Value(d: seq<Counted>, p: Pair): nat
  {
    match Find(PairsOf(d), p)
    case None => 0
    case Some(i) => d[i].freq
  }

  /** The sum of all values. */
  function Sum(d: seq<Counted>): nat
  {
    if d == [] then 0 else d[0].freq + Sum(d[1..])
  }

  lemma {:induction false} SumUpdate(d: seq<Counted>, i: nat, x: Counted)
    requires i < |d|
    ensures Sum(d[i := x]) + d[i].freq == Sum(d) + x.freq
    decreases |d|
  {
    if i > 0 {
      assert d[i := x][1..] == d[1..][i - 1 := x];
      SumUpdate(d[1..], i - 1, x);
    }
  }

  lemma {:induction false} SumAppend(d: seq<Counted>, x: Counted)
    ensures Sum(d + [x]) == Sum(d) + x.freq
    decreases |d|
  {
    if d == [] {
      assert [x][1..] == [];
    } else {
      assert (d + [x])[1..] == d[1..] + [x];
      SumAppend(d[1..], x);
    }
  }

  /** `r` is `d` after `pairs[p] += f`. */
  ghost predicate Added(d: seq<Counted>, r: seq<Counted>, p: Pair, f: nat)
  {
    (DistinctPairs(d) ==> DistinctPairs(r)) &&
    (forall q :: Value(r, q) == Value(d, q) + (if q == p then f else 0)) &&
    (forall q :: q in PairsOf(r) <==> q in PairsOf(d) || q == p) &&
    Sum(r) == Sum(d) + f
  }

  /** `pairs[p] += f`. */
  function AddPair(d: seq<Counted>, p: Pair, f: nat): (r: seq<Counted>)
    ensures DistinctPairs(d) ==> DistinctPairs(r)
    ensures forall q :: Value(r, q) == Value(d, q) + (if q == p then f else 0)
    ensures forall q :: q in PairsOf(r) <==> q in PairsOf(d) || q == p
    ensures Sum(r) == Sum(d) + f
  {
    match Find(PairsOf(d), p)
    case Some(i) =>
      var r := d[i := Counted(p, d[i].freq + f)];
      AddPresent(d, p, f, i);
      r
    case None =>
      var r := d + [Counted(p, f)];
      AddAbsent(d, p, f);
      r
  }

  /** A key already present has its value raised in place. */
  lemma {:induction false} AddPresent(d: seq<Counted>, p: Pair, f: nat, i: nat)
    requires Find(PairsOf(d), p) == Some(i)
    ensures Added(d, d[i := Counted(p, d[i].freq + f)], p, f)
  {
    var r := d[i := Counted(p, d[i].freq + f)];
    assert PairsOf(r) == PairsOf(d);
    SumUpdate(d, i, Counted(p, d[i].freq + f));
  }

  /** A missing key is appended with the value `f`. */
  lemma {:induction false} AddAbsent(d: seq<Counted>, p: Pair, f: nat)
    requires Find(PairsOf(d), p) == None
    ensures Added(d, d + [Counted(p, f)], p, f)
  {
    var r := d + [Counted(p, f)];
    assert PairsOf(r) == PairsOf(d) + [p];
    forall q | q != p ensures Find(PairsOf(r), q) == Find(PairsOf(d), q) {
      FindAppend(PairsOf(d), p, q);
    }
    assert Find(PairsOf(r), p) == Some(|d|);
    SumAppend(d, Counted(p, f));
  }

  lemma {:induction false} FindAppend(xs: seq<Pair>, p: Pair, q: Pair)
    requires q != p
    ensures Find(xs + [p], q) == Find(xs, q)
    decreases |xs|
  {
    if xs != [] {
      assert (xs + [p])[1..] == xs[1..] + [p];
      FindAppend(xs[1..], p, q);
    } else {
      assert [p][1..] == [];
    }
  }

  /** The number of adjacent positions of `syms` holding the pair `q`. */
  function Adjacent(syms: seq<string>, q: Pair): nat
    decreases |syms|
  {
    if |syms| < 2 then 0
    else (if Pair(syms[0], syms[1]) == q then 1 else 0) + Adjacent(syms[1..], q)
  }

  /** The number of adjacent positions, `len(symbols) - 1` but never
      negative. */
  function Slots(syms: seq<string>): nat
  {
    if syms == [] then 0 else |syms| - 1
  }

  /** The adjacent pairs of a word, left to right. */
  function WordAdj(syms: seq<string>): (r: seq<Pair>)
    ensures |r| == Slots(syms)
    decreases |syms|
  {
    if |syms| < 2 then [] else [Pair(syms[0], syms[1])] + WordAdj(syms[1..])
  }

  /** The adjacent pairs of every word, word by word: the order in which
      `get_pairs` visits them. */
  function AllPairs(v: seq<Item>): seq<Pair>
  {
    if v == [] then [] else WordAdj(SymbolsOf(v[0])) + AllPairs(v[1..])
  }

  /** The keys of a dictionary with keys `seen` after inserting `xs` in
      order: a key new to the dictionary goes last, a present one stays. */
  function Firsts(seen: seq<Pair>, xs: seq<Pair>): seq<Pair>
    decreases |xs|
  {
    if xs == [] then seen
    else Firsts(if xs[0] in seen then seen else seen + [xs[0]], xs[1..])
  }

  /** The position of the first occurrence of `q` in `xs`; `|xs|` when
      there is none. */
  function FirstAt(xs: seq<Pair>, q: Pair): (r: nat)
    ensures r <= |xs| && (r < |xs| <==> q in xs)
  {
    match Find(xs, q)
    case None => |xs|
    case Some(i) => i
  }

  /** `seen` lists the elements of `xs`, each once, in the order of their
      first occurrence in `xs`. */
  ghost predicate FirstOccurrenceOrder(seen: seq<Pair>, xs: seq<Pair>)
  {
    (forall i :: 0 <= i < |seen| ==> seen[i] in xs) &&
    (forall k :: 0 <= k < |xs| ==> xs[k] in seen) &&
    forall i, j :: 0 <= i < j < |seen| ==> FirstAt(xs, seen[i]) < FirstAt(xs, seen[j])
  }

  lemma {:induction false} FirstAtAppend(xs: seq<Pair>, x: Pair, q: Pair)
    ensures q in xs ==> FirstAt(xs + [x], q) == FirstAt(xs, q)
    ensures q !in xs && q == x ==> FirstAt(xs + [x], q) == |xs|
  {
    if q in xs {
      var i := Find(xs, q).value;
      assert (xs + [x])[i] == q;
    } else if q == x {
      assert (xs + [x])[|xs|] == q;
    }
  }

  /** Inserting one key keeps the keys in the order of first occurrence. */
  lemma {:induction false} FirstOrderStep(seen: seq<Pair>, done: seq<Pair>, x: Pair)
    requires FirstOccurrenceOrder(seen, done)
    ensures FirstOccurrenceOrder(if x in seen then seen else seen + [x], done + [x])
  {
    var seen' := if x in seen then seen else seen + [x];
    var done' := done + [x];
    forall q | q in done ensures FirstAt(done', q) == FirstAt(done, q) {
      FirstAtAppend(done, x, q);
    }
    FirstAtAppend(done, x, x);
    forall i, j | 0 <= i < j < |seen'| ensures FirstAt(done', seen'[i]) < FirstAt(done', seen'[j]) {
      assert seen'[i] in seen;
      if j < |seen| {
        assert seen'[j] == seen[j];
      }
    }
  }

  /** Inserting the rest of `all` after its first `k` elements keeps the
      keys in the order of first occurrence. */
  lemma {:induction false} FirstsOrder(seen: seq<Pair>, all: seq<Pair>, k: nat)
    requires k <= |all| && FirstOccurrenceOrder(seen, all[..k])
    ensures FirstOccurrenceOrder(Firsts(seen, all[k..]), all)
    decreases |all| - k
  {
    if k == |all| {
      assert all[..k] == all && all[k..] == [];
    } else {
      var x := all[k];
      var seen' := if x in seen then seen else seen + [x];
      assert all[k..][0] == x && all[k..][1..] == all[k + 1..];
      assert Firsts(seen, all[k..]) == Firsts(seen', all[k + 1..]);
      assert all[..k] + [x] == all[..k + 1];
      FirstOrderStep(seen, all[..k], x);
      FirstsOrder(seen', all, k + 1);
    }
  }

  /** The keys inserted from nothing are in the order of first occurrence. */
  lemma {:induction false} FirstsFromEmpty(xs: seq<Pair>)
    ensures FirstOccurrenceOrder(Firsts([], xs), xs)
  {
    assert xs[..0] == [] && xs[0..] == xs;
    FirstsOrder([], xs, 0);
  }

  lemma {:induction false} FirstsAppend(seen: seq<Pair>, a: seq<Pair>, b: seq<Pair>)
    ensures Firsts(seen, a + b) == Firsts(Firsts(seen, a), b)
    decreases |a|
  {
    if a != [] {
      assert (a + b)[0] == a[0] && (a + b)[1..] == a[1..] + b;
      FirstsAppend(if a[0] in seen then seen else seen + [a[0]], a[1..], b);
    } else {
      assert a + b == b;
    }
  }

  /** The `for i in range(len(symbols) - 1)` loop for one word. */
  function WordPairs(d: seq<Counted>, syms: seq<string>, f: nat): (r: seq<Counted>)
    ensures DistinctPairs(d) ==> DistinctPairs(r)
    ensures forall q :: Value(r, q) == Value(d, q) + f * Adjacent(syms, q)
    ensures forall q :: q in PairsOf(r) <==> q in PairsOf(d) || Adjacent(syms, q) > 0
    ensures Sum(r) == Sum(d) + f * Slots(syms)
    decreases |syms|
  {
    if |syms| < 2 then d
    else
      var p := Pair(syms[0], syms[1]);
      var d' := AddPair(d, p, f);
      var r := WordPairs(d', syms[1..], f);
      WordPairsStep(d, d', r, syms, f);
      r
  }

  /** One position of the word loop: the dictionary after `pairs[p] += f`
      and the rest of the loop accounts for the whole word. */
  lemma {:induction false} WordPairsStep(d: seq<Counted>, d': seq<Counted>, r: seq<Counted>, syms: seq<string>, f: nat)
    requires |syms| >= 2
    requires forall q :: Value(d', q) == Value(d, q) + (if q == Pair(syms[0], syms[1]) then f else 0)
    requires forall q :: q in PairsOf(d') <==> q in PairsOf(d) || q == Pair(syms[0], syms[1])
    requires Sum(d') == Sum(d) + f
    requires forall q :: Value(r, q) == Value(d', q) + f * Adjacent(syms[1..], q)
    requires forall q :: q in PairsOf(r) <==> q in PairsOf(d') || Adjacent(syms[1..], q) > 0
    requires Sum(r) == Sum(d') + f * Slots(syms[1..])
    ensures forall q :: Value(r, q) == Value(d, q) + f * Adjacent(syms, q)
    ensures forall q :: q in PairsOf(r) <==> q in PairsOf(d) || Adjacent(syms, q) > 0
    ensures Sum(r) == Sum(d) + f * Slots(syms)
  {
    var p := Pair(syms[0], syms[1]);
    forall q ensures Value(r, q) == Value(d, q) + f * Adjacent(syms, q) {
      var a := if q == p then 1 else 0;
      assert Adjacent(syms, q) == a + Adjacent(syms[1..], q);
      MulAdd(f, a, Adjacent(syms[1..], q));
    }
    forall q ensures q in PairsOf(r) <==> q in PairsOf(d) || Adjacent(syms, q) > 0 {
      assert Adjacent(syms, q) == (if q == p then 1 else 0) + Adjacent(syms[1..], q);
    }
    assert Slots(syms) == 1 + Slots(syms[1..]);
    MulAdd(f, 1, Slots(syms[1..]));
  }

  lemma {:induction false} MulAdd(f: nat, a: nat, b: nat)
    ensures f * (a + b) == f * a + f * b
  {
  }

  /** Symbols spelt by an item. */
  function SymbolsOf(it: Item): seq<string>
  {
    Split(it.word)
  }

  /** The reference count: the frequency-weighted number of adjacent
      positions holding `q`, over all words. */
  function Count(v: seq<Item>, q: Pair): nat
  {
    if v == [] then 0 else v[0].freq * Adjacent(SymbolsOf(v[0]), q) + Count(v[1..], q)
  }

  /** Some word holds `q` at adjacent positions. */
  predicate OccursIn(v: seq<Item>, q: Pair)
  {
    exists i :: 0 <= i < |v| && Adjacent(SymbolsOf(v[i]), q) > 0
  }

  /** The frequency-weighted number of adjacent positions over all words. */
  function TotalSlots(v: seq<Item>): nat
  {
    if v == [] then 0 else v[0].freq * Slots(SymbolsOf(v[0])) + TotalSlots(v[1..])
  }

  /** The `for word, freq in vocab.items()` loop. */
  function PairsFrom(d: seq<Counted>, v: seq<Item>): (r: seq<Counted>)
    ensures DistinctPairs(d) ==> DistinctPairs(r)
    ensures forall q :: Value(r, q) == Value(d, q) + Count(v, q)
    ensures forall q :: q in PairsOf(r) <==> q in PairsOf(d) || OccursIn(v, q)
    ensures Sum(r) == Sum(d) + TotalSlots(v)
    decreases |v|
  {
    if v == [] then d
    else
      var d' := WordPairs(d, SymbolsOf(v[0]), v[0].freq);
      var r := PairsFrom(d', v[1..]);
      PairsFromStep(d, d', r, v);
      r
  }

  /** One word of the vocabulary loop: its pairs and the rest of the loop
      account for the whole vocabulary. */
  lemma {:induction false} PairsFromStep(d: seq<Counted>, d': seq<Counted>, r: seq<Counted>, v: seq<Item>)
    requires v != []
    requires forall q :: Value(d', q) == Value(d, q) + v[0].freq * Adjacent(SymbolsOf(v[0]), q)
    requires forall q :: q in PairsOf(d') <==> q in PairsOf(d) || Adjacent(SymbolsOf(v[0]), q) > 0
    requires Sum(d') == Sum(d) + v[0].freq * Slots(SymbolsOf(v[0]))
    requires forall q :: Value(r, q) == Value(d', q) + Count(v[1..], q)
    requires forall q :: q in PairsOf(r) <==> q in PairsOf(d') || OccursIn(v[1..], q)
    requires Sum(r) == Sum(d') + TotalSlots(v[1..])
    ensures forall q :: Value(r, q) == Value(d, q) + Count(v, q)
    ensures forall q :: q in PairsOf(r) <==> q in PairsOf(d) || OccursIn(v, q)
    ensures Sum(r) == Sum(d) + TotalSlots(v)
  {
    forall q ensures OccursIn(v, q) <==> Adjacent(SymbolsOf(v[0]), q) > 0 || OccursIn(v[1..], q) {
      OccursInCons(v, q);
    }
    forall q ensures Value(r, q) == Value(d, q) + Count(v, q) {
      assert Count(v, q) == v[0].freq * Adjacent(SymbolsOf(v[0]), q) + Count(v[1..], q);
    }
    assert TotalSlots(v) == v[0].freq * Slots(SymbolsOf(v[0])) + TotalSlots(v[1..]);
  }

  lemma {:induction false} OccursInCons(v: seq<Item>, q: Pair)
    requires v != []
    ensures OccursIn(v, q) <==> Adjacent(SymbolsOf(v[0]), q) > 0 || OccursIn(v[1..], q)
  {
    if OccursIn(v, q) && Adjacent(SymbolsOf(v[0]), q) == 0 {
      var i :| 0 <= i < |v| && Adjacent(SymbolsOf(v[i]), q) > 0;
      assert v[1..][i - 1] == v[i];
    }
    if OccursIn(v[1..], q) {
      var i :| 0 <= i < |v[1..]| && Adjacent(SymbolsOf(v[1..][i]), q) > 0;
      assert v[i + 1] == v[1..][i];
    }
  }

  /** `get_pairs(vocab)`: every pair's value is the frequency-weighted
      count of its adjacent positions; the values add up to the
      frequency-weighted number of adjacent positions; the keys are the
      pairs that occur, each once. */
  function GetPairs(v: seq<Item>): (r: seq<Counted>)
    ensures DistinctPairs(r)
    ensures forall q :: Value(r, q) == Count(v, q)
    ensures forall q :: q in PairsOf(r) <==> OccursIn(v, q)
    ensures Sum(r) == TotalSlots(v)
  {
    assert forall q :: Value([], q) == 0;
    PairsFrom([], v)
  }

  /** `pairs[p] += f` appends a new key and leaves a present one in place. */
  lemma {:induction false} AddPairKeys(d: seq<Counted>, p: Pair, f: nat)
    ensures PairsOf(AddPair(d, p, f)) == if p in PairsOf(d) then PairsOf(d) else PairsOf(d) + [p]
  {
    match Find(PairsOf(d), p)
    case Some(i) =>
      assert PairsOf(d[i := Counted(p, d[i].freq + f)]) == PairsOf(d);
    case None =>
      assert PairsOf(d + [Counted(p, f)]) == PairsOf(d) + [p];
  }

  /** The word loop inserts the word's pairs left to right. */
  lemma {:induction false} WordPairsKeys(d: seq<Counted>, syms: seq<string>, f: nat)
    ensures PairsOf(WordPairs(d, syms, f)) == Firsts(PairsOf(d), WordAdj(syms))
    decreases |syms|
  {
    if |syms| >= 2 {
      var p := Pair(syms[0], syms[1]);
      AddPairKeys(d, p, f);
      WordPairsKeys(AddPair(d, p, f), syms[1..], f);
      assert WordAdj(syms)[0] == p && WordAdj(syms)[1..] == WordAdj(syms[1..]);
    }
  }

  /** The vocabulary loop inserts the words' pairs word by word. */
  lemma {:induction false} PairsFromKeys(d: seq<Counted>, v: seq<Item>)
    ensures PairsOf(PairsFrom(d, v)) == Firsts(PairsOf(d), AllPairs(v))
    decreases |v|
  {
    if v != [] {
      var d' := WordPairs(d, SymbolsOf(v[0]), v[0].freq);
      WordPairsKeys(d, SymbolsOf(v[0]), v[0].freq);
      PairsFromKeys(d', v[1..]);
      FirstsAppend(PairsOf(d), WordAdj(SymbolsOf(v[0])), AllPairs(v[1..]));
    }
  }

  /** The keys of `get_pairs` come in the order in which the loops first
      meet each pair. */
  lemma {:induction false} GetPairsOrder(v: seq<Item>)
    ensures FirstOccurrenceOrder(PairsOf(GetPairs(v)), AllPairs(v))
  {
    PairsFromKeys([], v);
    FirstsFromEmpty(AllPairs(v));
  }

  // ---------------------------------------------------------------------
  // max(pairs, key=pairs.get)

  /** The position of the first largest value. */
  function FirstMax(d: seq<Counted>): (i: nat)
    requires d != []
    ensures i < |d|
    ensures forall j :: 0 <= j < |d| ==> d[j].freq <= d[i].freq
    ensures forall j :: 0 <= j < i ==> d[j].freq < d[i].freq
    decreases |d|
  {
    if |d| == 1 then 0
    else
      var k := FirstMax(d[1..]) + 1;
      assert forall j :: 1 <= j < |d| ==> d[j] == d[1..][j - 1];
      if d[0].freq >= d[k].freq then 0 else k
  }

  /** `max(pairs, key=pairs.get)` with its value: the first key of largest
      value; `max` of an empty dictionary raises `ValueError`. */
  function MaxPair(d: seq<Counted>): (r: Result<Counted>)
    ensures r.Failure? <==> d == []
    ensures r.Failure? ==> r.error == ValueError
    ensures r.Success? ==> r.value in d && forall j :: 0 <= j < |d| ==> d[j].freq <= r.value.freq
    ensures r.Success? ==> exists i :: 0 <= i < |d| && d[i] == r.value && forall j :: 0 <= j < i ==> d[j].freq < r.value.freq
  {
    if d == [] then Failure(ValueError) else Success(d[FirstMax(d)])
  }

  // ---------------------------------------------------------------------
  // merge_pair

  function WordsOf(v: seq<Item>): (r: seq<string>)
    ensures |r| == |v| && forall i :: 0 <= i < |v| ==> r[i] == v[i].word
  {
    seq(|v|, i requires 0 <= i < |v| => v[i].word)
  }

  predicate DistinctWords(v: seq<Item>)
  {
    forall i, j :: 0 <= i < j < |v| ==> v[i].word != v[j].word
  }

  /** The number of symbols over all words: the measure of the merge loop. */
  function Total(v: seq<Item>): nat
  {
    if v == [] then 0 else |SymbolsOf(v[0])| + Total(v[1..])
  }

  lemma {:induction false} TotalUpdate(v: seq<Item>, i: nat, x: Item)
    requires i < |v| && x.word == v[i].word
    ensures Total(v[i := x]) == Total(v)
    decreases |v|
  {
    if i > 0 {
      assert v[i := x][1..] == v[1..][i - 1 := x];
      TotalUpdate(v[1..], i - 1, x);
    }
  }

  lemma {:induction false} TotalAppend(v: seq<Item>, x: Item)
    ensures Total(v + [x]) == Total(v) + |SymbolsOf(x)|
    decreases |v|
  {
    if v == [] {
      assert [x][1..] == [];
    } else {
      assert (v + [x])[1..] == v[1..] + [x];
      TotalAppend(v[1..], x);
    }
  }

  /** `voc_out[k] = f`: a present key keeps its place and takes the new
      value, a new key goes last. */
  function DictSet(v: seq<Item>, k: string, f: nat): (r: seq<Item>)
    ensures DistinctWords(v) ==> DistinctWords(r)
    ensures forall w :: w in WordsOf(r) <==> w in WordsOf(v) || w == k
    ensures Item(k, f) in r
    ensures forall x :: x in r ==> x in v || x == Item(k, f)
    ensures |r| <= |v| + 1
    ensures Total(r) <= Total(v) + |Split(k)|
    ensures k !in WordsOf(v) ==> r == v + [Item(k, f)]
  {
    match Find(WordsOf(v), k)
    case Some(i) =>
      var r := v[i := Item(k, f)];
      assert WordsOf(r) == WordsOf(v);
      TotalUpdate(v, i, Item(k, f));
      assert forall x :: x in r ==> x in v || x == Item(k, f) by {
        forall x | x in r ensures x in v || x == Item(k, f) {
          var j :| 0 <= j < |r| && r[j] == x;
          if j != i {
            assert v[j] == x;
          }
        }
      }
      r
    case None =>
      var r := v + [Item(k, f)];
      assert WordsOf(r) == WordsOf(v) + [k];
      TotalAppend(v, Item(k, f));
      r
  }

  /** The `for word in voc_in` loop of `merge_pair`. */
  function MergeInto(out: seq<Item>, p: Pair, v: seq<Item>): (r: seq<Item>)
    ensures DistinctWords(out) ==> DistinctWords(r)
    ensures |r| <= |out| + |v|
    ensures forall x :: x in r ==> x in out || exists i :: 0 <= i < |v| && x.word == SubPair(v[i].word, p)
    decreases |v|
  {
    if v == [] then out
    else
      var r := MergeInto(DictSet(out, SubPair(v[0].word, p), v[0].freq), p, v[1..]);
      assert forall x :: x in r ==> x in out || exists i :: 0 <= i < |v| && x.word == SubPair(v[i].word, p) by {
        forall x | x in r ensures x in out || exists i :: 0 <= i < |v| && x.word == SubPair(v[i].word, p) {
          if x !in DictSet(out, SubPair(v[0].word, p), v[0].freq) && x !in out {
            var i :| 0 <= i < |v[1..]| && x.word == SubPair(v[1..][i].word, p);
            assert v[i + 1] == v[1..][i];
          }
        }
      }
      r
  }

  /** `merge_pair(pair, voc_in)`: every word with the pair merged, in the
      order of first appearance. Words that become equal collapse into one
      item holding the last frequency. */
  function MergePair(p: Pair, v: seq<Item>): (r: seq<Item>)
    ensures DistinctWords(r)
    ensures |r| <= |v|
    ensures forall x :: x in r ==> exists i :: 0 <= i < |v| && x.word == SubPair(v[i].word, p)
  {
    MergeInto([], p, v)
  }

  /** A word spelt as single-spaced symbols, as `make_vocab` writes one
      and `merge_pair` keeps it. */
  predicate WellSpaced(w: string)
  {
    Join(" ", Split(w)) == w
  }

  predicate AllWellSpaced(v: seq<Item>)
  {
    forall i :: 0 <= i < |v| ==> WellSpaced(v[i].word)
  }

  /** On a single-spaced word `merge_pair` merges the symbol list, keeps
      the word single-spaced and keeps its non-space characters. */
  lemma {:induction false} SubPairSymbols(w: string, p: Pair)
    requires WellSpaced(w) && Symbol(p.left) && Symbol(p.right)
    ensures Split(SubPair(w, p)) == MergeSymbols(Split(w), p)
    ensures WellSpaced(SubPair(w, p))
    ensures Drop(SubPair(w, p), IsSpace) == Drop(w, IsSpace)
  {
    var syms := Split(w);
    SubPairJoin(syms, p);
    MergeSymbolsRuns(syms, p);
    assert IsSpace(' ');
    SplitJoin(MergeSymbols(syms, p), IsSpace);
  }

  /** The spelt-out words of `make_vocab` are single-spaced when the
      words hold no whitespace. */
  lemma {:induction false} MakeVocabWellSpaced(counts: seq<Item>)
    requires forall i :: 0 <= i < |counts| ==> NoSep(counts[i].word, IsSpace)
    ensures AllWellSpaced(MakeVocab(counts))
  {
    var v := MakeVocab(counts);
    forall i | 0 <= i < |v| ensures WellSpaced(v[i].word) {
      SpacedSymbols(counts[i].word);
    }
  }

  /** A pair found at adjacent positions of a symbol list is a pair of
      symbols. */
  lemma {:induction false} AdjacentSymbols(syms: seq<string>, q: Pair)
    requires Runs(syms, IsSpace) && Adjacent(syms, q) > 0
    ensures Symbol(q.left) && Symbol(q.right)
    decreases |syms|
  {
    if Pair(syms[0], syms[1]) != q {
      RunsDrop(syms, 1);
      AdjacentSymbols(syms[1..], q);
    }
  }

  /** The symbol counts of the merged words, before any collapse. */
  function Shrunk(p: Pair, v: seq<Item>): nat
  {
    if v == [] then 0 else |Split(SubPair(v[0].word, p))| + Shrunk(p, v[1..])
  }

  lemma {:induction false} MergeIntoTotal(out: seq<Item>, p: Pair, v: seq<Item>)
    ensures Total(MergeInto(out, p, v)) <= Total(out) + Shrunk(p, v)
    decreases |v|
  {
    if v != [] {
      MergeIntoTotal(DictSet(out, SubPair(v[0].word, p), v[0].freq), p, v[1..]);
    }
  }

  /** Merging a pair of symbols that occurs in a single-spaced vocabulary
      strictly lowers the number of symbols. */
  lemma {:induction false} ShrunkBelowTotal(p: Pair, v: seq<Item>)
    requires AllWellSpaced(v) && Symbol(p.left) && Symbol(p.right)
    ensures Shrunk(p, v) <= Total(v)
    ensures OccursIn(v, p) ==> Shrunk(p, v) < Total(v)
    decreases |v|
  {
    if v != [] {
      SubPairSymbols(v[0].word, p);
      assert AllWellSpaced(v[1..]) by {
        forall i | 0 <= i < |v[1..]| ensures WellSpaced(v[1..][i].word) {
          assert v[1..][i] == v[i + 1];
        }
      }
      ShrunkBelowTotal(p, v[1..]);
      if OccursIn(v, p) {
        var i :| 0 <= i < |v| && Adjacent(SymbolsOf(v[i]), p) > 0;
        if i == 0 {
          MergeSymbolsShrinks(SymbolsOf(v[0]), p);
        } else {
          assert v[1..][i - 1] == v[i];
          assert OccursIn(v[1..], p);
        }
      }
    }
  }

  /** `merge_pair` keeps every word single-spaced and its non-space
      characters those of an input word. */
  lemma {:induction false} MergePairSpacing(p: Pair, v: seq<Item>)
    requires AllWellSpaced(v) && Symbol(p.left) && Symbol(p.right)
    ensures AllWellSpaced(MergePair(p, v))
    ensures forall x :: x in MergePair(p, v) ==>
      exists i :: 0 <= i < |v| && Drop(x.word, IsSpace) == Drop(v[i].word, IsSpace)
  {
    var r := MergePair(p, v);
    forall k | 0 <= k < |r|
      ensures WellSpaced(r[k].word) && exists i :: 0 <= i < |v| && Drop(r[k].word, IsSpace) == Drop(v[i].word, IsSpace)
    {
      assert r[k] in r;
      var i :| 0 <= i < |v| && r[k].word == SubPair(v[i].word, p);
      SubPairSymbols(v[i].word, p);
    }
  }

  /** Every word rewritten by the merge, with its frequency. */
  function Rewritten(p: Pair, v: seq<Item>): (r: seq<Item>)
    ensures |r| == |v| && forall i :: 0 <= i < |v| ==> r[i] == Item(SubPair(v[i].word, p), v[i].freq)
  {
    seq(|v|, i requires 0 <= i < |v| => Item(SubPair(v[i].word, p), v[i].freq))
  }

  lemma {:induction false} RewrittenStep(p: Pair, v: seq<Item>)
    requires v != []
    ensures Rewritten(p, v) == [Item(SubPair(v[0].word, p), v[0].freq)] + Rewritten(p, v[1..])
  {
    var tail := Rewritten(p, v[1..]);
    var r := [Item(SubPair(v[0].word, p), v[0].freq)] + tail;
    assert |r| == |v|;
    forall i | 0 <= i < |v| ensures Rewritten(p, v)[i] == r[i] {
      if i > 0 {
        assert r[i] == tail[i - 1];
        assert v[1..][i - 1] == v[i];
      }
    }
  }

  lemma {:induction false} MergeIntoStep(out: seq<Item>, p: Pair, v: seq<Item>)
    requires v != []
    ensures MergeInto(out, p, v) == MergeInto(DictSet(out, SubPair(v[0].word, p), v[0].freq), p, v[1..])
  {
  }

  /** No two words of `v` become equal under the merge. */
  predicate NoCollapse(p: Pair, v: seq<Item>) {
    forall i, j :: 0 <= i < j < |v| ==> SubPair(v[i].word, p) != SubPair(v[j].word, p)
  }

  /** No rewritten word of `v` is already a key of `out`. */
  predicate FreshImages(out: seq<Item>, p: Pair, v: seq<Item>) {
    forall i :: 0 <= i < |v| ==> SubPair(v[i].word, p) !in WordsOf(out)
  }

  lemma {:induction false} NoCollapseTail(p: Pair, v: seq<Item>)
    requires v != [] && NoCollapse(p, v)
    ensures NoCollapse(p, v[1..])
    ensures FreshImages([Item(SubPair(v[0].word, p), v[0].freq)], p, v[1..])
  {
    forall i, j | 0 <= i < j < |v[1..]| ensures SubPair(v[1..][i].word, p) != SubPair(v[1..][j].word, p) {
      assert v[1..][i] == v[i + 1] && v[1..][j] == v[j + 1];
    }
    forall i | 0 <= i < |v[1..]| ensures SubPair(v[1..][i].word, p) !in WordsOf([Item(SubPair(v[0].word, p), v[0].freq)]) {
      assert v[1..][i] == v[i + 1];
    }
  }

  lemma {:induction false} FreshImagesTail(out: seq<Item>, x: Item, p: Pair, v: seq<Item>)
    requires v != [] && FreshImages(out, p, v) && FreshImages([x], p, v[1..])
    ensures FreshImages(out + [x], p, v[1..])
  {
    forall i | 0 <= i < |v[1..]| ensures SubPair(v[1..][i].word, p) !in WordsOf(out + [x]) {
      assert v[1..][i] == v[i + 1];
      assert WordsOf(out + [x]) == WordsOf(out) + WordsOf([x]);
    }
  }

  /** Words that stay distinct under the merge do not collapse: the merge
      rewrites each word in place and keeps its frequency. */
  lemma {:induction false} MergeIntoNoCollapse(out: seq<Item>, p: Pair, v: seq<Item>)
    requires NoCollapse(p, v) && FreshImages(out, p, v)
    ensures MergeInto(out, p, v) == out + Rewritten(p, v)
    decreases |v|
  {
    if v != [] {
      var x := Item(SubPair(v[0].word, p), v[0].freq);
      assert x.word !in WordsOf(out);
      var out' := DictSet(out, x.word, x.freq);
      assert out' == out + [x];
      NoCollapseTail(p, v);
      FreshImagesTail(out, x, p, v);
      MergeIntoNoCollapse(out', p, v[1..]);
      var rest := Rewritten(p, v[1..]);
      calc {
        MergeInto(out, p, v);
        { MergeIntoStep(out, p, v); }
        MergeInto(out', p, v[1..]);
        out' + rest;
        { AppendAssoc(out, [x], rest); }
        out + ([x] + rest);
        { RewrittenStep(p, v); }
        out + Rewritten(p, v);
      }
    }
  }

  /** Without collapses `merge_pair` is the item-by-item rewrite. */
  lemma {:induction false} MergePairNoCollapse(p: Pair, v: seq<Item>)
    requires NoCollapse(p, v)
    ensures MergePair(p, v) == Rewritten(p, v)
  {
    assert |WordsOf([])| == 0;
    assert FreshImages([], p, v);
    MergeIntoNoCollapse([], p, v);
    assert [] + Rewritten(p, v) == Rewritten(p, v);
  }

  // ---------------------------------------------------------------------
  // The merge loop

  /** A pair that is a key of `get_pairs(v)` is a pair of symbols, and
      merging it strictly lowers the number of symbols. */
  lemma {:induction false} KeyMergeShrinks(v: seq<Item>, c: Counted)
    requires AllWellSpaced(v) && c in GetPairs(v)
    ensures Symbol(c.pair.left) && Symbol(c.pair.right)
    ensures Total(MergePair(c.pair, v)) < Total(v)
  {
    var d := GetPairs(v);
    var k :| 0 <= k < |d| && d[k] == c;
    assert PairsOf(d)[k] == c.pair;
    assert OccursIn(v, c.pair);
    var i :| 0 <= i < |v| && Adjacent(SymbolsOf(v[i]), c.pair) > 0;
    AdjacentSymbols(SymbolsOf(v[i]), c.pair);
    MergeIntoTotal([], c.pair, v);
    ShrunkBelowTotal(c.pair, v);
  }

  /** A key's value in a duplicate-free dictionary is its item's value. */
  lemma {:induction false} ValueAt(d: seq<Counted>, i: nat)
    requires DistinctPairs(d) && i < |d|
    ensures Value(d, d[i].pair) == d[i].freq
  {
    assert PairsOf(d)[i] == d[i].pair;
    var k := Find(PairsOf(d), d[i].pair).value;
    assert d[k].pair == d[i].pair;
  }

  /** No value exceeds a bound on every item. */
  lemma {:induction false} ValueBound(d: seq<Counted>, q: Pair, m: nat)
    requires forall j :: 0 <= j < |d| ==> d[j].freq <= m
    ensures Value(d, q) <= m
  {
  }

  /** The item spells, without its spaces, some word of `v`. */
  predicate SpeltFrom(x: Item, v: seq<Item>)
  {
    exists i :: 0 <= i < |v| && Drop(x.word, IsSpace) == Drop(v[i].word, IsSpace)
  }

  /** Among the pairs counted as often as the first largest value of
      `get_pairs`, that one occurs first. */
  lemma {:induction false} EarliestOfMaximal(v: seq<Item>, d: seq<Counted>, i: nat)
    requires d == GetPairs(v)
    requires i < |d| && forall j :: 0 <= j < i ==> d[j].freq < d[i].freq
    ensures forall q :: Count(v, q) == d[i].freq ==> FirstAt(AllPairs(v), d[i].pair) <= FirstAt(AllPairs(v), q)
  {
    GetPairsOrder(v);
    forall q | Count(v, q) == d[i].freq ensures FirstAt(AllPairs(v), d[i].pair) <= FirstAt(AllPairs(v), q) {
      EarliestKey(d, AllPairs(v), i, q);
    }
  }

  /** A key whose value ties with the first largest one comes no earlier
      in a dictionary kept in first-occurrence order. */
  lemma {:induction false} EarliestKey(d: seq<Counted>, all: seq<Pair>, i: nat, q: Pair)
    requires FirstOccurrenceOrder(PairsOf(d), all)
    requires i < |d| && forall j :: 0 <= j < i ==> d[j].freq < d[i].freq
    requires Value(d, q) == d[i].freq
    ensures FirstAt(all, d[i].pair) <= FirstAt(all, q)
  {
    var keys := PairsOf(d);
    assert keys[i] == d[i].pair;
    match Find(keys, q)
    case None =>
      assert d[i].pair in keys;
    case Some(j) =>
      assert keys[j] == q && Value(d, q) == d[j].freq;
  }

  /** One iteration of the merge loop: `max(pairs, key=pairs.get)` with
      its frequency, and the vocabulary with that pair merged. `max` of
      a vocabulary without adjacent symbols raises `ValueError`. */
  function MergeStep(v: seq<Item>): (r: Result<(Counted, seq<Item>)>)
    requires AllWellSpaced(v)
    ensures r.Failure? <==> forall q :: !OccursIn(v, q)
    ensures r.Failure? ==> r.error == ValueError
    ensures r.Success? ==> r.value.0.freq == Count(v, r.value.0.pair) && OccursIn(v, r.value.0.pair)
    ensures r.Success? ==> forall q :: Count(v, q) <= r.value.0.freq
    ensures r.Success? ==> Symbol(r.value.0.pair.left) && Symbol(r.value.0.pair.right)
    ensures r.Success? ==> r.value.1 == MergePair(r.value.0.pair, v)
    ensures r.Success? ==> Total(r.value.1) < Total(v)
    ensures r.Success? ==> AllWellSpaced(r.value.1)
    ensures r.Success? ==> forall x :: x in r.value.1 ==> SpeltFrom(x, v)
  {
    var pairs := GetPairs(v);
    if pairs == [] then
      assert forall q :: !OccursIn(v, q) by {
        forall q ensures !OccursIn(v, q) {
          assert q !in PairsOf(pairs);
        }
      }
      Failure(ValueError)
    else
      var i := FirstMax(pairs);
      var best := pairs[i];
      assert PairsOf(pairs)[i] == best.pair;
      ValueAt(pairs, i);
      forall q ensures Count(v, q) <= best.freq {
        ValueBound(pairs, q, best.freq);
      }
      KeyMergeShrinks(v, best);
      MergePairSpacing(best.pair, v);
      Success((best, MergePair(best.pair, v)))
  }

  /** The pair a merge step records is `max(pairs, key=pairs.get)`: of
      the pairs counted most often, the one met first, word by word and
      left to right. */
  lemma {:induction false} MergeStepPicksFirst(v: seq<Item>)
    requires AllWellSpaced(v)
    ensures MergeStep(v).Success? ==> MaxPair(GetPairs(v)) == Success(MergeStep(v).value.0)
    ensures MergeStep(v).Success? ==> forall q :: Count(v, q) == MergeStep(v).value.0.freq ==>
      FirstAt(AllPairs(v), MergeStep(v).value.0.pair) <= FirstAt(AllPairs(v), q)
  {
    var pairs := GetPairs(v);
    if pairs != [] {
      EarliestOfMaximal(v, pairs, FirstMax(pairs));
    }
  }

  /** The threshold of `while max_freq > 500`. */
  const Threshold: nat := 500

  /** Every recorded pair but the last was more frequent than the
      threshold, and the last was not: the loop condition after each
      iteration. */
  predicate StopsAtThreshold(rec: seq<Counted>)
  {
    rec != [] && rec[|rec| - 1].freq <= Threshold &&
    forall i :: 0 <= i < |rec| - 1 ==> rec[i].freq > Threshold
  }

  /** Every recorded pair is a pair of symbols. */
  predicate SymbolPairs(rec: seq<Counted>)
  {
    forall i :: 0 <= i < |rec| ==> Symbol(rec[i].pair.left) && Symbol(rec[i].pair.right)
  }

  lemma {:induction false} StopsAtThresholdCons(c: Counted, rest: seq<Counted>)
    requires c.freq > Threshold && StopsAtThreshold(rest)
    ensures StopsAtThreshold([c] + rest)
  {
    var rec := [c] + rest;
    forall i | 0 <= i < |rec| - 1 ensures rec[i].freq > Threshold {
      if i > 0 {
        assert rec[i] == rest[i - 1];
      }
    }
  }

  lemma {:induction false} SymbolPairsCons(c: Counted, rest: seq<Counted>)
    requires Symbol(c.pair.left) && Symbol(c.pair.right) && SymbolPairs(rest)
    ensures SymbolPairs([c] + rest)
  {
    var rec := [c] + rest;
    forall i | 0 <= i < |rec| ensures Symbol(rec[i].pair.left) && Symbol(rec[i].pair.right) {
      if i > 0 {
        assert rec[i] == rest[i - 1];
      }
    }
  }

  lemma {:induction false} SpeltFromTrans(a: seq<Item>, b: seq<Item>, c: seq<Item>)
    requires forall x :: x in a ==> SpeltFrom(x, b)
    requires forall x :: x in b ==> SpeltFrom(x, c)
    ensures forall x :: x in a ==> SpeltFrom(x, c)
  {
    forall x | x in a ensures SpeltFrom(x, c) {
      var j :| 0 <= j < |b| && Drop(x.word, IsSpace) == Drop(b[j].word, IsSpace);
      assert b[j] in b;
    }
  }

  /** Lines 382-397 (the initial `max_freq` of 10000 always enters the
      loop): count the pairs, record the most frequent one, merge it, and
      go on while its frequency exceeds the threshold. The result is
      `pair_chars`, with each pair's frequency, and the final vocabulary.
      A vocabulary without adjacent symbols makes `max` raise
      `ValueError`. */
  function MergeLoop(v: seq<Item>): (r: Result<(seq<Counted>, seq<Item>)>)
    requires AllWellSpaced(v)
    ensures r.Failure? ==> r.error == ValueError
    ensures r.Success? ==> StopsAtThreshold(r.value.0) && SymbolPairs(r.value.0)
    ensures MergeStep(v).Failure? ==> r.Failure?
    ensures r.Success? ==> MergeStep(v).Success? && r.value.0[0] == MergeStep(v).value.0
    decreases Total(v)
  {
    var step := MergeStep(v);
    if step.Failure? then Failure(step.error)
    else
      var (c, w) := step.value;
      if c.freq <= Threshold then Success(([c], w))
      else
        var rest := MergeLoop(w);
        if rest.Failure? then Failure(rest.error)
        else
          StopsAtThresholdCons(c, rest.value.0);
          SymbolPairsCons(c, rest.value.0);
          Success(([c] + rest.value.0, rest.value.1))
  }

  /** Merge steps from `v` record the pairs `rec`, in order, and end at
      the vocabulary `fin`. */
  ghost predicate MergeTrace(v: seq<Item>, rec: seq<Counted>, fin: seq<Item>)
    decreases |rec|
  {
    AllWellSpaced(v) &&
    if rec == [] then fin == v
    else MergeStep(v).Success? && MergeStep(v).value.0 == rec[0] &&
         MergeTrace(MergeStep(v).value.1, rec[1..], fin)
  }

  lemma {:induction false} MergeTraceCons(v: seq<Item>, c: Counted, w: seq<Item>, rec: seq<Counted>, fin: seq<Item>)
    requires AllWellSpaced(v) && MergeStep(v) == Success((c, w)) && MergeTrace(w, rec, fin)
    ensures MergeTrace(v, [c] + rec, fin)
  {
    assert ([c] + rec)[0] == c && ([c] + rec)[1..] == rec;
  }

  /** A step above the threshold is followed by the rest of the loop. */
  lemma {:induction false} MergeLoopUnfold(v: seq<Item>, c: Counted, w: seq<Item>)
    requires AllWellSpaced(v) && MergeStep(v) == Success((c, w)) && c.freq > Threshold
    ensures AllWellSpaced(w)
    ensures MergeLoop(v).Success? <==> MergeLoop(w).Success?
    ensures MergeLoop(v).Success? ==> MergeLoop(v).value == ([c] + MergeLoop(w).value.0, MergeLoop(w).value.1)
  {
  }

  /** A step at or under the threshold ends the loop. */
  lemma {:induction false} MergeLoopStops(v: seq<Item>, c: Counted, w: seq<Item>)
    requires AllWellSpaced(v) && MergeStep(v) == Success((c, w)) && c.freq <= Threshold
    ensures MergeLoop(v) == Success(([c], w))
  {
  }

  /** Every recorded pair but the last exceeds the threshold. */
  predicate AboveBeforeLast(rec: seq<Counted>)
  {
    forall i :: 0 <= i < |rec| - 1 ==> rec[i].freq > Threshold
  }

  lemma {:induction false} AboveBeforeLastCons(c: Counted, rec: seq<Counted>)
    requires c.freq > Threshold && AboveBeforeLast(rec)
    ensures AboveBeforeLast([c] + rec)
    ensures rec != [] ==> ([c] + rec)[|rec|] == rec[|rec| - 1]
  {
    var rec' := [c] + rec;
    forall i | 0 <= i < |rec'| - 1 ensures rec'[i].freq > Threshold {
      if i > 0 {
        assert rec'[i] == rec[i - 1];
      }
    }
  }

  /** What the merge loop from `v` does, given the steps `rec` ending at
      `fin`. */
  ghost predicate LoopOutcome(v: seq<Item>, rec: seq<Counted>, fin: seq<Item>)
    requires AllWellSpaced(v) && AllWellSpaced(fin)
  {
    (MergeLoop(v).Success? <==> rec != [] && rec[|rec| - 1].freq <= Threshold) &&
    (MergeLoop(v).Success? ==> MergeLoop(v).value == (rec, fin)) &&
    (MergeLoop(v).Failure? ==> MergeStep(fin).Failure?)
  }

  /** A vocabulary without adjacent symbols fails at once. */
  lemma {:induction false} LoopOutcomeFails(v: seq<Item>)
    requires AllWellSpaced(v) && MergeStep(v).Failure?
    ensures MergeTrace(v, [], v) && LoopOutcome(v, [], v)
  {
  }

  /** A first step at or under the threshold is the whole loop. */
  lemma {:induction false} LoopOutcomeLast(v: seq<Item>, c: Counted, w: seq<Item>)
    requires AllWellSpaced(v) && MergeStep(v) == Success((c, w)) && c.freq <= Threshold
    ensures AllWellSpaced(w) && MergeTrace(v, [c], w) && LoopOutcome(v, [c], w)
  {
    assert MergeTrace(w, [], w);
    MergeTraceCons(v, c, w, [], w);
    assert [c] + [] == [c];
    MergeLoopStops(v, c, w);
  }

  /** The recursive case of `MergeLoopTrace`: a step above the threshold
      in front of the trace of the rest of the loop. */
  lemma {:induction false} LoopOutcomeCons(v: seq<Item>, c: Counted, w: seq<Item>, rec: seq<Counted>, fin: seq<Item>)
    requires AllWellSpaced(v) && MergeStep(v) == Success((c, w)) && c.freq > Threshold
    requires AllWellSpaced(w) && AllWellSpaced(fin) && LoopOutcome(w, rec, fin)
    ensures LoopOutcome(v, [c] + rec, fin)
  {
    MergeLoopUnfold(v, c, w);
    var rec' := [c] + rec;
    if MergeLoop(w).Success? {
      assert rec'[|rec'| - 1] == rec[|rec| - 1];
      assert MergeLoop(v).value == (rec', fin);
    } else if rec != [] {
      assert rec'[|rec'| - 1] == rec[|rec| - 1];
    }
  }

  /** The merge loop is the sequence of merge steps from `v`: it records
      the pair of every step while the previous one exceeded the
      threshold, and succeeds, with the last vocabulary, exactly when a
      step comes at or under the threshold before the pairs run out. */
  lemma {:induction false} MergeLoopTrace(v: seq<Item>) returns (rec: seq<Counted>, fin: seq<Item>)
    requires AllWellSpaced(v)
    ensures MergeTrace(v, rec, fin) && AllWellSpaced(fin)
    ensures AboveBeforeLast(rec)
    ensures LoopOutcome(v, rec, fin)
    decreases Total(v)
  {
    var step := MergeStep(v);
    if step.Failure? {
      LoopOutcomeFails(v);
      rec, fin := [], v;
    } else {
      var c, w := step.value.0, step.value.1;
      if c.freq <= Threshold {
        LoopOutcomeLast(v, c, w);
        rec, fin := [c], w;
      } else {
        MergeLoopUnfold(v, c, w);
        var rec', fin' := MergeLoopTrace(w);
        MergeTraceCons(v, c, w, rec', fin');
        AboveBeforeLastCons(c, rec');
        LoopOutcomeCons(v, c, w, rec', fin');
        rec, fin := [c] + rec', fin';
      }
    }
  }

  /** The final vocabulary of the merge loop has distinct, well-spaced
      keys, each spelling some input word. */
  lemma {:induction false} MergeLoopVocabulary(v: seq<Item>)
    requires AllWellSpaced(v)
    ensures MergeLoop(v).Success? ==> DistinctWords(MergeLoop(v).value.1) && AllWellSpaced(MergeLoop(v).value.1)
    ensures MergeLoop(v).Success? ==> forall x :: x in MergeLoop(v).value.1 ==> SpeltFrom(x, v)
    decreases Total(v)
  {
    var s := MergeStep(v);
    if s.Success? {
      var (c, w) := s.value;
      if c.freq > Threshold {
        MergeLoopUnfold(v, c, w);
        MergeLoopVocabulary(w);
        if MergeLoop(w).Success? {
          SpeltFromTrans(MergeLoop(w).value.1, w, v);
        }
      } else {
        MergeLoopStops(v, c, w);
      }
    }
  }

  // ---------------------------------------------------------------------
  // The learned subwords

  /** `get_merged_subwords(vocab)`: the symbols of every word, word by
      word, repeats kept. */
  function GetMergedSubwords(v: seq<Item>): (r: seq<string>)
    ensures |r| == Total(v)
    ensures Runs(r, IsSpace)
    ensures forall s :: s in r <==> exists i :: 0 <= i < |v| && s in SymbolsOf(v[i])
    decreases |v|
  {
    if v == [] then []
    else
      var head := SymbolsOf(v[0]);
      var rest := GetMergedSubwords(v[1..]);
      forall s ensures s in head + rest <==> exists i :: 0 <= i < |v| && s in SymbolsOf(v[i]) {
        if s in rest {
          var i :| 0 <= i < |v[1..]| && s in SymbolsOf(v[1..][i]);
          assert v[1..][i] == v[i + 1];
        }
        if exists i :: 0 <= i < |v| && s in SymbolsOf(v[i]) {
          var i :| 0 <= i < |v| && s in SymbolsOf(v[i]);
          if i > 0 {
            assert v[1..][i - 1] == v[i];
          }
        }
      }
      head + rest
  }

  /** The symbols of a single-spaced word concatenate to the word without
      its spaces. */
  lemma {:induction false} SymbolsSpell(w: string)
    requires WellSpaced(w)
    ensures Concat(Split(w)) == Drop(w, IsSpace)
  {
    assert IsSpace(' ');
    JoinDropsSeparators(Split(w), IsSpace);
    ConcatRuns(Split(w), IsSpace);
    DropNone(Concat(Split(w)), IsSpace);
  }

  /** Each symbol of a word spelt, without its spaces, like an input
      word is a piece of that input word. */
  lemma {:induction false} SymbolOccurs(counts: seq<Item>, x: Item, s: string)
    requires forall i :: 0 <= i < |counts| ==> NoSep(counts[i].word, IsSpace)
    requires WellSpaced(x.word) && SpeltFrom(x, MakeVocab(counts)) && s in SymbolsOf(x)
    ensures exists i :: 0 <= i < |counts| && Occurs(s, counts[i].word)
  {
    var vocab := MakeVocab(counts);
    var i :| 0 <= i < |vocab| && Drop(x.word, IsSpace) == Drop(vocab[i].word, IsSpace);
    SpacedSymbols(counts[i].word);
    SymbolsSpell(x.word);
    OccursInConcat(SymbolsOf(x), s);
  }

  /** Every merged subword of a vocabulary spelt from the input words is
      a piece of an input word. */
  lemma {:induction false} PiecesOccur(counts: seq<Item>, merged: seq<Item>)
    requires forall i :: 0 <= i < |counts| ==> NoSep(counts[i].word, IsSpace)
    requires AllWellSpaced(merged)
    requires forall x :: x in merged ==> SpeltFrom(x, MakeVocab(counts))
    ensures forall s :: s in GetMergedSubwords(merged) ==> exists i :: 0 <= i < |counts| && Occurs(s, counts[i].word)
  {
    forall s | s in GetMergedSubwords(merged) ensures exists i :: 0 <= i < |counts| && Occurs(s, counts[i].word) {
      var k :| 0 <= k < |merged| && s in SymbolsOf(merged[k]);
      assert merged[k] in merged;
      SymbolOccurs(counts, merged[k], s);
    }
  }

  /** Lines 382-411 on the counted words: the merge loop on the spelt-out
      vocabulary (`make_vocab`), then the merged subwords without repeats
      (`count_terms` of `get_merged_subwords`, whose keys are split again
      into themselves). Every subword is a piece of an input word. */
  function LearnSubwords(counts: seq<Item>): (r: Result<(seq<Counted>, seq<string>)>)
    requires forall i :: 0 <= i < |counts| ==> NoSep(counts[i].word, IsSpace)
    ensures r.Failure? ==> r.error == ValueError
    ensures r.Success? ==> StopsAtThreshold(r.value.0) && SymbolPairs(r.value.0)
    ensures r.Success? ==> forall i, j :: 0 <= i < j < |r.value.1| ==> r.value.1[i] != r.value.1[j]
    ensures r.Success? ==> Runs(r.value.1, IsSpace)
    ensures r.Success? ==> forall s :: s in r.value.1 ==> exists i :: 0 <= i < |counts| && Occurs(s, counts[i].word)
    ensures AllWellSpaced(MakeVocab(counts))
    ensures r.Success? <==> MergeLoop(MakeVocab(counts)).Success?
    ensures r.Success? ==> r.value.0 == MergeLoop(MakeVocab(counts)).value.0
    ensures r.Success? ==> forall s :: s in r.value.1 <==> s in GetMergedSubwords(MergeLoop(MakeVocab(counts)).value.1)
  {
    MakeVocabWellSpaced(counts);
    MergeLoopVocabulary(MakeVocab(counts));
    var loop :- MergeLoop(MakeVocab(counts));
    var all := GetMergedSubwords(loop.1);
    PiecesOccur(counts, loop.1);
    DedupRuns(all, IsSpace);
    Success((loop.0, Dedup(all)))
  }
}

=== FILE: embedding.dfy ===
/** Which pretrained vectors feed a term's embedding in `Subword_Embedding`
    (subword_embedding.py:77-185). Vectors are an opaque type `V`; the
    tokenizer `jieba.lcut`, the mean `np.mean(..., axis=0)` and the negation
    `* -1` are parameters, so only the choice of table keys is modelled. */
module Embedding {
  import opened Wrappers
  import opened Strings
  import opened Normalise
  import opened Segment

  /** The negation markers of `jieba_subword`. */
  const NegWords: seq<string> := ["\U{975E}", "\U{4E0D}", "\U{65E0}", "\U{5426}", "\U{5047}"]

  /** `Subword_Embedding` with its collaborators: the subword inventory and
      its window, the pretrained table, and the opaque tokenizer and vector
      arithmetic. */
  datatype Embedder<!V(==)> = Embedder(
    subList: seq<string>,
    maxLen: pos,
    preTrained: map<string, V>,
    jieba: string -> seq<string>,
    mean: multiset<V> -> V,
    negate: V -> V)

  /** The vectors of the tokens that are not negation markers, not empty and
      in the table. */
  function TokenVectors<V>(table: map<string, V>, tokens: seq<string>): set<V>
  {
    set t | t in tokens && t !in NegWords && t != "" && t in table :: table[t]
  }

  predicate HasNegation(tokens: seq<string>)
  {
    exists k :: 0 <= k < |tokens| && tokens[k] in NegWords
  }

  /** The `for token in tokens` loop of `jieba_subword`: the pool grows by
      each new vector (`if temp_vec not in self.grams`) and the flag is set
      by any negation marker. */
  function TokenLoop<V>(table: map<string, V>, tokens: seq<string>, pool: set<V>, negative: bool): (r: (set<V>, bool))
    ensures r.0 == pool + TokenVectors(table, tokens)
    ensures r.1 <==> negative || HasNegation(tokens)
    decreases |tokens|
  {
    if tokens == [] then (pool, negative)
    else
      var t := tokens[0];
      var step := if t in NegWords then pool
                  else if t in table && t != "" then pool + {table[t]}
                  else pool;
      var r := TokenLoop(table, tokens[1..], step, negative || t in NegWords);
      assert TokenVectors(table, tokens) == (if t !in NegWords && t != "" && t in table then {table[t]} else {}) + TokenVectors(table, tokens[1..]) by {
        assert tokens == [t] + tokens[1..];
      }
      assert HasNegation(tokens) <==> t in NegWords || HasNegation(tokens[1..]) by {
        if HasNegation(tokens[1..]) {
          var k :| 0 <= k < |tokens[1..]| && tokens[1..][k] in NegWords;
          assert tokens[k + 1] in NegWords;
        }
        if HasNegation(tokens) && t !in NegWords {
          var k :| 0 <= k < |tokens| && tokens[k] in NegWords;
          assert tokens[1..][k - 1] in NegWords;
        }
      }
      r
  }

  /** The vectors of the non-empty substrings `term[a:b]` with `lo <= a`
      that are in the table. */
  function SubstringVectors<V>(table: map<string, V>, term: string, lo: nat): set<V>
  {
    set a, b | lo <= a < b <= |term| && term[a..b] in table :: table[term[a..b]]
  }

  /** The vectors of `term[a:b]` for `hi < b`, the tail of one row. */
  function RowVectors<V>(table: map<string, V>, term: string, a: nat, hi: nat): set<V>
  {
    set b | hi < b <= |term| && a < b && term[a..b] in table :: table[term[a..b]]
  }

  /** The inner loop of `n_gram` for start `a`, from `t` on: the slice
      `term[a:t+1]` is empty when `t < a` and is then skipped. */
  function NGramRow<V>(table: map<string, V>, term: string, a: nat, t: nat, pool: set<V>): (r: set<V>)
    requires t <= |term|
    ensures r == pool + RowVectors(table, term, a, t)
    decreases |term| - t
  {
    if t == |term| then
      assert RowVectors(table, term, a, t) == {};
      pool
    else
      var g := PySlice(term, a, t + 1);
      var step := if g in table && g != "" then pool + {table[g]} else pool;
      var r := NGramRow(table, term, a, t + 1, step);
      assert RowVectors(table, term, a, t) == (if a < t + 1 && term[a..t + 1] in table then {table[term[a..t + 1]]} else {}) + RowVectors(table, term, a, t + 1);
      r
  }

  /** The outer loop of `n_gram` from start `a` on. */
  function NGramLoop<V>(table: map<string, V>, term: string, a: nat, pool: set<V>): (r: set<V>)
    requires a <= |term|
    ensures r == pool + SubstringVectors(table, term, a)
    decreases |term| - a
  {
    if a == |term| then
      assert SubstringVectors(table, term, a) == {};
      pool
    else
      var r := NGramLoop(table, term, a + 1, NGramRow(table, term, a, 0, pool));
      assert SubstringVectors(table, term, a) == RowVectors(table, term, a, 0) + SubstringVectors(table, term, a + 1) by {
        forall v | v in SubstringVectors(table, term, a) ensures v in RowVectors(table, term, a, 0) + SubstringVectors(table, term, a + 1) {
          var a', b :| a <= a' < b <= |term| && term[a'..b] in table && v == table[term[a'..b]];
          if a' > a {
            assert v in SubstringVectors(table, term, a + 1);
          }
        }
      }
      r
  }

  /** `jieba.lcut(term)` followed by `get_subword(term)`. */
  function Tokens<V>(e: Embedder<V>, term: string): seq<string>
  {
    e.jieba(term) + SubwordList(e.subList, e.maxLen, term)
  }

  /** Every vector that can feed the embedding of a term missing from the
      table: its tokens' vectors and its substrings' vectors. */
  function Pool<V>(e: Embedder<V>, term: string): set<V>
  {
    TokenVectors(e.preTrained, Tokens(e, term)) + SubstringVectors(e.preTrained, term, 0)
  }

  /** `jieba_subword` followed by `n_gram` on a fresh pool: the grams and
      the negation flag. */
  function PoolLoops<V>(e: Embedder<V>, term: string): (r: (set<V>, bool))
    ensures r.0 == Pool(e, term)
    ensures r.1 == HasNegation(Tokens(e, term))
  {
    var tokens := Tokens(e, term);
    var first := TokenLoop(e.preTrained, tokens, {}, false);
    var grams := NGramLoop(e.preTrained, term, 0, first.0);
    assert first.0 == TokenVectors(e.preTrained, tokens);
    (grams, first.1)
  }

  /** `get_embedding(term)`: the table entry on a direct hit; otherwise the
      mean of the pool, negated when a token is a negation marker, and
      `None` when the pool is empty. `n_gram` scans the term as given, since
      the result of `term.replace(token, '')` is discarded. */
  function GetEmbedding<V>(e: Embedder<V>, term: string): (r: Option<V>)
    ensures term in e.preTrained ==> r == Some(e.preTrained[term])
    ensures term !in e.preTrained ==> (r.None? <==> Pool(e, term) == {})
    ensures term !in e.preTrained && r.Some? && !HasNegation(Tokens(e, term)) ==> r.value == e.mean(multiset(Pool(e, term)))
    ensures term !in e.preTrained && r.Some? && HasNegation(Tokens(e, term)) ==> r.value == e.negate(e.mean(multiset(Pool(e, term))))
  {
    if term in e.preTrained then Some(e.preTrained[term])
    else
      var loops := PoolLoops(e, term);
      if loops.0 == {} then None
      else if loops.1 then Some(e.negate(e.mean(multiset(loops.0))))
      else Some(e.mean(multiset(loops.0)))
  }

  /** A negation marker is not dropped from the term: if it is a table key
      and occurs in a term missing from the table, its vector is pooled by
      the substring scan. */
  lemma {:induction false} NegationMarkStaysInPool<V>(e: Embedder<V>, term: string, i: nat, w: string)
    requires w in NegWords && w in e.preTrained && term !in e.preTrained
    requires OccursAt(term, w, i)
    ensures e.preTrained[w] in Pool(e, term)
  {
    assert term[i..i + |w|] == w;
    assert |w| == 1;
    assert e.preTrained[term[i..i + 1]] in SubstringVectors(e.preTrained, term, 0);
  }

  /** `get_embedding` of each subword of `subs`. */
  function Embeddings<V>(e: Embedder<V>, subs: seq<string>): (r: seq<Option<V>>)
    ensures |r| == |subs| && forall k :: 0 <= k < |subs| ==> r[k] == GetEmbedding(e, subs[k])
    decreases |subs|
  {
    if subs == [] then []
    else
      var rest := Embeddings(e, subs[1..]);
      assert forall k :: 0 < k < |subs| ==> subs[1..][k - 1] == subs[k];
      [GetEmbedding(e, subs[0])] + rest
  }

  lemma {:induction false} EmbeddingsAppend<V>(e: Embedder<V>, a: seq<string>, b: seq<string>)
    ensures Embeddings(e, a + b) == Embeddings(e, a) + Embeddings(e, b)
    decreases |a|
  {
    if a == [] {
      assert a + b == b;
    } else {
      assert (a + b)[0] == a[0] && (a + b)[1..] == a[1..] + b;
      EmbeddingsAppend(e, a[1..], b);
    }
  }

  /** The vectors of `subs` that `get_embedding` finds, in order
      (`temp_out` of `load_standard_vector`). */
  function SubVectors<V>(e: Embedder<V>, subs: seq<string>): (r: seq<V>)
    ensures |r| <= |subs|
    ensures forall v :: v in r ==> exists k :: 0 <= k < |subs| && GetEmbedding(e, subs[k]) == Some(v)
    ensures r == [] <==> forall k :: 0 <= k < |subs| ==> GetEmbedding(e, subs[k]).None?
  {
    Somes(Embeddings(e, subs))
  }

  /** The values present in `opts`, in order. */
  function Somes<V>(opts: seq<Option<V>>): (r: seq<V>)
    ensures |r| <= |opts|
    ensures forall v :: v in r ==> exists k :: 0 <= k < |opts| && opts[k] == Some(v)
    ensures r == [] <==> forall k :: 0 <= k < |opts| ==> opts[k].None?
    decreases |opts|
  {
    if opts == [] then []
    else
      var rest := Somes(opts[1..]);
      assert forall k :: 0 < k < |opts| ==> opts[1..][k - 1] == opts[k];
      match opts[0]
      case Some(v) => [v] + rest
      case None => rest
  }

  /** `ix` lists, in increasing order, exactly the positions of `opts`
      holding a value, and `r[j]` is the value at `ix[j]`. */
  ghost predicate PresentAt<V>(opts: seq<Option<V>>, r: seq<V>, ix: seq<nat>)
  {
    |ix| == |r| &&
    (forall j :: 0 <= j < |ix| ==> ix[j] < |opts| && opts[ix[j]] == Some(r[j])) &&
    Ascending(ix) &&
    (forall k :: 0 <= k < |opts| && opts[k].Some? ==> k in ix)
  }

  /** Shifting the positions of `opts[1..]` gives positions in `opts`. */
  lemma {:induction false} PresentAtShift<V>(opts: seq<Option<V>>, rest: seq<V>, ix: seq<nat>)
    requires opts != [] && PresentAt(opts[1..], rest, ix)
    ensures forall j :: 0 <= j < |ix| ==> Shifted(ix)[j] < |opts| && opts[Shifted(ix)[j]] == Some(rest[j])
    ensures Ascending(Shifted(ix)) && forall j :: 0 <= j < |ix| ==> 0 < Shifted(ix)[j]
    ensures forall k :: 0 < k < |opts| && opts[k].Some? ==> k in Shifted(ix)
  {
    var sh := Shifted(ix);
    forall j | 0 <= j < |ix| ensures sh[j] < |opts| && opts[sh[j]] == Some(rest[j]) {
      assert opts[sh[j]] == opts[1..][ix[j]];
    }
    forall k | 0 < k < |opts| && opts[k].Some? ensures k in sh {
      assert opts[1..][k - 1] == opts[k];
      var j :| 0 <= j < |ix| && ix[j] == k - 1;
      assert sh[j] == k;
    }
  }

  lemma {:induction false} PresentAtSome<V>(opts: seq<Option<V>>, rest: seq<V>, ix: seq<nat>)
    requires opts != [] && opts[0].Some? && PresentAt(opts[1..], rest, ix)
    ensures PresentAt(opts, [opts[0].value] + rest, [0] + Shifted(ix))
  {
    var sh := Shifted(ix);
    PresentAtShift(opts, rest, ix);
    AscendingCons(0, sh);
    ConsValues(opts, rest, sh);
    ConsCovers(opts, sh);
  }

  lemma {:induction false} ConsValues<V>(opts: seq<Option<V>>, rest: seq<V>, sh: seq<nat>)
    requires opts != [] && opts[0].Some? && |sh| == |rest|
    requires forall j :: 0 <= j < |sh| ==> sh[j] < |opts| && opts[sh[j]] == Some(rest[j])
    ensures forall j :: 0 <= j < |sh| + 1 ==>
      ([0] + sh)[j] < |opts| && opts[([0] + sh)[j]] == Some(([opts[0].value] + rest)[j])
  {
    var r, ix' := [opts[0].value] + rest, [0] + sh;
    forall j | 0 <= j < |ix'| ensures ix'[j] < |opts| && opts[ix'[j]] == Some(r[j]) {
      if j > 0 {
        assert ix'[j] == sh[j - 1] && r[j] == rest[j - 1];
      }
    }
  }

  lemma {:induction false} ConsCovers<V>(opts: seq<Option<V>>, sh: seq<nat>)
    requires opts != []
    requires forall k :: 0 < k < |opts| && opts[k].Some? ==> k in sh
    ensures forall k :: 0 <= k < |opts| && opts[k].Some? ==> k in [0] + sh
  {
    forall k | 0 <= k < |opts| && opts[k].Some? ensures k in [0] + sh {
      if k > 0 {
        assert k in sh;
      }
    }
  }

  lemma {:induction false} PresentAtNone<V>(opts: seq<Option<V>>, rest: seq<V>, ix: seq<nat>)
    requires opts != [] && opts[0].None? && PresentAt(opts[1..], rest, ix)
    ensures PresentAt(opts, rest, Shifted(ix))
  {
    PresentAtShift(opts, rest, ix);
  }

  /** `Somes` keeps every present value, once, in the order of its
      position, and nothing else: the filter of the loop that appends
      each found value. */
  lemma {:induction false} SomesPositions<V>(opts: seq<Option<V>>) returns (ix: seq<nat>)
    ensures PresentAt(opts, Somes(opts), ix)
    decreases |opts|
  {
    if opts == [] {
      ix := [];
    } else {
      var ix' := SomesPositions(opts[1..]);
      if opts[0].Some? {
        PresentAtSome(opts, Somes(opts[1..]), ix');
        ix := [0] + Shifted(ix');
      } else {
        PresentAtNone(opts, Somes(opts[1..]), ix');
        ix := Shifted(ix');
      }
    }
  }

  lemma {:induction false} SomesAppend<V>(a: seq<Option<V>>, b: seq<Option<V>>)
    ensures Somes(a + b) == Somes(a) + Somes(b)
    decreases |a|
  {
    if a == [] {
      assert a + b == b;
    } else {
      assert (a + b)[0] == a[0] && (a + b)[1..] == a[1..] + b;
      SomesAppend(a[1..], b);
    }
  }

  /** `temp_out` after the subword `subs[n]`: the vectors found before it,
      then its own vector if `get_embedding` finds one. */
  lemma {:induction false} SubVectorsSnoc<V>(e: Embedder<V>, subs: seq<string>, n: nat)
    requires n < |subs|
    ensures SubVectors(e, subs[..n + 1]) ==
      SubVectors(e, subs[..n]) + (if GetEmbedding(e, subs[n]).Some? then [GetEmbedding(e, subs[n]).value] else [])
  {
    EmbeddingsSnoc(e, subs, n);
    SomesSnoc(Embeddings(e, subs[..n]), GetEmbedding(e, subs[n]), Embeddings(e, subs[..n + 1]));
  }

  lemma {:induction false} EmbeddingsSnoc<V>(e: Embedder<V>, subs: seq<string>, n: nat)
    requires n < |subs|
    ensures Embeddings(e, subs[..n + 1]) == Embeddings(e, subs[..n]) + [GetEmbedding(e, subs[n])]
  {
    assert subs[..n + 1] == subs[..n] + [subs[n]];
    EmbeddingsAppend(e, subs[..n], [subs[n]]);
    EmbeddingsOne(e, subs[n]);
  }

  lemma {:induction false} EmbeddingsOne<V>(e: Embedder<V>, x: string)
    ensures Embeddings(e, [x]) == [GetEmbedding(e, x)]
  {
    assert [x][1..] == [];
  }

  lemma {:induction false} SomesSnoc<V>(front: seq<Option<V>>, last: Option<V>, whole: seq<Option<V>>)
    requires whole == front + [last]
    ensures Somes(whole) == Somes(front) + if last.Some? then [last.value] else []
  {
    SomesAppend(front, [last]);
    SomesOne(last);
  }

  lemma {:induction false} SomesOne<V>(x: Option<V>)
    ensures Somes([x]) == if x.Some? then [x.value] else []
  {
    assert [x][1..] == [];
  }

  /** The vectors `load_standard_vector` keeps for a term are those of the
      subwords `get_embedding` finds, in subword order, one per such
      subword. */
  lemma {:induction false} SubVectorsPositions<V>(e: Embedder<V>, subs: seq<string>) returns (ix: seq<nat>)
    ensures |ix| == |SubVectors(e, subs)|
    ensures forall j :: 0 <= j < |ix| ==> ix[j] < |subs| && GetEmbedding(e, subs[ix[j]]) == Some(SubVectors(e, subs)[j])
    ensures forall i, j :: 0 <= i < j < |ix| ==> ix[i] < ix[j]
    ensures forall k :: 0 <= k < |subs| && GetEmbedding(e, subs[k]).Some? ==> k in ix
  {
    var opts := Embeddings(e, subs);
    ix := SomesPositions(opts);
    forall j | 0 <= j < |ix| ensures ix[j] < |subs| && GetEmbedding(e, subs[ix[j]]) == Some(SubVectors(e, subs)[j]) {
      assert opts[ix[j]] == GetEmbedding(e, subs[ix[j]]);
    }
    forall k | 0 <= k < |subs| && GetEmbedding(e, subs[k]).Some? ensures k in ix {
      assert opts[k].Some?;
    }
  }

  /** Each entry of `standard_synonym` with its punctuation stripped. */
  function Cleaned(synonyms: seq<string>): (r: seq<string>)
    ensures |r| == |synonyms|
    ensures forall j :: 0 <= j < |synonyms| ==> r[j] == RemovePunctuation(synonyms[j])
  {
    if synonyms == [] then [] else [RemovePunctuation(synonyms[0])] + Cleaned(synonyms[1..])
  }

  /** The loop of `load_standard_vector` over already stripped terms, with
      `vectors(t)` the subword vectors found for `t`: each term is kept,
      with the mean of its vectors, when it has any. */
  function LoadFrom<V>(vectors: string -> seq<V>, mean: multiset<V> -> V, terms: seq<string>): (r: (seq<V>, seq<string>))
    ensures |r.0| == |r.1| <= |terms|
    ensures forall k :: 0 <= k < |r.1| ==> vectors(r.1[k]) != [] && r.0[k] == mean(multiset(vectors(r.1[k])))
    ensures forall j :: 0 <= j < |terms| && vectors(terms[j]) != [] ==> terms[j] in r.1
    ensures IsSubsequence(r.1, terms)
    decreases |terms|
  {
    if terms == [] then ([], [])
    else
      var rest := LoadFrom(vectors, mean, terms[1..]);
      assert forall j :: 0 < j < |terms| ==> terms[1..][j - 1] == terms[j];
      if vectors(terms[0]) != [] then
        var r := ([mean(multiset(vectors(terms[0])))] + rest.0, [terms[0]] + rest.1);
        assert r.1[1..] == rest.1 && r.1[0] == terms[0];
        assert forall k :: 0 < k < |r.1| ==> r.1[k] == rest.1[k - 1];
        assert forall k :: 0 < k < |r.0| ==> r.0[k] == rest.0[k - 1];
        r
      else
        SubsequenceSkip(rest.1, terms);
        rest
  }

  /** `LoadFrom` keeps every occurrence of a represented term: a term
      listed twice is averaged and appended twice. */
  lemma {:induction false} LoadFromCounts<V>(vectors: string -> seq<V>, mean: multiset<V> -> V, terms: seq<string>)
    ensures forall t :: multiset(LoadFrom(vectors, mean, terms).1)[t] == (if vectors(t) != [] then multiset(terms)[t] else 0)
    decreases |terms|
  {
    if terms != [] {
      LoadFromCounts(vectors, mean, terms[1..]);
      assert terms == [terms[0]] + terms[1..];
      var rest := LoadFrom(vectors, mean, terms[1..]).1;
      if vectors(terms[0]) != [] {
        assert LoadFrom(vectors, mean, terms).1 == [terms[0]] + rest;
      } else {
        assert LoadFrom(vectors, mean, terms).1 == rest;
      }
    }
  }

  /** The vectors `load_standard_vector` averages for a stripped term. */
  function TermVectors<V>(e: Embedder<V>, term: string): seq<V>
  {
    SubVectors(e, SubwordList(e.subList, e.maxLen, term))
  }

  /** `load_standard_vector()`: the parallel lists `output_vec` and
      `output_term`, the latter holding, in input order, the stripped
      entries of `standard_synonym` that some subword vector represents. */
  function LoadStandardVector<V>(e: Embedder<V>, synonyms: seq<string>): (r: (seq<V>, seq<string>))
    ensures |r.0| == |r.1| <= |synonyms|
    ensures forall k :: 0 <= k < |r.1| ==> TermVectors(e, r.1[k]) != [] && r.0[k] == e.mean(multiset(TermVectors(e, r.1[k])))
    ensures forall j :: 0 <= j < |synonyms| && TermVectors(e, RemovePunctuation(synonyms[j])) != [] ==> RemovePunctuation(synonyms[j]) in r.1
    ensures IsSubsequence(r.1, Cleaned(synonyms))
    ensures forall t :: multiset(r.1)[t] == (if TermVectors(e, t) != [] then multiset(Cleaned(synonyms))[t] else 0)
  {
    LoadFromCounts(t => TermVectors(e, t), e.mean, Cleaned(synonyms));
    LoadFrom(t => TermVectors(e, t), e.mean, Cleaned(synonyms))
  }
}

=== FILE: evaluate.dfy ===
/** The per-query body of the evaluation loop: normalise the input, split
    it into subwords, match subwords directly against the knowledge graph,
    compute the unmatched stretches, and either answer with the single
    direct match or hand a pool of terms to the final ranking. The
    tokenizer and the final ranking are parameters. */
module Evaluate {
  import opened Wrappers
  import opened Strings
  import opened Normalise
  import opened Segment
  import opened Matching

  // ---------------------------------------------------------------------
  // One subword against the knowledge graph

  /** The term recorded in `matched` for subword `w`, if any: a standard
      term of more than one character is recorded as itself; otherwise a
      synonym of more than one character records the standard term of its
      first row. */
  function Lookup(kg: seq<Entry>, w: string): (r: Option<string>)
    ensures r.None? <==> |w| <= 1 || (w !in Standards(kg) && w !in Synonyms(kg))
    ensures w in Standards(kg) && |w| > 1 ==> r == Some(w)
    ensures w !in Standards(kg) && w in Synonyms(kg) && |w| > 1 ==>
      (exists p :: 0 <= p < |kg| && kg[p].synonym == w && (forall q :: 0 <= q < p ==> kg[q].synonym != w) &&
                   r == Some(kg[p].standard))
    ensures r.Some? ==> r.value in Standards(kg)
  {
    if w in Standards(kg) && |w| > 1 then Some(w)
    else if w in Synonyms(kg) && |w| > 1 then
      var p := Find(Synonyms(kg), w).value;
      assert Standards(kg)[p] == kg[p].standard;
      Some(kg[p].standard)
    else None
  }

  /** `[start_loc, end_loc]` from `temp_str.index(w)`; `None` where the
      search raises `ValueError`. */
  function SpanOf(tempStr: string, w: string): (r: Option<Span>)
    ensures r.None? <==> !Occurs(w, tempStr)
    ensures r.Some? ==>
      r.value.end == r.value.start + |w| && r.value.end <= |tempStr| && tempStr[r.value.start..r.value.end] == w
    ensures r.Some? ==> forall j: nat :: j < r.value.start ==> !OccursAt(tempStr, w, j)
  {
    match IndexOf(tempStr, w)
    case None => None
    case Some(s) => Some(Span(s, s + |w|))
  }

  /** The `for i in subwords` loop: the recorded terms and their spans, in
      subword order. A subword whose span search fails is still recorded,
      without a span. */
  function MatchLoop(kg: seq<Entry>, tempStr: string, subwords: seq<string>): (r: (seq<string>, seq<Span>))
    ensures |r.1| <= |r.0| <= |subwords|
    ensures forall t :: t in r.0 ==> t in Standards(kg)
    ensures forall sp :: sp in r.1 ==> exists w :: w in subwords && Lookup(kg, w).Some? && SpanOf(tempStr, w) == Some(sp)
    decreases |subwords|
  {
    if subwords == [] then ([], [])
    else
      var n := |subwords| - 1;
      var w := subwords[n];
      var rest := MatchLoop(kg, tempStr, subwords[..n]);
      assert subwords == subwords[..n] + [w];
      match Lookup(kg, w)
      case None => rest
      case Some(t) =>
        match SpanOf(tempStr, w)
        case None => (rest.0 + [t], rest.1)
        case Some(sp) => (rest.0 + [t], rest.1 + [sp])
  }

  /** The recorded terms are exactly the lookups of the subwords. */
  lemma {:induction false} MatchLoopTerms(kg: seq<Entry>, tempStr: string, subwords: seq<string>)
    ensures var r := MatchLoop(kg, tempStr, subwords);
      forall t :: t in r.0 <==> exists w :: w in subwords && Lookup(kg, w) == Some(t)
    decreases |subwords|
  {
    if subwords != [] {
      var n := |subwords| - 1;
      MatchLoopTerms(kg, tempStr, subwords[..n]);
      assert subwords == subwords[..n] + [subwords[n]];
    }
  }

  /** `ix` lists, in increasing order, exactly the positions of the
      subwords found in the knowledge graph, and `terms[j]` is the
      lookup of the subword at `ix[j]`. */
  ghost predicate TermsAt(kg: seq<Entry>, subwords: seq<string>, terms: seq<string>, ix: seq<nat>)
  {
    |ix| == |terms| &&
    (forall j :: 0 <= j < |ix| ==> ix[j] < |subwords| && Lookup(kg, subwords[ix[j]]) == Some(terms[j])) &&
    Ascending(ix) &&
    (forall k :: 0 <= k < |subwords| && Lookup(kg, subwords[k]).Some? ==> k in ix)
  }

  /** The positions of a prefix, extended by the next subword. */
  lemma {:induction false} TermsAtSnoc(kg: seq<Entry>, subwords: seq<string>, terms: seq<string>, ix: seq<nat>)
    requires subwords != [] && TermsAt(kg, subwords[..|subwords| - 1], terms, ix)
    ensures var n := |subwords| - 1;
      Lookup(kg, subwords[n]).Some? ==> TermsAt(kg, subwords, terms + [Lookup(kg, subwords[n]).value], ix + [n])
    ensures var n := |subwords| - 1;
      Lookup(kg, subwords[n]).None? ==> TermsAt(kg, subwords, terms, ix)
  {
    var n := |subwords| - 1;
    var pre := subwords[..n];
    forall j | 0 <= j < |ix| ensures ix[j] < n && subwords[ix[j]] == pre[ix[j]] {
    }
    forall k | 0 <= k < n && Lookup(kg, subwords[k]).Some? ensures k in ix {
      assert pre[k] == subwords[k];
    }
    if Lookup(kg, subwords[n]).Some? {
      var terms', ix' := terms + [Lookup(kg, subwords[n]).value], ix + [n];
      AscendingSnoc(ix, n);
      forall j | 0 <= j < |ix'| ensures ix'[j] < |subwords| && Lookup(kg, subwords[ix'[j]]) == Some(terms'[j]) {
        if j < |ix| {
          assert ix'[j] == ix[j] && terms'[j] == terms[j];
        }
      }
      forall k | 0 <= k < |subwords| && Lookup(kg, subwords[k]).Some? ensures k in ix' {
        if k < n {
          assert k in ix;
        }
      }
    }
  }

  /** The recorded terms are the lookups of the subwords found in the
      knowledge graph, one per such subword, in subword order. */
  lemma {:induction false} MatchLoopTermsInOrder(kg: seq<Entry>, tempStr: string, subwords: seq<string>) returns (ix: seq<nat>)
    ensures TermsAt(kg, subwords, MatchLoop(kg, tempStr, subwords).0, ix)
    decreases |subwords|
  {
    if subwords == [] {
      ix := [];
    } else {
      var n := |subwords| - 1;
      var ix' := MatchLoopTermsInOrder(kg, tempStr, subwords[..n]);
      TermsAtSnoc(kg, subwords, MatchLoop(kg, tempStr, subwords[..n]).0, ix');
      ix := if Lookup(kg, subwords[n]).Some? then ix' + [n] else ix';
    }
  }

  /** `ix` lists, in increasing order, exactly the positions of the
      subwords found in the knowledge graph and in `tempStr`, and
      `spans[j]` is the span of the subword at `ix[j]`. */
  ghost predicate SpansAt(kg: seq<Entry>, tempStr: string, subwords: seq<string>, spans: seq<Span>, ix: seq<nat>)
  {
    |ix| == |spans| &&
    (forall j :: 0 <= j < |ix| ==>
       ix[j] < |subwords| && Lookup(kg, subwords[ix[j]]).Some? && SpanOf(tempStr, subwords[ix[j]]) == Some(spans[j])) &&
    Ascending(ix) &&
    (forall k :: 0 <= k < |subwords| && Lookup(kg, subwords[k]).Some? && SpanOf(tempStr, subwords[k]).Some? ==> k in ix)
  }

  /** The positions of a prefix stay positions of the whole list. */
  lemma {:induction false} SpansAtPrefix(kg: seq<Entry>, tempStr: string, subwords: seq<string>, spans: seq<Span>, ix: seq<nat>)
    requires subwords != [] && SpansAt(kg, tempStr, subwords[..|subwords| - 1], spans, ix)
    ensures forall j :: 0 <= j < |ix| ==>
      ix[j] < |subwords| - 1 && Lookup(kg, subwords[ix[j]]).Some? && SpanOf(tempStr, subwords[ix[j]]) == Some(spans[j])
    ensures forall k :: 0 <= k < |subwords| - 1 && Lookup(kg, subwords[k]).Some? && SpanOf(tempStr, subwords[k]).Some? ==> k in ix
  {
    var n := |subwords| - 1;
    var pre := subwords[..n];
    forall j | 0 <= j < |ix| ensures ix[j] < n && subwords[ix[j]] == pre[ix[j]] {
    }
    forall k | 0 <= k < n && Lookup(kg, subwords[k]).Some? && SpanOf(tempStr, subwords[k]).Some? ensures k in ix {
      assert pre[k] == subwords[k];
    }
  }

  /** A last subword without a recorded span adds no position. */
  lemma {:induction false} SpansAtKeep(kg: seq<Entry>, tempStr: string, subwords: seq<string>, spans: seq<Span>, ix: seq<nat>)
    requires subwords != [] && SpansAt(kg, tempStr, subwords[..|subwords| - 1], spans, ix)
    requires !(Lookup(kg, subwords[|subwords| - 1]).Some? && SpanOf(tempStr, subwords[|subwords| - 1]).Some?)
    ensures SpansAt(kg, tempStr, subwords, spans, ix)
  {
    SpansAtPrefix(kg, tempStr, subwords, spans, ix);
  }

  /** A last subword with a recorded span adds its position. */
  lemma {:induction false} SpansAtExtend(kg: seq<Entry>, tempStr: string, subwords: seq<string>, spans: seq<Span>, ix: seq<nat>, sp: Span)
    requires subwords != [] && SpansAt(kg, tempStr, subwords[..|subwords| - 1], spans, ix)
    requires Lookup(kg, subwords[|subwords| - 1]).Some? && SpanOf(tempStr, subwords[|subwords| - 1]) == Some(sp)
    ensures SpansAt(kg, tempStr, subwords, spans + [sp], ix + [|subwords| - 1])
  {
    var n := |subwords| - 1;
    SpansAtPrefix(kg, tempStr, subwords, spans, ix);
    var spans', ix' := spans + [sp], ix + [n];
    AscendingSnoc(ix, n);
    forall j | 0 <= j < |ix'|
      ensures ix'[j] < |subwords| && Lookup(kg, subwords[ix'[j]]).Some? && SpanOf(tempStr, subwords[ix'[j]]) == Some(spans'[j])
    {
      if j < |ix| {
        assert ix'[j] == ix[j] && spans'[j] == spans[j];
      }
    }
    forall k | 0 <= k < |subwords| && Lookup(kg, subwords[k]).Some? && SpanOf(tempStr, subwords[k]).Some? ensures k in ix' {
      if k < n {
        assert k in ix;
      }
    }
  }

  /** The recorded spans are those of the looked-up subwords that occur in
      `tempStr`, one per such subword, in subword order. */
  lemma {:induction false} MatchLoopSpansInOrder(kg: seq<Entry>, tempStr: string, subwords: seq<string>) returns (ix: seq<nat>)
    ensures SpansAt(kg, tempStr, subwords, MatchLoop(kg, tempStr, subwords).1, ix)
    decreases |subwords|
  {
    if subwords == [] {
      ix := [];
    } else {
      var n := |subwords| - 1;
      var w := subwords[n];
      var ix' := MatchLoopSpansInOrder(kg, tempStr, subwords[..n]);
      var spans := MatchLoop(kg, tempStr, subwords[..n]).1;
      if Lookup(kg, w).Some? && SpanOf(tempStr, w).Some? {
        SpansAtExtend(kg, tempStr, subwords, spans, ix', SpanOf(tempStr, w).value);
        ix := ix' + [n];
      } else {
        SpansAtKeep(kg, tempStr, subwords, spans, ix');
        ix := ix';
      }
    }
  }

  /** Every looked-up subword that occurs in `tempStr` has its span
      recorded; when all of them occur there is one span per term. */
  lemma {:induction false} MatchLoopSpans(kg: seq<Entry>, tempStr: string, subwords: seq<string>)
    ensures var r := MatchLoop(kg, tempStr, subwords);
      forall w :: w in subwords && Lookup(kg, w).Some? && SpanOf(tempStr, w).Some? ==> SpanOf(tempStr, w).value in r.1
    ensures var r := MatchLoop(kg, tempStr, subwords);
      (forall w :: w in subwords && Lookup(kg, w).Some? ==> Occurs(w, tempStr)) ==> |r.1| == |r.0|
    decreases |subwords|
  {
    if subwords != [] {
      var n := |subwords| - 1;
      MatchLoopSpans(kg, tempStr, subwords[..n]);
      assert subwords == subwords[..n] + [subwords[n]];
    }
  }

  /** Single characters are never matched. */
  lemma {:induction false} MatchLoopShortWords(kg: seq<Entry>, tempStr: string, subwords: seq<string>)
    requires forall w :: w in subwords ==> |w| <= 1
    ensures MatchLoop(kg, tempStr, subwords) == ([], [])
    decreases |subwords|
  {
    if subwords != [] {
      var n := |subwords| - 1;
      assert subwords[n] in subwords;
      MatchLoopShortWords(kg, tempStr, subwords[..n]);
    }
  }

  // ---------------------------------------------------------------------
  // One query

  /** Everything the loop body computes before the final decision. */
  datatype Query = Query(
    tempStr: string,
    reEng: string,
    subwords: seq<string>,
    matched: seq<string>,
    spans: seq<Span>,
    nonMatch: seq<string>,
    jiebaTokens: seq<string>)

  /** Lines 46-56: `re_eng` and the combined subword list of the
      normalised input. */
  function InputSubwords(inv: seq<string>, maxLen: pos, tempStr: string): (r: (string, seq<string>))
    ensures r.0 == FindEnglishTerm(tempStr).0
    ensures "" !in r.1
    ensures forall t :: t in r.1 ==> forall c :: c in t ==> !IsSpace(c)
  {
    var (reEng, engSubword) := FindEnglishTerm(tempStr);
    var joined := EngWithSub(engSubword, SubwordList(inv, maxLen, reEng));
    (reEng, joined.value)
  }

  /** Lines 46-96 of the loop body for input `inputStr`. The spans are
      positions in the normalised `tempStr`, the gaps are cut from the raw
      `inputStr`. */
  function Analyse(kg: seq<Entry>, inv: seq<string>, maxLen: pos, jieba: string -> seq<string>, inputStr: string): (q: Query)
    ensures q.tempStr == Lower(RemovePunctuation(inputStr))
    ensures "" !in q.subwords && "" !in q.nonMatch
    ensures q.nonMatch == NonMatchWord(inputStr, q.spans)
    ensures forall t :: t in q.matched ==> t in Standards(kg)
    ensures |q.spans| <= |q.matched|
    ensures forall sp :: sp in q.spans ==>
      sp.start <= sp.end <= |q.tempStr| && exists w :: w in q.subwords && q.tempStr[sp.start..sp.end] == w
  {
    var tempStr := Lower(RemovePunctuation(inputStr));
    var (reEng, subwords) := InputSubwords(inv, maxLen, tempStr);
    var (matched, spans) := MatchLoop(kg, tempStr, subwords);
    assert forall sp :: sp in spans ==>
      sp.start <= sp.end <= |tempStr| && exists w :: w in subwords && tempStr[sp.start..sp.end] == w by {
      forall sp | sp in spans
        ensures sp.start <= sp.end <= |tempStr| && exists w :: w in subwords && tempStr[sp.start..sp.end] == w
      {
        var w :| w in subwords && Lookup(kg, w).Some? && SpanOf(tempStr, w) == Some(sp);
      }
    }
    Query(tempStr, reEng, subwords, matched, spans, NonMatchWord(inputStr, spans), jieba(reEng))
  }

  /** What the loop body does with a query: answer directly or rank a
      pool of terms. */
  datatype Decision = Direct(term: string) | Rank(pool: set<string>)

  /** Lines 99-125: with no gaps and exactly one match the match is the
      answer; otherwise every matched term, gap, subword and jieba token
      goes into the pool. */
  function Decide(q: Query): (d: Decision)
    ensures d.Direct? <==> q.nonMatch == [] && |q.matched| == 1
    ensures d.Direct? ==> d.term == q.matched[0]
    ensures d.Rank? ==> forall x :: x in d.pool <==>
      x in q.matched || x in q.nonMatch || x in q.subwords || x in q.jiebaTokens
  {
    if q.nonMatch == [] then
      if |q.matched| == 1 then Direct(q.matched[0])
      else Rank(set x | x in q.matched + q.subwords + q.jiebaTokens)
    else Rank(set x | x in q.matched + q.nonMatch + q.subwords + q.jiebaTokens)
  }

  /** `final_output`, with `final_mapping` as a parameter. */
  function Resolve(d: Decision, finalMapping: set<string> -> string): string
  {
    match d
    case Direct(t) => t
    case Rank(pool) => finalMapping(pool)
  }

  function Output(kg: seq<Entry>, inv: seq<string>, maxLen: pos, jieba: string -> seq<string>,
                  finalMapping: set<string> -> string, inputStr: string): string
  {
    Resolve(Decide(Analyse(kg, inv, maxLen, jieba, inputStr)), finalMapping)
  }

  /** A direct answer is always a standard term of the knowledge graph. */
  lemma {:induction false} DirectAnswerIsStandard(kg: seq<Entry>, inv: seq<string>, maxLen: pos, jieba: string -> seq<string>, inputStr: string)
    requires Decide(Analyse(kg, inv, maxLen, jieba, inputStr)).Direct?
    ensures Decide(Analyse(kg, inv, maxLen, jieba, inputStr)).term in Standards(kg)
  {
    var q := Analyse(kg, inv, maxLen, jieba, inputStr);
    assert q.matched[0] in q.matched;
  }

  // ---------------------------------------------------------------------
  // The accuracy count

  /** The rows `k < n` whose synonym, used as the query, is answered with
      the row's own standard term. */
  function Correct(kg: seq<Entry>, answer: string -> string, n: nat): set<nat>
    requires n <= |kg|
  {
    set k: nat | k < n && answer(kg[k].synonym) == kg[k].standard
  }

  /** `score` after the first `n` rows of the evaluation loop: one point
      exactly for each correct row. */
  function Score(kg: seq<Entry>, answer: string -> string, n: nat): (r: nat)
    requires n <= |kg|
    ensures r == |Correct(kg, answer, n)|
    ensures r <= n
    decreases n
  {
    if n == 0 then
      assert Correct(kg, answer, 0) == {};
      0
    else
      var rest := Score(kg, answer, n - 1);
      var hit := answer(kg[n - 1].synonym) == kg[n - 1].standard;
      assert Correct(kg, answer, n) == Correct(kg, answer, n - 1) + (if hit then {n - 1} else {});
      assert n - 1 !in Correct(kg, answer, n - 1);
      (if hit then 1 else 0) + rest
  }

  /** The count of the whole evaluation loop, each row's synonym answered
      by the query body. */
  function Evaluation(kg: seq<Entry>, inv: seq<string>, maxLen: pos, jieba: string -> seq<string>,
                      finalMapping: set<string> -> string): (r: nat)
    ensures r <= |kg|
  {
    Score(kg, s => Output(kg, inv, maxLen, jieba, finalMapping, s), |kg|)
  }
}

=== FILE: kmp.dfy ===
/** The string search `kmp(m_str, s_str)` of utility.py and its copy in
    STEP-2-get-Knowledge-Graph.py.

    It is not textbook Knuth-Morris-Pratt: the failure-table loop starts at
    `m = 1, s = 0`, so entry 1 of the table is never written and stays -1.
    A mismatch at pattern position 1 therefore restarts the pattern one
    character further on, and occurrences that overlap a failed partial
    match are missed (`KmpMissesOverlap`). What the search does guarantee is
    soundness: a result other than -1 is a real occurrence. */
module Kmp {
  import opened Wrappers
  import opened Strings

  /** A failure table for `p`: one entry per pattern position, each -1 or
      the length of a border (a proper prefix that is also a suffix) of the
      pattern prefix ending there. */
  predicate IsTable(p: string, t: seq<int>)
  {
    && |t| == |p|
    && (forall k :: 0 <= k < |t| ==> -1 <= t[k] < k)
    && (forall k :: 0 <= k < |t| && t[k] >= 0 ==> p[..t[k]] == p[k - t[k]..k])
  }

  /** Writing a border length into a table keeps it a table. */
  lemma {:induction false} TableUpdate(p: string, t: seq<int>, k: nat, b: int)
    requires IsTable(p, t) && k < |t| && -1 <= b < k
    requires b >= 0 ==> p[..b] == p[k - b..k]
    ensures IsTable(p, t[k := b])
  {
    var t' := t[k := b];
    forall i | 0 <= i < |t'| && t'[i] >= 0
      ensures p[..t'[i]] == p[i - t'[i]..i]
    {
      if i != k {
        assert t'[i] == t[i];
      }
    }
  }

  /** The state of the table loop: `t` is a table and `s` a border length
      of `p[..m]`. */
  predicate TableState(p: string, m: nat, s: int, t: seq<int>)
  {
    && IsTable(p, t)
    && 1 <= m && -1 <= s < m
    && (0 <= s && m <= |p| ==> p[..s] == p[m - s..m])
  }

  /** One step of the table loop when the characters agree (or `s == -1`). */
  lemma {:induction false} TableStepAdvance(p: string, m: nat, s: int, t: seq<int>)
    requires TableState(p, m, s, t) && m < |p| - 1
    requires s == -1 || p[m] == p[s]
    ensures TableState(p, m + 1, s + 1, t[m + 1 := s + 1])
  {
    if s >= 0 {
      assert p[..s + 1] == p[..s] + [p[s]];
      assert p[m - s..m + 1] == p[m - s..m] + [p[m]];
    }
    TableUpdate(p, t, m + 1, s + 1);
  }

  /** One step of the table loop on a mismatch: fall back to `t[s]`. */
  lemma {:induction false} TableStepFallBack(p: string, m: nat, s: int, t: seq<int>)
    requires TableState(p, m, s, t) && m < |p| - 1
    requires s != -1 && p[m] != p[s]
    ensures TableState(p, m, t[s], t)
  {
    var s' := t[s];
    if s' >= 0 {
      assert p[..s'] == p[s - s'..s];
      assert p[s - s'..s] == p[..s][s - s'..s];
      assert p[m - s'..m] == p[m - s..m][s - s'..s];
    }
  }

  /** The table-building `while m < len(s_str) - 1` loop, from state
      `(m, s, next_ls)`. */
  function TableLoop(p: string, m: nat, s: int, t: seq<int>): (r: seq<int>)
    requires TableState(p, m, s, t)
    ensures IsTable(p, r)
    ensures forall k :: 0 <= k <= m && k < |r| ==> r[k] == t[k]
    decreases |p| - m, s + 1
  {
    if m < |p| - 1 then
      if s == -1 || p[m] == p[s] then
        TableStepAdvance(p, m, s, t);
        TableLoop(p, m + 1, s + 1, t[m + 1 := s + 1])
      else
        TableStepFallBack(p, m, s, t);
        TableLoop(p, m, t[s], t)
    else
      t
  }

  /** The advancing branch of the table loop, as one step of `TableLoop`. */
  lemma {:induction false} TableLoopAdvance(p: string, m: nat, s: int, t: seq<int>, m': nat, s': int, t': seq<int>)
    requires TableState(p, m, s, t) && m < |p| - 1
    requires s == -1 || p[m] == p[s]
    requires m' == m + 1 && s' == s + 1 && t' == t[m' := s']
    ensures TableState(p, m', s', t')
    ensures TableLoop(p, m, s, t) == TableLoop(p, m', s', t')
  {
    TableStepAdvance(p, m, s, t);
  }

  /** The fall-back branch of the table loop, as one step of `TableLoop`. */
  lemma {:induction false} TableLoopFallBack(p: string, m: nat, s: int, t: seq<int>)
    requires TableState(p, m, s, t) && m < |p| - 1
    requires s != -1 && p[m] != p[s]
    ensures TableState(p, m, t[s], t)
    ensures TableLoop(p, m, s, t) == TableLoop(p, m, t[s], t)
  {
    TableStepFallBack(p, m, s, t);
  }

  /** `next_ls` as utility.py:63-73 leaves it. Entries 0 and 1 are always -1. */
  function Table(p: string): (r: seq<int>)
    ensures IsTable(p, r)
    ensures forall k :: 0 <= k < |r| && k <= 1 ==> r[k] == -1
  {
    TableLoop(p, 1, 0, seq(|p|, _ => -1))
  }

  /** A matched prefix grows by one agreeing character. */
  lemma {:induction false} ExtendMatch(text: string, p: string, i: nat, j: int)
    requires i < |text| && -1 <= j < |p|
    requires j >= 0 ==> j <= i && text[i - j..i] == p[..j] && text[i] == p[j]
    ensures j >= 0 ==> text[i - j..i + 1] == p[..j + 1]
  {
    if j >= 0 {
      assert text[i - j..i + 1] == text[i - j..i] + [text[i]];
      assert p[..j + 1] == p[..j] + [p[j]];
    }
  }

  /** On a mismatch the border `t[j]` of the matched prefix still matches
      the text before position `i`. */
  lemma {:induction false} FallBackMatch(text: string, p: string, t: seq<int>, i: nat, j: nat)
    requires IsTable(p, t)
    requires j <= i <= |text| && j < |p|
    requires text[i - j..i] == p[..j]
    ensures t[j] >= 0 ==> t[j] <= i && text[i - t[j]..i] == p[..t[j]]
  {
    var j' := t[j];
    if j' >= 0 {
      assert p[..j'] == p[j - j'..j];
      assert p[j - j'..j] == p[..j][j - j'..j];
      assert text[i - j'..i] == text[i - j..i][j - j'..j];
    }
  }

  /** The scanning `while i < len(m_str) and j < len(s_str)` loop from state
      `(i, j)`: the `j` characters before `text[i]` match the start of `p`. */
  function Scan(text: string, p: string, t: seq<int>, i: nat, j: int): (r: int)
    requires IsTable(p, t)
    requires i <= |text| && -1 <= j <= |p|
    requires j >= 0 ==> j <= i && text[i - j..i] == p[..j]
    ensures r == -1 || (0 <= r && r + |p| <= |text| && text[r..r + |p|] == p)
    decreases |text| - i, j + 1
  {
    if i < |text| && j < |p| then
      if j == -1 || text[i] == p[j] then
        ExtendMatch(text, p, i, j);
        Scan(text, p, t, i + 1, j + 1)
      else
        FallBackMatch(text, p, t, i, j);
        Scan(text, p, t, i, t[j])
    else if j == |p| then
      i - j
    else
      -1
  }

  /** `kmp(m_str, s_str)` of utility.py: -1, or a position where the
      pattern really occurs. */
  function Kmp(text: string, p: string): (r: int)
    ensures r == -1 || (0 <= r && r + |p| <= |text| && text[r..r + |p|] == p)
  {
    Scan(text, p, Table(p), 0, 0)
  }

  /** The empty pattern is found at 0: the scan loop never runs and
      `j == len(s_str) == 0`. */
  lemma {:induction false} KmpEmptyPattern(text: string)
    ensures Kmp(text, "") == 0
  {
  }

  lemma {:induction false} ScanSelf(s: string, t: seq<int>, i: nat)
    requires IsTable(s, t) && i <= |s|
    ensures Scan(s, s, t, i, i) == 0
    decreases |s| - i
  {
    if i < |s| {
      ScanSelf(s, t, i + 1);
    }
  }

  /** Every string is found in itself at position 0: the scan never
      mismatches. */
  lemma {:induction false} KmpSelf(s: string)
    ensures Kmp(s, s) == 0
  {
    ScanSelf(s, Table(s), 0);
  }

  /** The position `Kmp` reports for a one-character pattern: the first
      copy of `c` at or after `i`, or -1. */
  function FirstFrom(text: string, c: char, i: nat): int
    requires i <= |text|
    decreases |text| - i
  {
    if i == |text| then -1 else if text[i] == c then i else FirstFrom(text, c, i + 1)
  }

  lemma {:induction false} ScanSingle(text: string, c: char, i: nat)
    requires i <= |text|
    ensures Scan(text, [c], [-1], i, 0) == FirstFrom(text, c, i)
    decreases |text| - i
  {
    if i < |text| && text[i] != c {
      assert Scan(text, [c], [-1], i, 0) == Scan(text, [c], [-1], i, -1);
      assert Scan(text, [c], [-1], i, -1) == Scan(text, [c], [-1], i + 1, 0);
      ScanSingle(text, c, i + 1);
    }
  }

  lemma {:induction false} FirstFromMeaning(text: string, c: char, i: nat)
    requires i <= |text|
    ensures FirstFrom(text, c, i) == -1 <==> forall k :: i <= k < |text| ==> text[k] != c
    ensures FirstFrom(text, c, i) != -1 ==>
      var r := FirstFrom(text, c, i);
      i <= r < |text| && text[r] == c && forall k :: i <= k < r ==> text[k] != c
    decreases |text| - i
  {
    if i < |text| && text[i] != c {
      FirstFromMeaning(text, c, i + 1);
    }
  }

  /** For a one-character pattern the search is exact: it returns the first
      copy of the character, and -1 exactly when there is none. */
  lemma {:induction false} KmpSingleChar(text: string, c: char)
    ensures Kmp(text, [c]) == -1 <==> c !in text
    ensures Kmp(text, [c]) != -1 ==>
      var r := Kmp(text, [c]);
      0 <= r < |text| && text[r] == c && forall k :: 0 <= k < r ==> text[k] != c
  {
    assert Table([c]) == [-1];
    ScanSingle(text, c, 0);
    FirstFromMeaning(text, c, 0);
  }

  /** The search is not complete: "ab" occurs in "aab" at 1 but is not
      found, and in "aabab" it is found at 3 rather than at 1. */
  lemma {:induction false} KmpMissesOverlap()
    ensures Occurs("ab", "aab") && Kmp("aab", "ab") == -1
    ensures OccursAt("aabab", "ab", 1) && Kmp("aabab", "ab") == 3
  {
    assert OccursAt("aab", "ab", 1);
    TableAB();
    KmpMissesShort();
    KmpFindsLate();
  }

  lemma {:induction false} TableAB()
    ensures Table("ab") == [-1, -1]
  {
  }

  lemma {:induction false} KmpMissesShort()
    requires Table("ab") == [-1, -1]
    ensures Kmp("aab", "ab") == -1
  {
    var t := Table("ab");
    assert Kmp("aab", "ab") == Scan("aab", "ab", t, 0, 0);
    assert Scan("aab", "ab", t, 0, 0) == Scan("aab", "ab", t, 1, 1);
    assert Scan("aab", "ab", t, 1, 1) == Scan("aab", "ab", t, 1, -1);
    assert Scan("aab", "ab", t, 1, -1) == Scan("aab", "ab", t, 2, 0);
    assert Scan("aab", "ab", t, 2, 0) == Scan("aab", "ab", t, 2, -1);
    assert Scan("aab", "ab", t, 2, -1) == Scan("aab", "ab", t, 3, 0);
  }

  lemma {:induction false} KmpFindsLate()
    requires Table("ab") == [-1, -1]
    ensures Kmp("aabab", "ab") == 3
  {
    var t := Table("ab");
    assert Kmp("aabab", "ab") == Scan("aabab", "ab", t, 0, 0);
    assert Scan("aabab", "ab", t, 0, 0) == Scan("aabab", "ab", t, 1, 1);
    assert Scan("aabab", "ab", t, 1, 1) == Scan("aabab", "ab", t, 1, -1);
    assert Scan("aabab", "ab", t, 1, -1) == Scan("aabab", "ab", t, 2, 0);
    assert Scan("aabab", "ab", t, 2, 0) == Scan("aabab", "ab", t, 2, -1);
    assert Scan("aabab", "ab", t, 2, -1) == Scan("aabab", "ab", t, 3, 0);
    assert Scan("aabab", "ab", t, 3, 0) == Scan("aabab", "ab", t, 4, 1);
    assert Scan("aabab", "ab", t, 4, 1) == Scan("aabab", "ab", t, 5, 2);
  }

  /** `kmp` of STEP-2-get-Knowledge-Graph.py, which first writes
      `next_ls[0] = -1` and so raises `IndexError` on an empty pattern. */
  function StrictKmp(text: string, p: string): (r: Result<int>)
    ensures r.Failure? <==> p == ""
    ensures r.Failure? ==> r.error == IndexError
    ensures r.Success? ==> r.value == -1 || (0 <= r.value && r.value + |p| <= |text| && text[r.value..r.value + |p|] == p)
  {
    if |p| == 0 then Failure(IndexError) else Success(Kmp(text, p))
  }

  /** Lines 132-143 of STEP-2's `kmp`, with `next_ls` as an array: the
      loop computes exactly `Table(p)`. */
  method BuildTable(p: string) returns (next: array<int>)
    requires p != ""
    ensures next.Length == |p| && next[..] == Table(p)
  {
    next := new int[|p|](_ => -1);
    next[0] := -1;
    ghost var t := seq(|p|, _ => -1);
    assert next[..] == t;
    var m: nat, s: int := 1, 0;
    while m < |p| - 1
      invariant next.Length == |p| && next[..] == t
      invariant TableState(p, m, s, t)
      invariant TableLoop(p, m, s, t) == Table(p)
      decreases |p| - m, s + 1
    {
      if s == -1 || p[m] == p[s] {
        ghost var m0, s0, t0 := m, s, t;
        m, s := m + 1, s + 1;
        next[m] := s;
        t := t[m := s];
        TableLoopAdvance(p, m0, s0, t0, m, s, t);
      } else {
        TableLoopFallBack(p, m, s, t);
        assert next[s] == t[s];
        s := next[s];
      }
    }
  }

  /** The state the scanning loop keeps: the `j` characters before
      `text[i]` match the start of `p`. */
  predicate ScanState(text: string, p: string, t: seq<int>, i: nat, j: int)
  {
    IsTable(p, t) && i <= |text| && -1 <= j <= |p| &&
    (j >= 0 ==> j <= i && text[i - j..i] == p[..j])
  }

  /** A match, or `j == -1`, moves both indices on. */
  lemma {:induction false} ScanAdvance(text: string, p: string, t: seq<int>, i: nat, j: int, i': nat, j': int)
    requires ScanState(text, p, t, i, j) && i < |text| && j < |p|
    requires j == -1 || text[i] == p[j]
    requires i' == i + 1 && j' == j + 1
    ensures ScanState(text, p, t, i', j')
    ensures Scan(text, p, t, i, j) == Scan(text, p, t, i', j')
  {
    ExtendMatch(text, p, i, j);
  }

  /** A mismatch falls back to `next[j]`. */
  lemma {:induction false} ScanFallBack(text: string, p: string, t: seq<int>, i: nat, j: nat, j': int)
    requires ScanState(text, p, t, i, j) && i < |text| && j < |p|
    requires text[i] != p[j] && j' == t[j]
    ensures ScanState(text, p, t, i, j')
    ensures Scan(text, p, t, i, j) == Scan(text, p, t, i, j')
  {
    FallBackMatch(text, p, t, i, j);
  }

  /** Lines 145-155 of STEP-2's `kmp`: the scan over `text` with the table
      in an array computes exactly `Kmp(text, p)`. */
  method ScanWithTable(text: string, p: string, next: array<int>) returns (r: int)
    requires next.Length == |p| && next[..] == Table(p)
    ensures r == Kmp(text, p)
  {
    var t := next[..];
    var i: nat, j: int := 0, 0;
    while i < |text| && j < |p|
      invariant i <= |text| && -1 <= j <= |p|
      invariant j >= 0 ==> j <= i && text[i - j..i] == p[..j]
      invariant Scan(text, p, t, i, j) == Kmp(text, p)
      decreases |text| - i, j + 1
    {
      if j == -1 || text[i] == p[j] {
        ghost var i0, j0 := i, j;
        i, j := i + 1, j + 1;
        ScanAdvance(text, p, t, i0, j0, i, j);
      } else {
        ghost var j0 := j;
        j := next[j];
        ScanFallBack(text, p, t, i, j0, j);
      }
    }
    if j == |p| {
      r := i - j;
    } else {
      r := -1;
    }
  }

  /** STEP-2's `kmp` with its lists as arrays: `IndexError` on an empty
      pattern, otherwise the same position as `Kmp`. */
  method KmpWithArrays(text: string, p: string) returns (r: Result<int>)
    ensures r == StrictKmp(text, p)
  {
    if |p| == 0 {
      // `next_ls[0] = -1` on an empty list
      return Failure(IndexError);
    }
    var next := BuildTable(p);
    var k := ScanWithTable(text, p, next);
    return Success(k);
  }
}

=== FILE: knowledge.dfy ===
/** The knowledge-graph side of the offline steps: the flattening of the
    concepts into the word list of STEP-1 (`KG_words`), the three parallel
    lists of STEP-2 (`prefer_names`), and STEP-2's greedy stripping of
    known subwords from each preferred name (`get_subword`). The JSON
    `concept` dictionary is modelled as its values in key order. */
module Knowledge {
  import opened Wrappers
  import opened Strings
  import opened Kmp

  /** One concept: its preferred name and its synonym list. */
  datatype Concept = Concept(preferred: string, synonyms: seq<string>)

  /** Both steps list a concept's synonyms only when the list is
      non-empty and its first entry is non-empty. */
  predicate Expands(c: Concept)
  {
    |c.synonyms| != 0 && |c.synonyms[0]| != 0
  }

  /** The number of words a concept contributes. */
  function Size(c: Concept): nat
  {
    if Expands(c) then 1 + |c.synonyms| else 1
  }

  /** Where the words of concept `i` start in the flattened list. */
  function Offset(cs: seq<Concept>, i: nat): nat
    requires i <= |cs|
  {
    if i == 0 then 0 else Offset(cs, i - 1) + Size(cs[i - 1])
  }

  /** The position of word `j` of concept `i` in the flattened list. */
  function At(cs: seq<Concept>, i: nat, j: nat): nat
    requires i < |cs|
  {
    Offset(cs, i) + j
  }

  lemma {:induction false} OffsetMono(cs: seq<Concept>, i: nat, k: nat)
    requires i <= k <= |cs|
    ensures Offset(cs, i) <= Offset(cs, k)
    decreases k
  {
    if i < k {
      OffsetMono(cs, i, k - 1);
    }
  }

  lemma {:induction false} OffsetPrefix(cs: seq<Concept>, n: nat, i: nat)
    requires i <= n <= |cs|
    ensures Offset(cs[..n], i) == Offset(cs, i)
    decreases i
  {
    if i > 0 {
      OffsetPrefix(cs, n, i - 1);
      assert cs[..n][i - 1] == cs[i - 1];
    }
  }

  /** The word of concept `c` at position `j` of its group: the preferred
      name, then the synonyms. */
  function WordAt(c: Concept, j: nat): string
    requires j < Size(c)
  {
    if j == 0 then c.preferred else c.synonyms[j - 1]
  }

  /** The words a concept contributes, in order. */
  function Group(c: Concept): (r: seq<string>)
    ensures |r| == Size(c)
    ensures forall j :: 0 <= j < Size(c) ==> r[j] == WordAt(c, j)
  {
    [c.preferred] + (if Expands(c) then c.synonyms else [])
  }

  // ---------------------------------------------------------------------
  // KG_words (STEP-1)

  /** `KG_words(json)`: the groups of all concepts, one after the other. */
  function KgWords(cs: seq<Concept>): (r: seq<string>)
    ensures |r| == Offset(cs, |cs|)
    ensures forall i, j :: 0 <= i < |cs| && 0 <= j < Size(cs[i]) ==>
      At(cs, i, j) < |r| && r[At(cs, i, j)] == WordAt(cs[i], j)
    decreases |cs|
  {
    if cs == [] then []
    else
      var n := |cs| - 1;
      var rest := KgWords(cs[..n]);
      var r := rest + Group(cs[n]);
      OffsetPrefix(cs, n, n);
      forall i, j | 0 <= i < |cs| && 0 <= j < Size(cs[i])
        ensures At(cs, i, j) < |r| && r[At(cs, i, j)] == WordAt(cs[i], j)
      {
        if i < n {
          OffsetPrefix(cs, n, i);
          assert cs[..n][i] == cs[i];
          assert At(cs[..n], i, j) == At(cs, i, j);
          OffsetMono(cs, i + 1, n);
        }
      }
      r
  }

  // ---------------------------------------------------------------------
  // prefer_names (STEP-2)

  /** The `length` entry of a concept's preferred name: 1 for a synonym
      list `['']`, otherwise the list's length plus one. */
  function HeadLength(c: Concept): nat
  {
    if |c.synonyms| == 1 && |c.synonyms[0]| == 0 then 1 else |c.synonyms| + 1
  }

  /** The `length` entry at position `j` of a concept's group. */
  function LengthAt(c: Concept, j: nat): nat
  {
    if j == 0 then HeadLength(c) else |c.synonyms| + 1
  }

  /** `prefer_names(json)`: the names, each name's preferred name, and
      each name's synonym count. */
  function PreferNames(cs: seq<Concept>): (r: (seq<string>, seq<string>, seq<nat>))
    ensures |r.0| == |r.1| == |r.2| == Offset(cs, |cs|)
    ensures forall i, j :: 0 <= i < |cs| && 0 <= j < Size(cs[i]) ==>
      At(cs, i, j) < |r.0| &&
      r.0[At(cs, i, j)] == WordAt(cs[i], j) &&
      r.1[At(cs, i, j)] == cs[i].preferred &&
      r.2[At(cs, i, j)] == LengthAt(cs[i], j)
    decreases |cs|
  {
    if cs == [] then ([], [], [])
    else
      var n := |cs| - 1;
      var c := cs[n];
      var rest := PreferNames(cs[..n]);
      var r := (rest.0 + Group(c),
                rest.1 + seq(Size(c), _ => c.preferred),
                rest.2 + seq(Size(c), j requires 0 <= j => LengthAt(c, j)));
      OffsetPrefix(cs, n, n);
      forall i, j | 0 <= i < |cs| && 0 <= j < Size(cs[i])
        ensures At(cs, i, j) < |r.0| &&
          r.0[At(cs, i, j)] == WordAt(cs[i], j) &&
          r.1[At(cs, i, j)] == cs[i].preferred &&
          r.2[At(cs, i, j)] == LengthAt(cs[i], j)
      {
        if i < n {
          OffsetPrefix(cs, n, i);
          assert cs[..n][i] == cs[i];
          assert At(cs[..n], i, j) == At(cs, i, j);
          OffsetMono(cs, i + 1, n);
        }
      }
      r
  }

  /** The names of `prefer_names` are the word list of `KG_words`. */
  lemma {:induction false} PreferNamesAreKgWords(cs: seq<Concept>)
    ensures PreferNames(cs).0 == KgWords(cs)
  {
    var a := PreferNames(cs).0;
    var b := KgWords(cs);
    forall k | 0 <= k < |a| ensures a[k] == b[k] {
      var i, j := Locate(cs, k);
    }
  }

  /** Every position of the flattened list lies in exactly one group. */
  lemma {:induction false} Locate(cs: seq<Concept>, k: nat) returns (i: nat, j: nat)
    requires k < Offset(cs, |cs|)
    ensures i < |cs| && j < Size(cs[i]) && k == At(cs, i, j)
    decreases |cs|
  {
    var n := |cs| - 1;
    OffsetPrefix(cs, n, n);
    if k < Offset(cs, n) {
      i, j := Locate(cs[..n], k);
      OffsetPrefix(cs, n, i);
      assert cs[..n][i] == cs[i];
    } else {
      i, j := n, k - Offset(cs, n);
    }
  }

  /** A concept that lists its synonyms gets the group size as every
      `length` entry. */
  lemma {:induction false} ExpandedLengths(cs: seq<Concept>, i: nat, j: nat)
    requires i < |cs| && j < Size(cs[i]) && Expands(cs[i])
    ensures At(cs, i, j) < |PreferNames(cs).2| && PreferNames(cs).2[At(cs, i, j)] == Size(cs[i])
  {
    var r := PreferNames(cs);
    assert At(cs, i, j) < |r.0| && r.2[At(cs, i, j)] == LengthAt(cs[i], j);
  }

  /** A concept without synonyms, or with `['']`, is a group of one with
      `length` 1. */
  lemma {:induction false} SingletonLength(cs: seq<Concept>, i: nat)
    requires i < |cs| && (cs[i].synonyms == [] || cs[i].synonyms == [""])
    ensures Offset(cs, i + 1) == Offset(cs, i) + 1
    ensures At(cs, i, 0) < |PreferNames(cs).2| && PreferNames(cs).2[At(cs, i, 0)] == 1
  {
    var r := PreferNames(cs);
    assert At(cs, i, 0) < |r.0| && r.2[At(cs, i, 0)] == LengthAt(cs[i], 0);
  }

  /** A concept whose first synonym is empty contributes only its
      preferred name, whatever the rest of its synonym list holds. */
  lemma {:induction false} EmptyFirstSynonymDropsAll(cs: seq<Concept>, i: nat)
    requires i < |cs| && cs[i].synonyms != [] && cs[i].synonyms[0] == ""
    ensures Offset(cs, i + 1) == Offset(cs, i) + 1
    ensures At(cs, i, 0) < |PreferNames(cs).0| && PreferNames(cs).0[At(cs, i, 0)] == cs[i].preferred
  {
    var r := PreferNames(cs);
    assert At(cs, i, 0) < |r.0| && r.0[At(cs, i, 0)] == WordAt(cs[i], 0);
  }

  // ---------------------------------------------------------------------
  // get_subword (STEP-2)

  /** `word` turned into `last` by deleting the recorded subwords in order,
      each one present in the word it was deleted from. */
  predicate Chain(word: string, found: seq<string>, last: string)
    decreases |found|
  {
    if found == [] then last == word
    else found[0] != "" && Occurs(found[0], word) && Chain(Remove(word, found[0]), found[1..], last)
  }

  /** Each deletion removes at least the subword's length. */
  lemma {:induction false} ChainShortens(word: string, found: seq<string>, last: string)
    requires Chain(word, found, last)
    ensures |last| + |Concat(found)| <= |word|
    ensures found != [] ==> |last| < |word|
    decreases |found|
  {
    if found != [] {
      RemoveShortens(word, found[0]);
      ChainShortens(Remove(word, found[0]), found[1..], last);
    }
  }

  /** `found` and `last` are what walking `subs` in list order leaves of
      `word`: a subword that `kmp` locates in the word as it stands at that
      point is recorded and deleted from it, one that `kmp` reports as
      missing (-1) is skipped, and `kmp` of an empty subword raising ends
      the walk. */
  predicate Steps(word: string, subs: seq<string>, found: seq<string>, last: string)
    decreases |subs|
  {
    if subs == [] then found == [] && last == word
    else match StrictKmp(word, subs[0])
      case Failure(_) => false
      case Success(loc) =>
        if loc == -1 then Steps(word, subs[1..], found, last)
        else found != [] && found[0] == subs[0] && Steps(Remove(word, subs[0]), subs[1..], found[1..], last)
  }

  /** The walk leaves exactly one outcome: `found` and `last` are fixed by
      `word` and `subs`. */
  lemma {:induction false} StepsDetermined(word: string, subs: seq<string>, f1: seq<string>, l1: string, f2: seq<string>, l2: string)
    requires Steps(word, subs, f1, l1) && Steps(word, subs, f2, l2)
    ensures f1 == f2 && l1 == l2
    decreases |subs|
  {
    if subs != [] {
      var loc := StrictKmp(word, subs[0]).value;
      if loc == -1 {
        StepsDetermined(word, subs[1..], f1, l1, f2, l2);
      } else {
        StepsDetermined(Remove(word, subs[0]), subs[1..], f1[1..], l1, f2[1..], l2);
        assert f1 == [f1[0]] + f1[1..] && f2 == [f2[0]] + f2[1..];
      }
    }
  }

  /** The `for sin_sub in subword` loop on a non-empty word: a subword that
      `kmp` finds is recorded and every occurrence of it deleted. `kmp` of
      an empty subword raises `IndexError` before the length test. */
  function StripLoop(word: string, subs: seq<string>): (r: Result<(seq<string>, string)>)
    ensures r.Failure? <==> "" in subs
    ensures r.Failure? ==> r.error == IndexError
    ensures r.Success? ==> Chain(word, r.value.0, r.value.1)
    ensures r.Success? ==> forall s :: s in r.value.0 ==> s in subs
    ensures r.Success? ==> IsSubsequence(r.value.0, subs)
    ensures r.Success? ==> Steps(word, subs, r.value.0, r.value.1)
    decreases |subs|
  {
    if subs == [] then Success(([], word))
    else
      var loc := StrictKmp(word, subs[0]);
      if loc.Failure? then Failure(IndexError)
      else if loc.value != -1 then
        assert OccursAt(word, subs[0], loc.value);
        var rest := StripLoop(Remove(word, subs[0]), subs[1..]);
        if rest.Failure? then rest
        else
          assert ([subs[0]] + rest.value.0)[1..] == rest.value.0;
          Success(([subs[0]] + rest.value.0, rest.value.1))
      else
        var rest := StripLoop(word, subs[1..]);
        assert rest.Success? ==> IsSubsequence(rest.value.0, subs) by {
          if rest.Success? { SubsequenceSkip(rest.value.0, subs); }
        }
        rest
  }

  /** What `get_subword` records for one word: the subwords found, and
      the whitespace split of the residue when a residue is left (the
      list appended as the last element of `temp_sub`). */
  datatype Pieces = Pieces(found: seq<string>, residue: Option<seq<string>>)

  /** The body of `for word in pre_word`: an empty word records `['']`;
      otherwise the subwords `kmp` finds, then the split residue. */
  function WordPieces(word: string, subs: seq<string>): (r: Result<Pieces>)
    ensures word == "" ==> r == Success(Pieces([""], None))
    ensures word != "" ==> (r.Failure? <==> "" in subs)
    ensures r.Failure? ==> r.error == IndexError
    ensures word != "" && r.Success? ==>
      exists last :: Steps(word, subs, r.value.found, last) && Chain(word, r.value.found, last) &&
        r.value.residue == (if last == "" then None else Some(Split(last)))
    ensures word != "" && r.Success? ==> IsSubsequence(r.value.found, subs)
  {
    if word == "" then Success(Pieces([""], None))
    else
      var res :- StripLoop(word, subs);
      var (found, last) := res;
      Success(Pieces(found, if last == "" then None else Some(Split(last))))
  }

  /** `get_subword(pre_word, subword)`: the pieces of every word, in
      order; the first `IndexError` ends the whole call. */
  function GetSubword(words: seq<string>, subs: seq<string>): (r: Result<seq<Pieces>>)
    ensures r.Failure? <==> exists k :: 0 <= k < |words| && WordPieces(words[k], subs).Failure?
    ensures r.Failure? ==> r.error == IndexError
    ensures r.Success? ==> |r.value| == |words|
    ensures r.Success? ==> forall k :: 0 <= k < |words| ==> WordPieces(words[k], subs) == Success(r.value[k])
    decreases |words|
  {
    if words == [] then Success([])
    else
      var head := WordPieces(words[0], subs);
      if head.Failure? then Failure(IndexError)
      else
        var rest := GetSubword(words[1..], subs);
        assert forall k :: 1 <= k < |words| ==> words[k] == words[1..][k - 1];
        if rest.Failure? then
          var k :| 0 <= k < |words[1..]| && WordPieces(words[1..][k], subs).Failure?;
          assert words[k + 1] == words[1..][k];
          Failure(IndexError)
        else
          Success([head.value] + rest.value)
  }

  /** A recorded subword shortens the word: a non-empty word that loses a
      subword keeps fewer characters than it had, and the residue with the
      found subwords is never longer than the word. */
  lemma {:induction false} WordPiecesShorten(word: string, subs: seq<string>)
    requires word != "" && WordPieces(word, subs).Success?
    ensures var p := StripLoop(word, subs).value;
      |p.1| + |Concat(p.0)| <= |word| && (p.0 != [] ==> |p.1| < |word|)
  {
    var p := StripLoop(word, subs).value;
    ChainShortens(word, p.0, p.1);
  }
}

=== FILE: matching.dfy ===
/** The helpers of the `Match` class (match_func.py:31-166): joining
    English runs onto the subwords, the stretches of the input no match
    covers, containment counting, argmax, top-k ranking and the
    subword-frequency tie-break. Similarity scores are `real`s, so there is
    no NaN. */
module Matching {
  import opened Wrappers
  import opened Strings
  import opened Kmp
  import opened Normalise
  import opened Segment

  /** One row of the knowledge graph: `knowledge[i, 0]` is the standard
      term, `knowledge[i, 1]` a standard or synonym term naming it. */
  datatype Entry = Entry(standard: string, synonym: string)

  /** `knowledge[:, 0]`. */
  function Standards(kg: seq<Entry>): (r: seq<string>)
    ensures |r| == |kg| && forall i :: 0 <= i < |kg| ==> r[i] == kg[i].standard
  {
    seq(|kg|, i requires 0 <= i < |kg| => kg[i].standard)
  }

  /** `knowledge[:, 1]`, which is `standard_synonym`. */
  function Synonyms(kg: seq<Entry>): (r: seq<string>)
    ensures |r| == |kg| && forall i :: 0 <= i < |kg| ==> r[i] == kg[i].synonym
  {
    seq(|kg|, i requires 0 <= i < |kg| => kg[i].synonym)
  }

  // ---------------------------------------------------------------------
  // eng_with_sub

  /** `eng_with_sub(eng, subword)`: the whitespace split of the subwords
      followed by the English runs. No token is empty or holds whitespace,
      so the `''` of an empty term disappears, and the non-space characters
      are kept in order. The `while [] in subwords` loop never fires on a
      list of strings. */
  function EngWithSub(eng: seq<seq<string>>, subword: seq<string>): (r: Result<seq<string>>)
    ensures r.Failure? <==> eng == []
    ensures r.Success? ==> forall k :: 0 <= k < |r.value| ==> r.value[k] != "" && forall c :: c in r.value[k] ==> !IsSpace(c)
    ensures r.Success? ==> Concat(r.value) == Drop(Concat(subword + eng[0]), IsSpace)
  {
    if eng == [] then Failure(IndexError)
    else
      assert IsSpace(' ');
      JoinDropsSeparators(subword + eng[0], IsSpace);
      var r := Split(Join(" ", subword + eng[0]));
      assert forall k :: 0 <= k < |r| ==> NoSep(r[k], IsSpace);
      Success(r)
  }

  /** Tokens that are already whitespace-free and non-empty pass through
      unchanged. */
  lemma {:induction false} EngWithSubKeepsTokens(eng: seq<seq<string>>, subword: seq<string>)
    requires eng != []
    requires Runs(subword + eng[0], IsSpace)
    ensures EngWithSub(eng, subword) == Success(subword + eng[0])
  {
    SplitJoin(subword + eng[0], IsSpace);
  }

  /** The tokens are the maximal whitespace-free pieces of the joined
      string: no two of them could be glued back into one. */
  lemma {:induction false} EngWithSubMaximal(eng: seq<seq<string>>, subword: seq<string>)
    requires eng != []
    ensures MaximalRuns(Join(" ", subword + eng[0]), EngWithSub(eng, subword).value, IsSpace)
  {
    SplitByMaximal(Join(" ", subword + eng[0]), IsSpace);
  }

  /** Conversely, any split of the joined string into maximal
      whitespace-free pieces is what `eng_with_sub` returns. */
  lemma {:induction false} EngWithSubFromRuns(eng: seq<seq<string>>, subword: seq<string>, tokens: seq<string>)
    requires eng != []
    requires MaximalRuns(Join(" ", subword + eng[0]), tokens, IsSpace)
    ensures EngWithSub(eng, subword) == Success(tokens)
  {
    MaximalRunsAreSplit(Join(" ", subword + eng[0]), tokens, IsSpace);
  }

  // ---------------------------------------------------------------------
  // non_match_word

  /** A matched span `[start_loc, end_loc]`. */
  datatype Span = Span(start: nat, end: nat)

  /** The order of `sorted(..., key=value)` on two-element lists. */
  predicate SpanLe(a: Span, b: Span)
  {
    a.start < b.start || (a.start == b.start && a.end <= b.end)
  }

  predicate SpansSorted(s: seq<Span>)
  {
    forall i, j :: 0 <= i < j < |s| ==> SpanLe(s[i], s[j])
  }

  function InsertSpan(x: Span, s: seq<Span>): (r: seq<Span>)
    requires SpansSorted(s)
    ensures SpansSorted(r)
    ensures multiset(r) == multiset(s) + multiset{x}
    ensures forall y :: y in r ==> y == x || y in s
    decreases |s|
  {
    if s == [] then [x]
    else if SpanLe(x, s[0]) then [x] + s
    else
      var rest := InsertSpan(x, s[1..]);
      var r := [s[0]] + rest;
      assert s == [s[0]] + s[1..];
      assert multiset(r) == multiset{s[0]} + multiset(rest);
      assert forall j :: 0 < j < |r| ==> SpanLe(s[0], r[j]) by {
        forall j | 0 < j < |r| ensures SpanLe(s[0], r[j]) {
          assert r[j] == rest[j - 1];
          assert rest[j - 1] in rest;
        }
      }
      r
  }

  /** The sort of `non_match_word`: ordered by `(start, end)`, a
      permutation of the input. */
  function SortSpans(s: seq<Span>): (r: seq<Span>)
    ensures SpansSorted(r)
    ensures multiset(r) == multiset(s)
    decreases |s|
  {
    if s == [] then []
    else
      assert s == [s[0]] + s[1..];
      InsertSpan(s[0], SortSpans(s[1..]))
  }

  lemma {:induction false} SortSortedSpans(s: seq<Span>)
    requires SpansSorted(s)
    ensures SortSpans(s) == s
    decreases |s|
  {
    if s != [] {
      assert SpansSorted(s[1..]) by {
        forall i, j | 0 <= i < j < |s[1..]| ensures SpanLe(s[1..][i], s[1..][j]) {
          assert s[1..][i] == s[i + 1] && s[1..][j] == s[j + 1];
        }
      }
      SortSortedSpans(s[1..]);
      assert s == [s[0]] + s[1..];
    }
  }

  /** The `for i in sort_com` loop and the final append: each stretch
      between the previous span's end (overwritten, not maximised) and the
      next span's start, then the tail. */
  function GapsFrom(s: string, spans: seq<Span>, end: nat): seq<string>
    decreases |spans|
  {
    if spans == [] then [PySlice(s, end, |s|)]
    else [PySlice(s, end, spans[0].start)] + GapsFrom(s, spans[1..], spans[0].end)
  }

  /** `while '' in subs: subs.remove('')`. */
  function NonEmpty(xs: seq<string>): (r: seq<string>)
    ensures "" !in r
    ensures forall x :: x in r <==> x in xs && x != ""
    ensures Concat(r) == Concat(xs)
    decreases |xs|
  {
    if xs == [] then []
    else if xs[0] == "" then
      assert xs == [""] + xs[1..];
      NonEmpty(xs[1..])
    else
      var rest := NonEmpty(xs[1..]);
      assert ([xs[0]] + rest)[1..] == rest;
      [xs[0]] + rest
  }

  /** `non_match_word(matched_loc)` on the raw input string. */
  function NonMatchWord(s: string, spans: seq<Span>): (r: seq<string>)
    ensures "" !in r
    ensures spans == [] ==> r == (if s == "" then [] else [s])
  {
    assert SortSpans([]) == [];
    assert s[0..|s|] == s;
    NonEmpty(GapsFrom(s, SortSpans(spans), 0))
  }

  ghost predicate Covered(spans: seq<Span>, p: nat)
  {
    exists k :: 0 <= k < |spans| && spans[k].start <= p < spans[k].end
  }

  /** The characters of `s` from position `i` on that no span covers, in
      order: a reference for the gap computation. */
  ghost function Uncovered(s: string, spans: seq<Span>, i: nat): string
    decreases |s| - i
  {
    if i >= |s| then "" else (if Covered(spans, i) then "" else [s[i]]) + Uncovered(s, spans, i + 1)
  }

  lemma {:induction false} UncoveredFree(s: string, spans: seq<Span>, i: nat, j: nat)
    requires i <= j <= |s|
    requires forall p :: i <= p < j ==> !Covered(spans, p)
    ensures Uncovered(s, spans, i) == s[i..j] + Uncovered(s, spans, j)
    decreases j - i
  {
    if i < j {
      UncoveredFree(s, spans, i + 1, j);
      assert !Covered(spans, i);
      assert Uncovered(s, spans, i) == [s[i]] + Uncovered(s, spans, i + 1);
      assert s[i..j] == [s[i]] + s[i + 1..j];
      AppendAssoc([s[i]], s[i + 1..j], Uncovered(s, spans, j));
    }
  }

  lemma {:induction false} UncoveredSkip(s: string, spans: seq<Span>, i: nat, j: nat)
    requires i <= j
    requires forall p :: i <= p < j ==> Covered(spans, p)
    ensures Uncovered(s, spans, i) == Uncovered(s, spans, j)
    decreases j - i
  {
    if i < j {
      UncoveredSkip(s, spans, i + 1, j);
    }
  }

  lemma {:induction false} UncoveredSame(s: string, spans: seq<Span>, spans': seq<Span>, i: nat)
    requires forall p :: i <= p ==> (Covered(spans, p) <==> Covered(spans', p))
    ensures Uncovered(s, spans, i) == Uncovered(s, spans', i)
    decreases |s| - i
  {
    if i < |s| {
      UncoveredSame(s, spans, spans', i + 1);
    }
  }

  /** Spans inside the string whose ends never move back: a later span may
      overlap an earlier one, but never sits inside it. */
  predicate Staggered(s: string, spans: seq<Span>)
  {
    && (forall k :: 0 <= k < |spans| ==> spans[k].start <= spans[k].end <= |s|)
    && (forall i, j :: 0 <= i < j < |spans| ==> spans[i].end <= spans[j].end)
  }

  lemma StaggeredTail(s: string, spans: seq<Span>)
    requires spans != [] && SpansSorted(spans) && Staggered(s, spans)
    ensures SpansSorted(spans[1..]) && Staggered(s, spans[1..])
  {
    var rest := spans[1..];
    forall i, j | 0 <= i < j < |rest| ensures SpanLe(rest[i], rest[j]) && rest[i].end <= rest[j].end {
      assert rest[i] == spans[i + 1] && rest[j] == spans[j + 1];
    }
  }

  /** Past the first span's end, the first span covers nothing. */
  lemma CoveredPastFirst(spans: seq<Span>, from: nat)
    requires spans != [] && spans[0].end <= from
    ensures forall p: nat :: from <= p ==> (Covered(spans, p) <==> Covered(spans[1..], p))
  {
    var rest := spans[1..];
    forall p: nat | from <= p ensures Covered(spans, p) <==> Covered(rest, p) {
      if Covered(spans, p) {
        var k :| 0 <= k < |spans| && spans[k].start <= p < spans[k].end;
        assert k > 0;
        assert rest[k - 1] == spans[k];
      }
      if Covered(rest, p) {
        var k :| 0 <= k < |rest| && rest[k].start <= p < rest[k].end;
        assert spans[k + 1] == rest[k];
      }
    }
  }

  /** The gaps from `end` on, joined, are the characters from `end` on that
      no span covers. `end` starts at 0 and then is the previous span's
      end, so it never passes the next span's end. */
  lemma {:induction false} GapsCover(s: string, spans: seq<Span>, end: nat)
    requires SpansSorted(spans) && Staggered(s, spans)
    requires end <= |s| && (spans != [] ==> end <= spans[0].end)
    ensures Concat(GapsFrom(s, spans, end)) == Uncovered(s, spans, end)
    decreases |spans|
  {
    if spans == [] {
      UncoveredFree(s, spans, end, |s|);
      assert Concat([s[end..|s|]]) == s[end..|s|] + Concat([]);
    } else {
      var sp := spans[0];
      var rest := spans[1..];
      StaggeredTail(s, spans);
      var piece := PySlice(s, end, sp.start);
      if end <= sp.start {
        forall p: nat | p < sp.start ensures !Covered(spans, p) {
          forall k | 0 <= k < |spans| ensures !(spans[k].start <= p < spans[k].end) {
            if k > 0 {
              assert SpanLe(spans[0], spans[k]);
            }
          }
        }
        UncoveredFree(s, spans, end, sp.start);
        UncoveredSkip(s, spans, sp.start, sp.end);
        assert piece == s[end..sp.start];
      } else {
        UncoveredSkip(s, spans, end, sp.end);
        assert piece == "";
        assert Uncovered(s, spans, end) == piece + Uncovered(s, spans, sp.end);
      }
      CoveredPastFirst(spans, sp.end);
      UncoveredSame(s, spans, rest, sp.end);
      if rest != [] {
        assert sp.end <= spans[1].end && rest[0] == spans[1];
      }
      GapsCover(s, rest, sp.end);
      assert GapsFrom(s, spans, end) == [piece] + GapsFrom(s, rest, sp.end);
    }
  }

  /** For sorted spans inside the input, none nested in an earlier one, the
      non-matched pieces, joined, are the characters no span covers, in
      order. Overlapping spans are allowed. */
  lemma {:induction false} NonMatchWordUncovered(s: string, spans: seq<Span>)
    requires SpansSorted(spans)
    requires Staggered(s, spans)
    ensures Concat(NonMatchWord(s, spans)) == Uncovered(s, spans, 0)
  {
    SortSortedSpans(spans);
    GapsCover(s, spans, 0);
  }

  /** Every span covers at least one character. */
  predicate Proper(spans: seq<Span>)
  {
    forall k :: 0 <= k < |spans| ==> spans[k].start < spans[k].end
  }

  /** `[g.start, g.end)` is a maximal uncovered stretch of `s`: non-empty,
      covered by no span, and bounded by a covered character or an end of
      the string on each side. */
  ghost predicate MaximalGap(s: string, spans: seq<Span>, g: Span)
  {
    && g.start < g.end <= |s|
    && (forall p :: g.start <= p < g.end ==> !Covered(spans, p))
    && (g.start == 0 || Covered(spans, g.start - 1))
    && (g.end == |s| || Covered(spans, g.end))
  }

  /** `r` lists the slices of `s` at the maximal gaps `ivs`, all from `from`
      on. */
  ghost predicate GapSlices(s: string, spans: seq<Span>, from: nat, r: seq<string>, ivs: seq<Span>)
  {
    && |ivs| == |r|
    && (forall k :: 0 <= k < |ivs| ==>
          MaximalGap(s, spans, ivs[k]) && from <= ivs[k].start && r[k] == s[ivs[k].start..ivs[k].end])
  }

  ghost predicate Increasing(ivs: seq<Span>)
  {
    forall k :: 0 <= k < |ivs| - 1 ==> ivs[k].end < ivs[k + 1].start
  }

  /** Every uncovered position of `s` from `from` on lies in one of `ivs`. */
  ghost predicate GapsComplete(s: string, spans: seq<Span>, from: nat, ivs: seq<Span>)
  {
    forall p :: from <= p < |s| && !Covered(spans, p) ==>
      exists k :: 0 <= k < |ivs| && ivs[k].start <= p < ivs[k].end
  }

  /** `r` lists the slices of `s` at the increasing maximal gaps `ivs`,
      which hold every uncovered position from `from` on. */
  ghost predicate GapsAt(s: string, spans: seq<Span>, from: nat, r: seq<string>, ivs: seq<Span>)
  {
    GapSlices(s, spans, from, r, ivs) && Increasing(ivs) && GapsComplete(s, spans, from, ivs)
  }

  lemma NonEmptyCons(x: string, xs: seq<string>)
    ensures NonEmpty([x] + xs) == (if x == "" then [] else [x]) + NonEmpty(xs)
  {
    assert ([x] + xs)[1..] == xs;
  }

  /** Spans before `i` end by the end of span `i - 1`; spans from `i` on
      start no earlier than span `i`. */
  lemma StaggeredAround(s: string, all: seq<Span>, i: nat)
    requires SpansSorted(all) && Staggered(s, all) && i <= |all|
    ensures 0 < i ==> forall k :: 0 <= k < i ==> all[k].end <= all[i - 1].end
    ensures i < |all| ==> forall k :: i <= k < |all| ==> all[i].start <= all[k].start
  {
    forall k | i < k < |all|
      ensures all[i].start <= all[k].start
    {
      assert SpanLe(all[i], all[k]);
    }
  }

  /** The stretch between `end` and the next span's start (or the end of
      the string) is covered by no span. */
  lemma GapUncovered(s: string, all: seq<Span>, i: nat, end: nat)
    requires SpansSorted(all) && Staggered(s, all) && i <= |all|
    requires (i == 0 && end == 0) || (0 < i && end == all[i - 1].end)
    ensures forall p :: end <= p && (i == |all| || p < all[i].start) ==> !Covered(all, p)
  {
    StaggeredAround(s, all, i);
    forall p | end <= p && (i == |all| || p < all[i].start)
      ensures !Covered(all, p)
    {
      forall k | 0 <= k < |all|
        ensures !(all[k].start <= p < all[k].end)
      {
        if k < i {
          assert all[k].end <= end;
        } else {
          assert all[i].start <= all[k].start;
        }
      }
    }
  }

  /** The stretch from `end` to the next span's start (or the end of the
      string) is a maximal gap when it is not empty. */
  lemma GapIsMaximal(s: string, all: seq<Span>, i: nat, end: nat, stop: nat)
    requires SpansSorted(all) && Staggered(s, all) && Proper(all) && i <= |all|
    requires stop == (if i == |all| then |s| else all[i].start)
    requires end < stop
    requires (i == 0 && end == 0) || (0 < i && end == all[i - 1].end)
    ensures forall p :: end <= p < stop ==> !Covered(all, p)
    ensures MaximalGap(s, all, Span(end, stop))
  {
    GapUncovered(s, all, i, end);
    if 0 < i {
      assert all[i - 1].start <= end - 1 < all[i - 1].end;
    }
    if i < |all| {
      assert all[i].start <= stop < all[i].end;
    }
  }

  /** The tail gap after the last span. */
  lemma GapsMaximalLast(s: string, all: seq<Span>, end: nat) returns (ivs: seq<Span>)
    requires SpansSorted(all) && Staggered(s, all) && Proper(all) && end <= |s|
    requires (|all| == 0 && end == 0) || (0 < |all| && end == all[|all| - 1].end)
    ensures GapsAt(s, all, end, NonEmpty(GapsFrom(s, all[|all|..], end)), ivs)
  {
    assert all[|all|..] == [];
    assert GapsFrom(s, all[|all|..], end) == [s[end..|s|]];
    NonEmptyCons(s[end..|s|], []);
    if end < |s| {
      GapIsMaximal(s, all, |all|, end, |s|);
      ivs := [Span(end, |s|)];
    } else {
      ivs := [];
    }
  }

  /** The gaps from span `i` on, with empty ones removed, are the maximal
      uncovered stretches from `end` on. A gap is empty when span `i`
      starts before `end`, that is, when it overlaps span `i - 1`. */
  lemma {:induction false} GapsMaximal(s: string, all: seq<Span>, i: nat, end: nat) returns (ivs: seq<Span>)
    requires SpansSorted(all) && Staggered(s, all) && Proper(all) && i <= |all|
    requires (i == 0 && end == 0) || (0 < i && end == all[i - 1].end)
    ensures GapsAt(s, all, end, NonEmpty(GapsFrom(s, all[i..], end)), ivs)
    decreases |all| - i
  {
    if i == |all| {
      ivs := GapsMaximalLast(s, all, end);
    } else {
      var stop := all[i].start;
      var piece := PySlice(s, end, stop);
      var rest := GapsMaximal(s, all, i + 1, all[i].end);
      var later := NonEmpty(GapsFrom(s, all[i + 1..], all[i].end));
      assert all[i..][1..] == all[i + 1..];
      assert GapsFrom(s, all[i..], end) == [piece] + GapsFrom(s, all[i + 1..], all[i].end);
      NonEmptyCons(piece, GapsFrom(s, all[i + 1..], all[i].end));
      if end < stop {
        assert piece == s[end..stop];
        GapIsMaximal(s, all, i, end, stop);
        GapsAtPrepend(s, all, end, i, later, rest);
        ivs := [Span(end, stop)] + rest;
      } else {
        assert piece == "";
        if 0 < i {
          assert all[i - 1].end <= all[i].end;
        }
        GapsAtWiden(s, all, end, i, later, rest);
        ivs := rest;
      }
    }
  }

  /** With no gap before span `i`, the later gaps are all the gaps from
      `end` on: span `i` covers everything between. */
  lemma GapsAtWiden(s: string, all: seq<Span>, end: nat, i: nat, r: seq<string>, ivs: seq<Span>)
    requires i < |all| && all[i].start <= end <= all[i].end
    requires GapsAt(s, all, all[i].end, r, ivs)
    ensures GapsAt(s, all, end, r, ivs)
  {
    forall p | end <= p < |s| && !Covered(all, p)
      ensures exists k :: 0 <= k < |ivs| && ivs[k].start <= p < ivs[k].end
    {
      assert !(all[i].start <= p < all[i].end);
    }
  }

  /** Every uncovered position from `end` on lies in the gap before span
      `i` or in a later gap. */
  lemma GapsPrependComplete(s: string, all: seq<Span>, end: nat, i: nat, ivs: seq<Span>)
    requires i < |all| && end < all[i].start
    requires GapsComplete(s, all, all[i].end, ivs)
    ensures GapsComplete(s, all, end, [Span(end, all[i].start)] + ivs)
  {
    var ivs' := [Span(end, all[i].start)] + ivs;
    forall p | end <= p < |s| && !Covered(all, p)
      ensures exists k :: 0 <= k < |ivs'| && ivs'[k].start <= p < ivs'[k].end
    {
      if p < all[i].start {
        assert ivs'[0].start <= p < ivs'[0].end;
      } else {
        assert !(all[i].start <= p < all[i].end);
        var k :| 0 <= k < |ivs| && ivs[k].start <= p < ivs[k].end;
        assert ivs'[k + 1] == ivs[k];
      }
    }
  }

  /** The slices of the gap before span `i` and of the later gaps. */
  lemma GapsPrependSlices(s: string, all: seq<Span>, end: nat, i: nat, r: seq<string>, ivs: seq<Span>)
    requires Proper(all) && i < |all| && end < all[i].start
    requires MaximalGap(s, all, Span(end, all[i].start))
    requires GapSlices(s, all, all[i].end, r, ivs)
    ensures GapSlices(s, all, end, [s[end..all[i].start]] + r, [Span(end, all[i].start)] + ivs)
  {
    var r' := [s[end..all[i].start]] + r;
    var ivs' := [Span(end, all[i].start)] + ivs;
    forall k | 0 <= k < |ivs'|
      ensures MaximalGap(s, all, ivs'[k]) && end <= ivs'[k].start && r'[k] == s[ivs'[k].start..ivs'[k].end]
    {
      if k > 0 {
        assert ivs'[k] == ivs[k - 1] && r'[k] == r[k - 1];
      }
    }
  }

  /** The increasing order survives putting the gap before span `i` first. */
  lemma GapsPrependIncreasing(s: string, all: seq<Span>, end: nat, i: nat, ivs: seq<Span>)
    requires Proper(all) && i < |all| && end < all[i].start
    requires Increasing(ivs)
    requires forall k :: 0 <= k < |ivs| ==> all[i].end <= ivs[k].start
    ensures Increasing([Span(end, all[i].start)] + ivs)
  {
    var ivs' := [Span(end, all[i].start)] + ivs;
    forall k | 0 <= k < |ivs'| - 1
      ensures ivs'[k].end < ivs'[k + 1].start
    {
      assert ivs'[k + 1] == ivs[k];
      if k > 0 {
        assert ivs'[k] == ivs[k - 1];
      }
    }
  }

  /** The gap before span `i`, followed by the later gaps. */
  lemma GapsAtPrepend(s: string, all: seq<Span>, end: nat, i: nat, r: seq<string>, ivs: seq<Span>)
    requires Proper(all) && i < |all| && end < all[i].start
    requires MaximalGap(s, all, Span(end, all[i].start))
    requires GapsAt(s, all, all[i].end, r, ivs)
    ensures GapsAt(s, all, end, [s[end..all[i].start]] + r, [Span(end, all[i].start)] + ivs)
  {
    GapsPrependSlices(s, all, end, i, r, ivs);
    GapsPrependIncreasing(s, all, end, i, ivs);
    GapsPrependComplete(s, all, end, i, ivs);
  }

  /** For sorted, non-empty spans inside the input, none nested in an
      earlier one (overlaps allowed), the non-matched pieces are exactly
      the maximal uncovered stretches, left to right: piece `k` is `s[ivs[k].start..ivs[k].end]`, each stretch is
      uncovered and bounded by covered characters or the ends of `s`, the
      stretches increase, and every uncovered position lies in one. */
  lemma {:induction false} NonMatchWordGaps(s: string, spans: seq<Span>) returns (ivs: seq<Span>)
    requires SpansSorted(spans) && Staggered(s, spans) && Proper(spans)
    ensures |ivs| == |NonMatchWord(s, spans)|
    ensures forall k :: 0 <= k < |ivs| ==>
      MaximalGap(s, spans, ivs[k]) && NonMatchWord(s, spans)[k] == s[ivs[k].start..ivs[k].end]
    ensures forall k :: 0 <= k < |ivs| - 1 ==> ivs[k].end < ivs[k + 1].start
    ensures forall p :: 0 <= p < |s| && !Covered(spans, p) ==>
      exists k :: 0 <= k < |ivs| && ivs[k].start <= p < ivs[k].end
  {
    SortSortedSpans(spans);
    assert spans[0..] == spans;
    ivs := GapsMaximal(s, spans, 0, 0);
  }

  /** `end` is overwritten with each span's end rather than the running
      maximum, so a span nested in an earlier one re-exposes covered text:
      with spans `[0,4]` and `[1,2]` on "abcdef" the pieces are "cdef",
      although only "ef" is uncovered. */
  lemma {:induction false} NestedSpanReexposes()
    ensures NonMatchWord("abcdef", [Span(0, 4), Span(1, 2)]) == ["cdef"]
    ensures Uncovered("abcdef", [Span(0, 4), Span(1, 2)], 0) == "ef"
  {
    NestedSpanPieces();
    NestedSpanUncovered();
  }

  lemma {:induction false} NestedSpanPieces()
    ensures NonMatchWord("abcdef", [Span(0, 4), Span(1, 2)]) == ["cdef"]
  {
    var spans := [Span(0, 4), Span(1, 2)];
    assert SpansSorted(spans);
    SortSortedSpans(spans);
    var s := "abcdef";
    assert s[2..6] == "cdef";
    assert GapsFrom(s, [], 2) == [PySlice(s, 2, 6)] == ["cdef"];
    assert GapsFrom(s, spans[1..], 4) == [PySlice(s, 4, 1)] + GapsFrom(s, [], 2);
    assert GapsFrom(s, spans, 0) == [PySlice(s, 0, 0)] + GapsFrom(s, spans[1..], 4);
    assert GapsFrom(s, spans, 0) == ["", "", "cdef"];
    assert NonEmpty(["", "", "cdef"]) == ["cdef"] by {
      assert NonEmpty(["cdef"]) == ["cdef"] + NonEmpty([]);
      assert ["", "", "cdef"][1..] == ["", "cdef"];
      assert ["", "cdef"][1..] == ["cdef"];
    }
  }

  lemma {:induction false} NestedSpanUncovered()
    ensures Uncovered("abcdef", [Span(0, 4), Span(1, 2)], 0) == "ef"
  {
    var spans := [Span(0, 4), Span(1, 2)];
    forall p: nat | p < 4 ensures Covered(spans, p) {
      assert spans[0].start <= p < spans[0].end;
    }
    assert forall p: nat :: 4 <= p ==> !Covered(spans, p);
    UncoveredSkip("abcdef", spans, 0, 4);
    UncoveredFree("abcdef", spans, 4, 6);
    assert "abcdef"[4..6] == "ef";
  }

  // ---------------------------------------------------------------------
  // match_score and find_max_score

  /** The positions of the patterns that `kmp` finds in `m`. */
  function HitSet(m: string, ps: seq<string>): set<nat>
  {
    set k: nat | k < |ps| && Kmp.Kmp(m, ps[k]) != -1
  }

  lemma {:induction false} HitSetStep(m: string, ps: seq<string>)
    requires ps != []
    ensures var n := |ps| - 1;
      HitSet(m, ps) == HitSet(m, ps[..n]) + (if Kmp.Kmp(m, ps[n]) != -1 then {n} else {}) &&
      n !in HitSet(m, ps[..n])
  {
    var n := |ps| - 1;
    forall k | k in HitSet(m, ps) && k < n ensures k in HitSet(m, ps[..n]) {
      assert ps[..n][k] == ps[k];
    }
    forall k | k in HitSet(m, ps[..n]) ensures k in HitSet(m, ps) {
      assert ps[..n][k] == ps[k];
    }
  }

  /** The inner loop of `match_score`: one point per pattern found, with
      multiplicity. */
  function CountHits(m: string, ps: seq<string>): (r: nat)
    ensures r == |HitSet(m, ps)|
    ensures r <= |ps|
    decreases |ps|
  {
    if ps == [] then
      assert HitSet(m, ps) == {};
      0
    else
      var n := |ps| - 1;
      var rest := CountHits(m, ps[..n]);
      HitSetStep(m, ps);
      (if Kmp.Kmp(m, ps[n]) != -1 then 1 else 0) + rest
  }

  /** `match_score(main_str, pattern_str)`: for each main string the
      number of pattern positions `kmp` reports a hit for. */
  function MatchScore(mains: seq<string>, patterns: seq<string>): (r: seq<nat>)
    ensures |r| == |mains|
    ensures forall i :: 0 <= i < |mains| ==> r[i] == |HitSet(mains[i], patterns)| && r[i] <= |patterns|
  {
    seq(|mains|, i requires 0 <= i < |mains| => CountHits(mains[i], patterns))
  }

  lemma {:induction false} SubsetCard(a: set<nat>, b: set<nat>)
    requires a <= b
    ensures |a| <= |b|
    decreases |b|
  {
    if a != {} {
      var x :| x in a;
      SubsetCard(a - {x}, b - {x});
    }
  }

  /** `kmp` is sound, so a score never exceeds the number of patterns that
      really occur in the main string (it may be lower: the search misses
      some occurrences). */
  lemma {:induction false} MatchScoreSound(mains: seq<string>, patterns: seq<string>, i: nat)
    requires i < |mains|
    ensures MatchScore(mains, patterns)[i] <= |set k: nat | k < |patterns| && Occurs(patterns[k], mains[i])|
  {
    var occ := set k: nat | k < |patterns| && Occurs(patterns[k], mains[i]);
    forall k | k in HitSet(mains[i], patterns) ensures k in occ {
      var r := Kmp.Kmp(mains[i], patterns[k]);
      assert OccursAt(mains[i], patterns[k], r as nat);
    }
    SubsetCard(HitSet(mains[i], patterns), occ);
  }

  /** `max(scores)` on a non-empty list. */
  function MaxOf(scores: seq<int>): (r: int)
    requires scores != []
    ensures r in scores
    ensures forall j :: 0 <= j < |scores| ==> scores[j] <= r
  {
    if |scores| == 1 then scores[0]
    else
      var m := MaxOf(scores[1..]);
      assert forall j :: 1 <= j < |scores| ==> scores[j] == scores[1..][j - 1];
      if scores[0] >= m then scores[0] else m
  }

  /** The loop of `find_max_score` from index `i` on. */
  function IndicesOf(scores: seq<int>, m: int, i: nat): (r: seq<nat>)
    requires i <= |scores|
    ensures forall a, b :: 0 <= a < b < |r| ==> r[a] < r[b]
    ensures forall x :: x in r <==> i <= x < |scores| && scores[x] == m
    decreases |scores| - i
  {
    if i == |scores| then []
    else
      var rest := IndicesOf(scores, m, i + 1);
      assert forall b :: 0 <= b < |rest| ==> rest[b] > i by {
        forall b | 0 <= b < |rest| ensures rest[b] > i {
          assert rest[b] in rest;
        }
      }
      if scores[i] == m then [i] + rest else rest
  }

  /** `find_max_score(scores)`: the ascending indices of every maximal
      score; `max` of an empty list raises `ValueError`. */
  function FindMaxScore(scores: seq<int>): (r: Result<seq<nat>>)
    ensures r.Failure? <==> scores == []
    ensures r.Failure? ==> r.error == ValueError
    ensures r.Success? ==> r.value != []
    ensures r.Success? ==> forall a, b :: 0 <= a < b < |r.value| ==> r.value[a] < r.value[b]
    ensures r.Success? ==> forall x: nat :: x in r.value <==> x < |scores| && forall j :: 0 <= j < |scores| ==> scores[j] <= scores[x]
  {
    if scores == [] then Failure(ValueError)
    else
      var m := MaxOf(scores);
      var r := IndicesOf(scores, m, 0);
      assert exists x :: 0 <= x < |scores| && scores[x] == m;
      assert r != [] by {
        var x :| 0 <= x < |scores| && scores[x] == m;
        assert x in r;
      }
      Success(r)
  }

  // ---------------------------------------------------------------------
  // top_k_result

  predicate NonIncreasing(s: seq<real>)
  {
    forall i, j :: 0 <= i < j < |s| ==> s[i] >= s[j]
  }

  function InsertDesc(x: real, s: seq<real>): (r: seq<real>)
    requires NonIncreasing(s)
    ensures |r| == |s| + 1
    ensures NonIncreasing(r)
    ensures multiset(r) == multiset(s) + multiset{x}
    ensures forall y :: y in r ==> y == x || y in s
    decreases |s|
  {
    if s == [] || x >= s[0] then [x] + s
    else
      var rest := InsertDesc(x, s[1..]);
      var r := [s[0]] + rest;
      assert s == [s[0]] + s[1..];
      assert multiset(r) == multiset{s[0]} + multiset(rest);
      HeadDominates(x, s, rest);
      r
  }

  /** The head of `s` is at least every element the insertion below it
      returns. */
  lemma {:induction false} HeadDominates(x: real, s: seq<real>, rest: seq<real>)
    requires NonIncreasing(s) && s != [] && x < s[0]
    requires forall y :: y in rest ==> y == x || y in s[1..]
    ensures NonIncreasing(rest) ==> NonIncreasing([s[0]] + rest)
  {
    var r := [s[0]] + rest;
    forall j | 0 < j < |r| ensures s[0] >= r[j] {
      assert r[j] == rest[j - 1];
      assert rest[j - 1] in rest;
      if rest[j - 1] != x {
        var k :| 0 <= k < |s[1..]| && s[1..][k] == rest[j - 1];
        assert s[k + 1] == rest[j - 1];
      }
    }
  }

  function SortDesc(s: seq<real>): (r: seq<real>)
    ensures |r| == |s|
    ensures NonIncreasing(r)
    ensures multiset(r) == multiset(s)
    decreases |s|
  {
    if s == [] then []
    else
      assert s == [s[0]] + s[1..];
      InsertDesc(s[0], SortDesc(s[1..]))
  }

  /** In a non-increasing list every element of a prefix is at least
      every element after it. */
  lemma {:induction false} PrefixDominates(sorted: seq<real>, m: nat)
    requires NonIncreasing(sorted) && m <= |sorted|
    ensures forall x, y :: x in sorted[m..] && y in sorted[..m] ==> x <= y
  {
    forall x, y | x in sorted[m..] && y in sorted[..m] ensures x <= y {
      var a :| 0 <= a < |sorted[m..]| && sorted[m..][a] == x;
      var b :| 0 <= b < |sorted[..m]| && sorted[..m][b] == y;
      assert sorted[m + a] == x && sorted[b] == y;
    }
  }

  lemma {:induction false} PrefixMultiset(sorted: seq<real>, m: nat)
    requires m <= |sorted|
    ensures multiset(sorted) - multiset(sorted[..m]) == multiset(sorted[m..])
    ensures multiset(sorted[..m]) <= multiset(sorted)
  {
    assert sorted == sorted[..m] + sorted[m..];
  }

  /** The facts `TopK` promises, for a prefix of any descending
      rearrangement of the scores. */
  lemma {:induction false} PrefixOfSorted(score: seq<real>, sorted: seq<real>, m: nat)
    requires NonIncreasing(sorted) && multiset(sorted) == multiset(score) && m <= |sorted|
    ensures NonIncreasing(sorted[..m])
    ensures multiset(sorted[..m]) <= multiset(score)
    ensures forall i :: 0 <= i < m ==> sorted[..m][i] in score
    ensures forall x, y :: x in multiset(score) - multiset(sorted[..m]) && y in sorted[..m] ==> x <= y
  {
    PrefixDominates(sorted, m);
    PrefixMultiset(sorted, m);
    forall i | 0 <= i < m ensures sorted[..m][i] in score {
      assert sorted[..m][i] in multiset(sorted[..m]);
    }
  }

  /** `heapq.nlargest(n=k, iterable=score)`: the `min(k, |score|)` largest
      scores, largest first; no score left out exceeds one taken. */
  function TopK(score: seq<real>, k: nat): (r: seq<real>)
    ensures |r| == Min(k, |score|)
    ensures NonIncreasing(r)
    ensures multiset(r) <= multiset(score)
    ensures forall i :: 0 <= i < |r| ==> r[i] in score
    ensures forall x, y :: x in multiset(score) - multiset(r) && y in r ==> x <= y
  {
    var sorted := SortDesc(score);
    var m := Min(k, |score|);
    PrefixOfSorted(score, sorted, m);
    sorted[..m]
  }

  /** The ranked list `top_k` with the standard term and the joined
      subwords of the synonym each score points to. */
  datatype Ranking = Ranking(topK: seq<real>, candidates: seq<string>, candidateSub: seq<string>)

  predicate WellFormed(g: Ranking)
  {
    |g.candidates| == |g.topK| && |g.candidateSub| == |g.topK|
  }

  /** Equal ranked scores name the same candidate, since `score.index`
      resolves both to the same position. */
  predicate SameScoreSameCandidate(g: Ranking)
    requires WellFormed(g)
  {
    forall i, j :: 0 <= i < |g.topK| && 0 <= j < |g.topK| && g.topK[i] == g.topK[j] ==> g.candidates[i] == g.candidates[j]
  }

  /** `e` is the knowledge-graph row `top_k_result` reaches from score `x`:
      `i` is the first position of `x` in `score`, and `p` the first row
      whose synonym is `synonymTerm[i]`. */
  ghost predicate FirstMatch(kg: seq<Entry>, synonymTerm: seq<string>, score: seq<real>, x: real, e: Entry)
  {
    exists i, p ::
      0 <= i < |score| && i < |synonymTerm| && score[i] == x && (forall j :: 0 <= j < i ==> score[j] != x) &&
      0 <= p < |kg| && kg[p].synonym == synonymTerm[i] && (forall q :: 0 <= q < p ==> kg[q].synonym != synonymTerm[i]) &&
      e == kg[p]
  }

  /** One ranked score `x`: `score.index(x)` picks the first position of
      the value, `synonym_term` names the synonym there, and its first row
      in the knowledge graph is the candidate. */
  function Candidate(kg: seq<Entry>, synonymTerm: seq<string>, score: seq<real>, x: real): (r: Result<Entry>)
    ensures r.Failure? ==> r.error == ValueError || r.error == IndexError
    ensures r.Success? ==> r.value in kg
    ensures r.Success? ==> FirstMatch(kg, synonymTerm, score, x, r.value)
    ensures x !in score ==> r == Failure(ValueError)
    ensures x in score && (forall i :: 0 <= i < |score| && score[i] == x ==> i < |synonymTerm| && synonymTerm[i] in Synonyms(kg)) ==> r.Success?
  {
    match Find(score, x)
    case None => Failure(ValueError)
    case Some(i) =>
      if i >= |synonymTerm| then Failure(IndexError)
      else match Find(Synonyms(kg), synonymTerm[i])
        case None => Failure(ValueError)
        case Some(p) =>
          assert forall q :: 0 <= q < p ==> Synonyms(kg)[q] == kg[q].synonym;
          Success(kg[p])
  }

  /** The subwords of a synonym once its punctuation and English runs are
      stripped. */
  function SynonymPieces(inv: seq<string>, maxLen: pos, synonym: string): seq<string>
  {
    SubwordList(inv, maxLen, FindEnglishTerm(RemovePunctuation(synonym)).0)
  }

  /** `candidate_sub` for a synonym: its subwords joined by spaces. */
  function CandidateSub(inv: seq<string>, maxLen: pos, synonym: string): string
  {
    Join(" ", SynonymPieces(inv, maxLen, synonym))
  }

  /** `joined` is `pieces` joined by spaces: it loses nothing but spaces,
      and `split()` recovers the pieces whenever none of them holds
      whitespace. */
  predicate JoinsPieces(joined: string, pieces: seq<string>)
  {
    Drop(joined, IsSpace) == Drop(Concat(pieces), IsSpace) &&
    (Runs(pieces, IsSpace) ==> Split(joined) == pieces)
  }

  lemma {:induction false} CandidateSubMeaning(inv: seq<string>, maxLen: pos, synonym: string)
    ensures JoinsPieces(CandidateSub(inv, maxLen, synonym), SynonymPieces(inv, maxLen, synonym))
  {
    var pieces := SynonymPieces(inv, maxLen, synonym);
    JoinDropsSeparators(pieces, IsSpace);
    if Runs(pieces, IsSpace) {
      SplitJoin(pieces, IsSpace);
    }
  }

  /** `candidate_sub` for every ranked entry: the subwords of its synonym,
      one space-joined string per entry. */
  function CandidateSubs(inv: seq<string>, maxLen: pos, entries: seq<Entry>): (r: seq<string>)
    ensures |r| == |entries|
    ensures forall i :: 0 <= i < |entries| ==> JoinsPieces(r[i], SynonymPieces(inv, maxLen, entries[i].synonym))
  {
    var r := seq(|entries|, i requires 0 <= i < |entries| => CandidateSub(inv, maxLen, entries[i].synonym));
    assert forall i :: 0 <= i < |entries| ==> JoinsPieces(r[i], SynonymPieces(inv, maxLen, entries[i].synonym)) by {
      forall i | 0 <= i < |entries| {
        CandidateSubMeaning(inv, maxLen, entries[i].synonym);
      }
    }
    r
  }

  /** The lookups of the `for top_i in self.top_k` loop; the first failing
      one raises. */
  function RankItems(kg: seq<Entry>, synonymTerm: seq<string>, score: seq<real>, items: seq<real>): (r: Result<seq<Entry>>)
    ensures r.Success? <==> forall i :: 0 <= i < |items| ==> Candidate(kg, synonymTerm, score, items[i]).Success?
    ensures r.Failure? ==> r.error == ValueError || r.error == IndexError
    ensures r.Success? ==> |r.value| == |items| && forall i :: 0 <= i < |items| ==> r.value[i] == Candidate(kg, synonymTerm, score, items[i]).value
    decreases |items|
  {
    if items == [] then Success([])
    else
      var head := Candidate(kg, synonymTerm, score, items[0]);
      if head.Failure? then Failure(head.error)
      else
        var rest := RankItems(kg, synonymTerm, score, items[1..]);
        assert forall i :: 0 < i < |items| ==> items[1..][i - 1] == items[i];
        if rest.Failure? then Failure(rest.error)
        else Success([head.value] + rest.value)
  }

  /** The standard term of each ranked entry. */
  function StandardsOf(entries: seq<Entry>): (r: seq<string>)
    ensures |r| == |entries|
    ensures forall i :: 0 <= i < |entries| ==> r[i] == entries[i].standard
  {
    seq(|entries|, i requires 0 <= i < |entries| => entries[i].standard)
  }

  /** The `for top_i in self.top_k` loop over an already ranked list
      `top`: the standard term of its last score, with the ranking. */
  function RankTop(kg: seq<Entry>, synonymTerm: seq<string>, inv: seq<string>, maxLen: pos, score: seq<real>, top: seq<real>): (r: Result<(string, Ranking)>)
    ensures (r == Failure(UnboundLocal)) <==> top == []
    ensures r.Success? ==> WellFormed(r.value.1) && r.value.1.topK == top
    ensures r.Success? ==> r.value.0 == r.value.1.candidates[|top| - 1]
    ensures r.Success? ==> forall i :: 0 <= i < |top| ==>
      Candidate(kg, synonymTerm, score, top[i]).Success? &&
      r.value.1.candidates[i] == Candidate(kg, synonymTerm, score, top[i]).value.standard
    ensures r.Success? ==> SameScoreSameCandidate(r.value.1)
  {
    var ranked := RankItems(kg, synonymTerm, score, top);
    if ranked.Failure? then
      assert top != [];
      Failure(ranked.error)
    else if top == [] then Failure(UnboundLocal)
    else
      var candidates := StandardsOf(ranked.value);
      var subs := CandidateSubs(inv, maxLen, ranked.value);
      Success((candidates[|candidates| - 1], Ranking(top, candidates, subs)))
  }

  /** `top_k_result(score, k)`: the standard term of the last ranked
      score, with the ranking kept for `subword_frequency`. With nothing
      ranked the loop variable is never bound. */
  function TopKResult(kg: seq<Entry>, synonymTerm: seq<string>, inv: seq<string>, maxLen: pos, score: seq<real>, k: nat): (r: Result<(string, Ranking)>)
    ensures (r == Failure(UnboundLocal)) <==> (k == 0 || score == [])
    ensures r.Success? ==> WellFormed(r.value.1) && |r.value.1.topK| == Min(k, |score|) && r.value.1.topK != []
    ensures r.Success? ==> NonIncreasing(r.value.1.topK)
    ensures r.Success? ==> r.value.0 == r.value.1.candidates[|r.value.1.candidates| - 1]
    ensures r.Success? ==> forall i :: 0 <= i < |r.value.1.topK| ==>
      r.value.1.topK[i] in score && Candidate(kg, synonymTerm, score, r.value.1.topK[i]).Success? &&
      r.value.1.candidates[i] == Candidate(kg, synonymTerm, score, r.value.1.topK[i]).value.standard
    ensures r.Success? ==> SameScoreSameCandidate(r.value.1)
    ensures r.Success? ==> r.value.1.topK == TopK(score, k)
  {
    var top := TopK(score, k);
    RankTop(kg, synonymTerm, inv, maxLen, score, top)
  }

  /** With `k = 1` the result is the candidate of a maximal score. */
  lemma {:induction false} TopOneIsMaximal(kg: seq<Entry>, synonymTerm: seq<string>, inv: seq<string>, maxLen: pos, score: seq<real>)
    requires TopKResult(kg, synonymTerm, inv, maxLen, score, 1).Success?
    ensures var r := TopKResult(kg, synonymTerm, inv, maxLen, score, 1).value;
      r.1.topK[0] in score &&
      (forall j :: 0 <= j < |score| ==> score[j] <= r.1.topK[0]) &&
      r.0 == Candidate(kg, synonymTerm, score, r.1.topK[0]).value.standard
  {
    TopOneBounds(score);
  }

  /** The single largest score bounds every score. */
  lemma {:induction false} TopOneBounds(score: seq<real>)
    requires score != []
    ensures forall j :: 0 <= j < |score| ==> score[j] <= TopK(score, 1)[0]
  {
    var top := TopK(score, 1);
    forall j | 0 <= j < |score| ensures score[j] <= top[0] {
      if score[j] != top[0] {
        assert top == [top[0]];
        assert score[j] in multiset(score);
        assert score[j] !in multiset(top);
        assert score[j] in multiset(score) - multiset(top);
      }
    }
  }

  // ---------------------------------------------------------------------
  // subword_frequency and find_standard_term

  /** `max` of a non-empty list of similarities. */
  function MaxReal(xs: seq<real>): (r: real)
    requires xs != []
    ensures r in xs
    ensures forall j :: 0 <= j < |xs| ==> xs[j] <= r
  {
    if |xs| == 1 then xs[0]
    else
      var m := MaxReal(xs[1..]);
      assert forall j :: 1 <= j < |xs| ==> xs[j] == xs[1..][j - 1];
      if xs[0] >= m then xs[0] else m
  }

  /** Position `m` holds a maximal subword-frequency total. */
  predicate MaximalAt(total: seq<nat>, m: nat)
  {
    m < |total| && forall j :: 0 <= j < |total| ==> total[j] <= total[m]
  }

  /** Position `t` is the first ranked position whose similarity is the
      largest similarity among the positions of maximal total. */
  predicate BestOfMaximal(topK: seq<real>, total: seq<nat>, t: nat)
  {
    t < |topK| && |total| == |topK| &&
    (forall j :: 0 <= j < t ==> topK[j] != topK[t]) &&
    (exists m: nat :: m < |total| && MaximalAt(total, m) && topK[m] == topK[t]) &&
    (forall m: nat :: m < |total| && MaximalAt(total, m) ==> topK[m] <= topK[t])
  }

  /** Lines 132-142: the similarities at the positions of maximal total,
      their maximum, and `score.index` of that maximum. */
  function BestAmong(topK: seq<real>, total: seq<nat>, maxscore: seq<nat>): (t: nat)
    requires |total| == |topK| && maxscore != []
    requires forall x: nat :: x in maxscore <==> MaximalAt(total, x)
    ensures BestOfMaximal(topK, total, t)
  {
    assert forall j :: 0 <= j < |maxscore| ==> maxscore[j] < |topK| by {
      forall j | 0 <= j < |maxscore| ensures maxscore[j] < |topK| {
        assert maxscore[j] in maxscore;
        assert MaximalAt(total, maxscore[j]);
      }
    }
    var finalScore := seq(|maxscore|, j requires 0 <= j < |maxscore| => topK[maxscore[j]]);
    var topMap := MaxReal(finalScore);
    var j :| 0 <= j < |finalScore| && finalScore[j] == topMap;
    assert topK[maxscore[j]] == topMap;
    var t := Find(topK, topMap).value;
    assert topK[t] == topMap;
    assert MaximalAt(total, maxscore[j]);
    assert forall m: nat :: MaximalAt(total, m) ==> topK[m] <= topK[t] by {
      forall m: nat | MaximalAt(total, m) ensures topK[m] <= topK[t] {
        assert m in maxscore;
        var a :| 0 <= a < |maxscore| && maxscore[a] == m;
        assert finalScore[a] == topK[m] && finalScore[a] <= topMap;
      }
    }
    t
  }

  /** `subword_frequency(input_sub)`: among the ranked candidates whose
      subwords share the most input subwords, the one with the highest
      similarity, looked up by the first ranked position holding it. An
      empty ranking makes `max` raise `ValueError`. */
  function SubwordFrequency(g: Ranking, inputSub: seq<string>): (r: Result<string>)
    requires WellFormed(g)
    ensures r.Failure? <==> g.topK == []
    ensures r.Failure? ==> r.error == ValueError
    ensures r.Success? ==> exists t: nat :: BestOfMaximal(g.topK, MatchScore(g.candidateSub, inputSub), t) && r.value == g.candidates[t]
  {
    var total := MatchScore(g.candidateSub, inputSub);
    var maxscore :- FindMaxScore(total);
    var t := BestAmong(g.topK, total, maxscore);
    Success(g.candidates[t])
  }

  /** In a descending ranking the first position of maximal total
      carries the largest similarity among the positions of maximal total. */
  lemma {:induction false} BestIsFirstMax(g: Ranking, total: seq<nat>, t: nat, m0: nat)
    requires NonIncreasing(g.topK) && BestOfMaximal(g.topK, total, t)
    requires MaximalAt(total, m0)
    requires forall m :: 0 <= m < m0 ==> !MaximalAt(total, m)
    ensures g.topK[t] == g.topK[m0]
  {
    var m: nat :| m < |total| && MaximalAt(total, m) && g.topK[m] == g.topK[t];
    assert m0 <= m;
    assert g.topK[m0] >= g.topK[m];
    assert g.topK[m0] <= g.topK[t];
  }

  /** With the ranking `top_k_result` builds (descending similarities,
      equal similarities naming the same candidate) the answer is the
      candidate at the first position of maximal total. */
  lemma {:induction false} SubwordFrequencyFirstMax(g: Ranking, inputSub: seq<string>, m0: nat)
    requires WellFormed(g) && NonIncreasing(g.topK)
    requires SameScoreSameCandidate(g)
    requires MaximalAt(MatchScore(g.candidateSub, inputSub), m0)
    requires forall m :: 0 <= m < m0 ==> !MaximalAt(MatchScore(g.candidateSub, inputSub), m)
    ensures SubwordFrequency(g, inputSub) == Success(g.candidates[m0])
  {
    var total := MatchScore(g.candidateSub, inputSub);
    var r := SubwordFrequency(g, inputSub);
    var t: nat :| BestOfMaximal(g.topK, total, t) && r.value == g.candidates[t];
    BestIsFirstMax(g, total, t, m0);
  }

  /** `find_standard_term(score, is_final)`. The final mapping ranks the
      five best scores and settles by subword frequency against the
      subwords of `input_str`; otherwise the best score decides. */
  function FindStandardTerm(kg: seq<Entry>, synonymTerm: seq<string>, inv: seq<string>, maxLen: pos,
                            inputStr: string, score: seq<real>, isFinal: bool): (r: Result<string>)
    ensures (r == Failure(UnboundLocal)) <==> score == []
    ensures r.Success? ==>
      (exists x :: x in score && Candidate(kg, synonymTerm, score, x).Success? &&
                   Candidate(kg, synonymTerm, score, x).value.standard == r.value)
    ensures !isFinal && r.Success? ==>
      (exists x :: x in score && (forall j :: 0 <= j < |score| ==> score[j] <= x) &&
                   Candidate(kg, synonymTerm, score, x).Success? &&
                   Candidate(kg, synonymTerm, score, x).value.standard == r.value)
    ensures isFinal && r.Success? ==>
      (TopKResult(kg, synonymTerm, inv, maxLen, score, 5).Success? &&
       var g := TopKResult(kg, synonymTerm, inv, maxLen, score, 5).value.1;
       g.topK == TopK(score, 5) &&
       exists t: nat :: BestOfMaximal(g.topK, MatchScore(g.candidateSub, InputSub(inv, maxLen, inputStr)), t) &&
         r.value == g.candidates[t])
  {
    if isFinal then
      var ranked :- TopKResult(kg, synonymTerm, inv, maxLen, score, 5);
      var out := SubwordFrequency(ranked.1, InputSub(inv, maxLen, inputStr));
      assert out.Success? ==> exists i :: 0 <= i < |ranked.1.topK| && out.value == ranked.1.candidates[i];
      out
    else
      var ranked :- TopKResult(kg, synonymTerm, inv, maxLen, score, 1);
      TopOneIsMaximal(kg, synonymTerm, inv, maxLen, score);
      Success(ranked.0)
  }

  /** `input_sub`: the subwords of `input_str`, joined and split again. */
  function InputSub(inv: seq<string>, maxLen: pos, inputStr: string): seq<string>
  {
    Split(Join(" ", SubwordList(inv, maxLen, inputStr)))
  }

  /** The final mapping answers with the candidate of the five best scores
      at the first ranked position whose subword total is maximal. */
  lemma {:induction false} FinalIsFirstMaximal(kg: seq<Entry>, synonymTerm: seq<string>, inv: seq<string>, maxLen: pos,
                                               inputStr: string, score: seq<real>, m0: nat)
    requires TopKResult(kg, synonymTerm, inv, maxLen, score, 5).Success?
    requires var g := TopKResult(kg, synonymTerm, inv, maxLen, score, 5).value.1;
      MaximalAt(MatchScore(g.candidateSub, InputSub(inv, maxLen, inputStr)), m0) &&
      forall m :: 0 <= m < m0 ==> !MaximalAt(MatchScore(g.candidateSub, InputSub(inv, maxLen, inputStr)), m)
    ensures var g := TopKResult(kg, synonymTerm, inv, maxLen, score, 5).value.1;
      g.topK == TopK(score, 5) &&
      FindStandardTerm(kg, synonymTerm, inv, maxLen, inputStr, score, true) == Success(g.candidates[m0])
  {
    var g := TopKResult(kg, synonymTerm, inv, maxLen, score, 5).value.1;
    var inputSub := InputSub(inv, maxLen, inputStr);
    FinalUnfold(kg, synonymTerm, inv, maxLen, inputStr, score);
    SubwordFrequencyFirstMax(g, inputSub, m0);
  }

  /** `find_standard_term(score, True)` once the five best scores are ranked. */
  lemma FinalUnfold(kg: seq<Entry>, synonymTerm: seq<string>, inv: seq<string>, maxLen: pos,
                    inputStr: string, score: seq<real>)
    requires TopKResult(kg, synonymTerm, inv, maxLen, score, 5).Success?
    ensures WellFormed(TopKResult(kg, synonymTerm, inv, maxLen, score, 5).value.1)
    ensures FindStandardTerm(kg, synonymTerm, inv, maxLen, inputStr, score, true) ==
      SubwordFrequency(TopKResult(kg, synonymTerm, inv, maxLen, score, 5).value.1, InputSub(inv, maxLen, inputStr))
  {
  }

  /** Every term `find_standard_term` returns is a standard term of the
      knowledge graph. */
  lemma {:induction false} FindStandardTermIsStandard(kg: seq<Entry>, synonymTerm: seq<string>, inv: seq<string>, maxLen: pos,
                                   inputStr: string, score: seq<real>, isFinal: bool)
    requires FindStandardTerm(kg, synonymTerm, inv, maxLen, inputStr, score, isFinal).Success?
    ensures FindStandardTerm(kg, synonymTerm, inv, maxLen, inputStr, score, isFinal).value in Standards(kg)
  {
    var r := FindStandardTerm(kg, synonymTerm, inv, maxLen, inputStr, score, isFinal);
    var x :| x in score && Candidate(kg, synonymTerm, score, x).Success? &&
      Candidate(kg, synonymTerm, score, x).value.standard == r.value;
    var e := Candidate(kg, synonymTerm, score, x).value;
    var p :| 0 <= p < |kg| && kg[p] == e;
    assert Standards(kg)[p] == r.value;
  }
}

=== FILE: normalise.dfy ===
/** Text normalisation: full-width to half-width conversion (`Q2B`,
    `stringQ2B`), punctuation stripping (the three `remove_punctuation`
    variants) and the extraction of ASCII letter/digit runs
    (`find_English_term` of utility.py). */
module Normalise {
  import opened Strings

  /** `Q2B(uchar)`: U+3000 (ideographic space) becomes a space and the
      full-width forms U+FF00..U+FF5E move down by 0xFEE0 into the printable
      ASCII range; U+FF00 therefore also becomes a space. */
  function Q2B(c: char): (r: char)
    ensures c as int == 0x3000 ==> r == ' '
    ensures 0xFF00 <= c as int <= 0xFF5E ==> r as int == c as int - 0xFEE0
    ensures c as int != 0x3000 && !(0xFF00 <= c as int <= 0xFF5E) ==> r == c
  {
    var code := if c as int == 0x3000 then 0x20 else c as int - 0xFEE0;
    if code < 0x20 || code > 0x7E then c else code as char
  }

  /** Converting twice is converting once: every converted character is
      printable ASCII, which the conversion leaves alone. */
  lemma {:induction false} Q2BIdempotent(c: char)
    ensures Q2B(Q2B(c)) == Q2B(c)
  {
  }

  /** `stringQ2B(ustring)`: `Q2B` applied to every character. */
  function StringQ2B(s: string): (r: string)
    ensures |r| == |s|
    ensures forall i :: 0 <= i < |s| ==> r[i] == Q2B(s[i])
  {
    if s == [] then [] else [Q2B(s[0])] + StringQ2B(s[1..])
  }

  lemma {:induction false} StringQ2BIdempotent(s: string)
    ensures StringQ2B(StringQ2B(s)) == StringQ2B(s)
  {
    forall i | 0 <= i < |s|
      ensures StringQ2B(StringQ2B(s))[i] == StringQ2B(s)[i]
    {
      Q2BIdempotent(s[i]);
    }
  }

  /** One entry per character of `s`. */
  function Chars(s: string): (r: seq<string>)
    ensures |r| == |s|
    ensures forall e :: e in r ==> |e| == 1 && e[0] in s
    ensures forall c :: [c] in r <==> c in s
  {
    var r := Letters(s);
    assert forall c :: c in s ==> [c] in r by {
      forall c | c in s ensures [c] in r {
        var i :| 0 <= i < |s| && s[i] == c;
        assert r[i] == [c];
      }
    }
    r
  }

  /** The shape shared by the three `punctuation` lists: runs of
      one-character entries separated by the entries `''`, `'[]'` and
      `'……'`. */
  function PunctuationList(a: string, b: string, c: string, d: string): seq<string>
  {
    Chars(a) + [""] + Chars(b) + ["[]"] + Chars(c) + ["\U{2026}\U{2026}"] + Chars(d)
  }

  const UtilityA: string := "()[]\U{FF0C}\U{3002}\U{FF01},.!_\n-/"
  const PunctB: string := "?\U{FF1F}:\U{FF1A}{}\U{300C}\U{300D}@#$%^&*"
  const PunctC: string := "+=\"~`|<>"
  const PunctD: string := "\U{FFE5}\U{3014}\U{3015}\U{201C}\U{201D}\U{2014}\\';\U{3001}\U{2193}\U{2264}\U{2265}\U{2460}\U{2461}\U{2500}\U{3010}\U{3011}\U{B0}\U{B7}\U{2026}\U{FE52}\U{FF64}\U{300E}\U{300F}\U{FF5C}"
  const OfflineA: string := "()[]\U{FF0C}\U{3002}\U{FF01},.!_ \n-/"

  /** The `punctuation` list of utility.py:94-98. */
  const UtilityPunctuation: seq<string> := PunctuationList(UtilityA, PunctB, PunctC, PunctD)

  /** The `punctuation` list of STEP-1-get-subword.py:118-122: the utility
      list with a space after `_` and a second `_` at the end. */
  const Step1Punctuation: seq<string> := PunctuationList(OfflineA, PunctB, PunctC, PunctD + "_")

  /** The `punctuation` list of STEP-2-get-Knowledge-Graph.py:92-96: the
      utility list with a space after `_`. */
  const Step2Punctuation: seq<string> := PunctuationList(OfflineA, PunctB, PunctC, PunctD)

  /** `if j in term: term = term.replace(j, '')` for one list entry. */
  function StripEntry(term: string, entry: string): string
  {
    if Occurs(entry, term) then Remove(term, entry) else term
  }

  /** The `for j in punctuation` loop. */
  function StripAll(term: string, entries: seq<string>): string
    decreases |entries|
  {
    if entries == [] then term else StripAll(StripEntry(term, entries[0]), entries[1..])
  }

  /** The loop deletes only characters the list names, leaves the others in
      order, and leaves no one-character entry behind. */
  lemma {:induction false} StripAllDeletes(term: string, entries: seq<string>, drop: char -> bool)
    requires forall e, c :: e in entries && c in e ==> drop(c)
    ensures Drop(StripAll(term, entries), drop) == Drop(term, drop)
    ensures forall c :: c in StripAll(term, entries) ==> c in term && [c] !in entries
    decreases |entries|
  {
    if entries != [] {
      var e := entries[0];
      var t' := StripEntry(term, e);
      assert e in entries;
      StripEntryDeletes(term, e, drop);
      StripAllDeletes(t', entries[1..], drop);
      forall c | c in StripAll(term, entries)
        ensures [c] !in entries
      {
        assert c in t';
        assert entries == [e] + entries[1..];
      }
    }
  }

  /** One entry: only characters of the entry go, and a one-character
      entry goes entirely. */
  lemma {:induction false} StripEntryDeletes(term: string, e: string, drop: char -> bool)
    requires forall c :: c in e ==> drop(c)
    ensures Drop(StripEntry(term, e), drop) == Drop(term, drop)
    ensures forall c :: c in StripEntry(term, e) ==> c in term
    ensures |e| == 1 ==> e[0] !in StripEntry(term, e)
  {
    var t' := StripEntry(term, e);
    if Occurs(e, term) {
      RemoveKeepsOthers(term, e, drop);
      if |e| == 1 {
        assert e == [e[0]];
        RemoveChar(term, e[0]);
      }
    }
    if |e| == 1 && e[0] in term {
      var i :| 0 <= i < |term| && term[i] == e[0];
      assert term[i..i + 1] == e;
      assert OccursAt(term, e, i);
    }
  }

  /** Stripping with a list of this shape deletes exactly the characters of
      its one-character entries, provided `[`, `]` and `…` are among them:
      the entries `''`, `'[]'` and `'……'` then change nothing further. */
  lemma {:induction false} StripPunctuationList(term: string, a: string, b: string, c: string, d: string, drop: char -> bool)
    requires '[' in a + b && ']' in a + b && '\U{2026}' in d
    requires forall ch :: drop(ch) <==> ch in a + b + c + d
    ensures StripAll(term, PunctuationList(a, b, c, d)) == Drop(term, drop)
  {
    var entries := PunctuationList(a, b, c, d);
    forall e, ch | e in entries && ch in e ensures drop(ch) {
      if e == "[]" {
        assert ch == '[' || ch == ']';
      } else if e == "\U{2026}\U{2026}" {
        assert ch == '\U{2026}';
      }
    }
    StripAllDeletes(term, entries, drop);
    forall ch | ch in StripAll(term, entries) ensures !drop(ch) {
      assert [ch] !in Chars(a) && [ch] !in Chars(b) && [ch] !in Chars(c) && [ch] !in Chars(d);
    }
    DropNone(StripAll(term, entries), drop);
  }

  /** `c in s`, unfolded one character at a time. */
  predicate InString(c: char, s: string)
    decreases |s|
  {
    s != [] && (s[0] == c || InString(c, s[1..]))
  }

  lemma {:induction false} InStringMeaning(s: string)
    ensures forall c :: InString(c, s) <==> c in s
    decreases |s|
  {
    if s != [] {
      InStringMeaning(s[1..]);
      assert s == [s[0]] + s[1..];
    }
  }

  const UtilityChars: string := UtilityA + PunctB + PunctC + PunctD
  const Step1Chars: string := OfflineA + PunctB + PunctC + (PunctD + "_")
  const Step2Chars: string := OfflineA + PunctB + PunctC + PunctD

  predicate IsUtilityPunctuation(c: char) { InString(c, UtilityChars) }
  predicate IsStep1Punctuation(c: char) { InString(c, Step1Chars) }
  predicate IsStep2Punctuation(c: char) { InString(c, Step2Chars) }

  /** The `for j in punctuation` loop of `remove_punctuation(term)` in
      utility.py, entry by entry. */
  function RemovePunctuationLoop(term: string): string
  {
    StripAll(term, UtilityPunctuation)
  }

  /** `remove_punctuation(term)` of utility.py, as the characters it keeps;
      `RemovePunctuationMeaning` shows that the loop computes exactly this.
      The rest of the model uses this form. */
  function RemovePunctuation(term: string): string
  {
    Drop(term, IsUtilityPunctuation)
  }

  /** Every character that is a one-character entry of the utility list is
      deleted, every other character is kept in order; the entries `''`,
      `'[]'` and `'……'` change nothing further. */
  lemma {:induction false} RemovePunctuationMeaning(term: string)
    ensures RemovePunctuationLoop(term) == RemovePunctuation(term)
  {
    assert UtilityA[2] == '[' && UtilityA[3] == ']' && PunctD[20] == '\U{2026}';
    InStringMeaning(UtilityChars);
    StripPunctuationList(term, UtilityA, PunctB, PunctC, PunctD, IsUtilityPunctuation);
  }

  /** Stripping punctuation twice is stripping it once. */
  lemma {:induction false} RemovePunctuationIdempotent(term: string)
    ensures RemovePunctuationLoop(RemovePunctuationLoop(term)) == RemovePunctuationLoop(term)
  {
    RemovePunctuationMeaning(term);
    RemovePunctuationMeaning(RemovePunctuationLoop(term));
    DropNone(RemovePunctuation(term), IsUtilityPunctuation);
  }

  /** The utility list keeps spaces, letters and digits; the two offline
      lists delete spaces and keep letters and digits. */
  lemma {:induction false} UtilityKeepsSpace()
    ensures !IsUtilityPunctuation(' ')
  {
    InStringMeaning(UtilityChars);
  }

  lemma {:induction false} OfflineDropsSpace()
    ensures IsStep1Punctuation(' ') && IsStep2Punctuation(' ')
  {
    assert OfflineA[11] == ' ';
    InStringMeaning(Step1Chars);
    InStringMeaning(Step2Chars);
  }

  lemma {:induction false} PunctuationKeepsAlnum(c: char)
    requires IsAsciiAlnum(c)
    ensures !IsUtilityPunctuation(c) && !IsStep1Punctuation(c) && !IsStep2Punctuation(c)
  {
    AlnumNotInFirst(c);
    AlnumNotInRest(c);
    InStringMeaning(UtilityChars);
    InStringMeaning(Step1Chars);
    InStringMeaning(Step2Chars);
  }

  lemma {:induction false} AlnumNotInFirst(c: char)
    requires IsAsciiAlnum(c)
    ensures c !in UtilityA && c !in OfflineA
  {
  }

  lemma {:induction false} AlnumNotInRest(c: char)
    requires IsAsciiAlnum(c)
    ensures c !in PunctB && c !in PunctC && c !in PunctD + "_"
  {
    AlnumNotInLast(c);
  }

  lemma {:induction false} AlnumNotInLast(c: char)
    requires IsAsciiAlnum(c)
    ensures c !in PunctD
  {
  }

  /** `remove_punctuation(term)` of STEP-1-get-subword.py over a list: each
      term is converted to half-width first, then stripped. */
  function Step1RemovePunctuation(terms: seq<string>): (r: seq<string>)
    ensures |r| == |terms|
  {
    seq(|terms|, i requires 0 <= i < |terms| => StripAll(StringQ2B(terms[i]), Step1Punctuation))
  }

  lemma {:induction false} Step1RemovePunctuationMeaning(terms: seq<string>)
    ensures forall i :: 0 <= i < |terms| ==> Step1RemovePunctuation(terms)[i] == Drop(StringQ2B(terms[i]), IsStep1Punctuation)
  {
    assert OfflineA[2] == '[' && OfflineA[3] == ']' && PunctD[20] == '\U{2026}';
    InStringMeaning(Step1Chars);
    forall i | 0 <= i < |terms|
      ensures Step1RemovePunctuation(terms)[i] == Drop(StringQ2B(terms[i]), IsStep1Punctuation)
    {
      StripPunctuationList(StringQ2B(terms[i]), OfflineA, PunctB, PunctC, PunctD + "_", IsStep1Punctuation);
    }
  }

  /** `remove_punctuation(term)` of STEP-2-get-Knowledge-Graph.py over a
      list (no full-width conversion). */
  function Step2RemovePunctuation(terms: seq<string>): (r: seq<string>)
    ensures |r| == |terms|
  {
    seq(|terms|, i requires 0 <= i < |terms| => StripAll(terms[i], Step2Punctuation))
  }

  lemma {:induction false} Step2RemovePunctuationMeaning(terms: seq<string>)
    ensures forall i :: 0 <= i < |terms| ==> Step2RemovePunctuation(terms)[i] == Drop(terms[i], IsStep2Punctuation)
  {
    assert OfflineA[2] == '[' && OfflineA[3] == ']' && PunctD[20] == '\U{2026}';
    InStringMeaning(Step2Chars);
    forall i | 0 <= i < |terms|
      ensures Step2RemovePunctuation(terms)[i] == Drop(terms[i], IsStep2Punctuation)
    {
      StripPunctuationList(terms[i], OfflineA, PunctB, PunctC, PunctD, IsStep2Punctuation);
    }
  }

  /** `re.findall(r'[a-zA-Z0-9]+', term)`: the maximal letter/digit runs. */
  function AlnumRuns(term: string): seq<string>
  {
    SplitBy(term, IsNotAsciiAlnum)
  }

  /** The `for i in result: term = re.sub(i, '', term)` loop: each run,
      in turn, is deleted everywhere in what is left of the term. */
  function RemoveRuns(term: string, runs: seq<string>): string
    decreases |runs|
  {
    if runs == [] then term else RemoveRuns(Remove(term, runs[0]), runs[1..])
  }

  lemma {:induction false} RemoveRunsKeepsOthers(term: string, runs: seq<string>)
    requires Runs(runs, IsNotAsciiAlnum)
    ensures Drop(RemoveRuns(term, runs), IsAsciiAlnum) == Drop(term, IsAsciiAlnum)
    ensures |RemoveRuns(term, runs)| <= |term|
    decreases |runs|
  {
    if runs != [] {
      assert forall c :: c in runs[0] ==> IsAsciiAlnum(c) by {
        assert NoSep(runs[0], IsNotAsciiAlnum);
      }
      RemoveKeepsOthers(term, runs[0], IsAsciiAlnum);
      assert Runs(runs[1..], IsNotAsciiAlnum) by {
        forall k | 0 <= k < |runs[1..]| ensures runs[1..][k] != "" && NoSep(runs[1..][k], IsNotAsciiAlnum) {
          assert runs[1..][k] == runs[k + 1];
        }
      }
      RemoveRunsKeepsOthers(Remove(term, runs[0]), runs[1..]);
    }
  }

  /** Each deletion keeps the rest of the term in order. */
  lemma {:induction false} RemoveRunsSubsequence(term: string, runs: seq<string>)
    ensures IsSubsequence(RemoveRuns(term, runs), term)
    decreases |runs|
  {
    if runs == [] {
      SubsequenceRefl(term);
    } else {
      RemoveSubsequence(term, runs[0]);
      RemoveRunsSubsequence(Remove(term, runs[0]), runs[1..]);
      SubsequenceTrans(RemoveRuns(term, runs), Remove(term, runs[0]), term);
    }
  }

  /** `find_English_term(term)` of utility.py: the term with its letter and
      digit runs deleted, and a one-element list holding the runs, left to
      right and lower-cased. */
  function FindEnglishTerm(term: string): (r: (string, seq<seq<string>>))
    ensures |r.1| == 1
    ensures |r.1[0]| == |AlnumRuns(term)|
    ensures forall k :: 0 <= k < |r.1[0]| ==>
      r.1[0][k] == Lower(AlnumRuns(term)[k]) && r.1[0][k] != "" && forall c :: c in r.1[0][k] ==> IsAsciiAlnum(c)
    ensures Concat(AlnumRuns(term)) == Drop(term, IsNotAsciiAlnum)
    ensures Drop(r.0, IsAsciiAlnum) == Drop(term, IsAsciiAlnum)
    ensures |r.0| <= |term|
    ensures IsSubsequence(r.0, term)
  {
    var runs := AlnumRuns(term);
    RemoveRunsKeepsOthers(term, runs);
    RemoveRunsSubsequence(term, runs);
    var lowered := seq(|runs|, k requires 0 <= k < |runs| => Lower(runs[k]));
    assert forall k :: 0 <= k < |runs| ==> forall c :: c in lowered[k] ==> IsAsciiAlnum(c) by {
      forall k | 0 <= k < |runs| ensures forall c :: c in lowered[k] ==> IsAsciiAlnum(c) {
        assert NoSep(runs[k], IsNotAsciiAlnum);
        LowerKeepsAlnum(runs[k]);
      }
    }
    (RemoveRuns(term, runs), [lowered])
  }

  /** The runs `find_English_term` collects are the maximal runs of
      letters and digits of the term. */
  lemma {:induction false} AlnumRunsMaximal(term: string)
    ensures MaximalRuns(term, AlnumRuns(term), IsNotAsciiAlnum)
  {
    SplitByMaximal(term, IsNotAsciiAlnum);
  }

  /** Given the maximal letter-and-digit runs of a term, the English list
      is those runs lower-cased, in order. */
  lemma {:induction false} FindEnglishTermFromRuns(term: string, runs: seq<string>)
    requires MaximalRuns(term, runs, IsNotAsciiAlnum)
    ensures |FindEnglishTerm(term).1[0]| == |runs|
    ensures forall k :: 0 <= k < |runs| ==> FindEnglishTerm(term).1[0][k] == Lower(runs[k])
  {
    MaximalRunsAreSplit(term, runs, IsNotAsciiAlnum);
  }

  /** Lower-casing a run of letters and digits keeps it one. */
  lemma {:induction false} LowerKeepsAlnum(run: string)
    requires NoSep(run, IsNotAsciiAlnum)
    ensures forall c :: c in Lower(run) ==> IsAsciiAlnum(c)
  {
    forall c | c in Lower(run) ensures IsAsciiAlnum(c) {
      var i :| 0 <= i < |Lower(run)| && Lower(run)[i] == c;
      assert run[i] in run;
    }
  }

  /** Each run is deleted everywhere in turn, so a later run may no longer
      be found: for "a ab" the runs are "a" and "ab", deleting "a" leaves
      " b", and the "b" of the second run survives. */
  lemma {:induction false} ResidualKeepsSomeLetters()
    ensures AlnumRuns("a ab") == ["a", "ab"]
    ensures FindEnglishTerm("a ab").0 == " b"
  {
    ExampleRuns();
    ExampleRemoveA();
    ExampleRemoveAb();
  }

  lemma {:induction false} ExampleRuns()
    ensures AlnumRuns("a ab") == ["a", "ab"]
  {
    assert "a ab" == "a" + [' '] + "ab";
    SplitFromSeparator("a", ' ', "ab", "", IsNotAsciiAlnum);
    SplitRun("a", IsNotAsciiAlnum);
    SplitRun("ab", IsNotAsciiAlnum);
  }

  lemma {:induction false} ExampleRemoveA()
    ensures Remove("a ab", "a") == " b"
  {
    assert Remove("b", "a") == "b";
    assert Remove("ab", "a") == "b";
  }

  lemma {:induction false} ExampleRemoveAb()
    ensures Remove(" b", "ab") == " b"
  {
    assert Remove("b", "ab") == "b";
  }
}

=== FILE: segment.dfy ===
/** Subword segmentation of `Subword_Embedding` (subword_embedding.py):
    forward and backward maximum matching over a subword inventory, and
    `get_subword`, which pools both segmentations. The instance fields
    `sub_list`, `max_len`, `len_term` and `standard_subs` become parameters
    and results. */
module Segment {
  import opened Strings

  /** `max_len` is `len(sub_list[0])`; with 0 the inner loop never fires and
      the outer loop never ends, so a positive window is required. */
  type pos = n: int | n >= 1 witness 1

  function Reverse<T>(xs: seq<T>): (r: seq<T>)
    ensures |r| == |xs|
  {
    if xs == [] then [] else Reverse(xs[1..]) + [xs[0]]
  }

  /** `term[start:start+w]` for an in-bounds window. */
  function Ahead(term: string, start: nat, w: nat): string
    requires start + w <= |term|
  {
    term[start..start + w]
  }

  /** `term[end-w:end]` for an in-bounds window. */
  function Behind(term: string, end: nat, w: nat): string
    requires w <= end <= |term|
  {
    term[end - w..end]
  }

  /** `w` is the width FMM takes at `start` when windows up to `bound` are
      tried: the window is in the inventory or one character long, and no
      longer window is in the inventory. */
  ghost predicate LongestAhead(inv: seq<string>, term: string, start: nat, bound: nat, w: nat)
    requires start + bound <= |term|
  {
    1 <= w <= bound && (Ahead(term, start, w) in inv || w == 1)
    && forall v :: w < v <= bound ==> Ahead(term, start, v) !in inv
  }

  /** The width BMM takes at `end` when windows up to `bound` are tried. */
  ghost predicate LongestBehind(inv: seq<string>, term: string, end: nat, bound: nat, w: nat)
    requires bound <= end <= |term|
  {
    1 <= w <= bound && (Behind(term, end, w) in inv || w == 1)
    && forall v :: w < v <= bound ==> Behind(term, end, v) !in inv
  }

  /** Every piece is one to `max_len` characters long and in the inventory
      unless it is a single character. */
  ghost predicate Bounded(inv: seq<string>, maxLen: pos, r: seq<string>)
  {
    forall k :: 0 <= k < |r| ==> 1 <= |r[k]| <= maxLen && (r[k] in inv || |r[k]| == 1)
  }

  /** The inner `for` loop of `FMM`: the window `term[start:start+w]`
      shrinks from the right until it is in the inventory or one character
      long. The result is the longest such window, so the loop bound
      `range(max_len)` is never exhausted. */
  function FmmWidth(inv: seq<string>, term: string, start: nat, w: nat): (r: nat)
    requires 1 <= w && start + w <= |term|
    ensures 1 <= r <= w
    ensures term[start..start + r] in inv || r == 1
    ensures forall v :: r < v <= w ==> Ahead(term, start, v) !in inv
    ensures LongestAhead(inv, term, start, w, r)
    decreases w
  {
    if Ahead(term, start, w) in inv || w == 1 then w else FmmWidth(inv, term, start, w - 1)
  }

  /** Greedy forward segmentation of `term[start..]`: each piece starts where
      the previous one ended, is in the inventory or one character long, and
      no longer window up to `max_len` (or the end of the term) is in the
      inventory. */
  ghost predicate FmmGreedy(inv: seq<string>, maxLen: pos, term: string, start: nat, r: seq<string>)
    requires start <= |term|
    decreases |r|
  {
    if r == [] then start == |term|
    else
      var w := |r[0]|;
      start < |term| && 1 <= w <= Min(maxLen, |term| - start) && r[0] == Ahead(term, start, w)
      && LongestAhead(inv, term, start, Min(maxLen, |term| - start), w)
      && FmmGreedy(inv, maxLen, term, start + w, r[1..])
  }

  /** The outer `while` loop of `FMM` from position `start`: the pieces it
      appends, in order. */
  function FmmFrom(inv: seq<string>, maxLen: pos, term: string, start: nat): (r: seq<string>)
    requires start <= |term|
    ensures Concat(r) == term[start..]
    ensures Bounded(inv, maxLen, r)
    ensures FmmGreedy(inv, maxLen, term, start, r)
    decreases |term| - start
  {
    if start == |term| then []
    else
      var w := FmmWidth(inv, term, start, Min(maxLen, |term| - start));
      var rest := FmmFrom(inv, maxLen, term, start + w);
      assert term[start..] == term[start..start + w] + term[start + w..];
      assert ([term[start..start + w]] + rest)[1..] == rest;
      FmmGreedyCons(inv, maxLen, term, start, w, rest);
      [term[start..start + w]] + rest
  }

  function Fmm(inv: seq<string>, maxLen: pos, term: string): seq<string>
  {
    FmmFrom(inv, maxLen, term, 0)
  }

  /** The inner `for` loop of `BMM`: the window `term[end-w:end]` shrinks
      from the left; the result is the longest suffix window that is in the
      inventory, or 1. */
  function BmmWidth(inv: seq<string>, term: string, end: nat, w: nat): (r: nat)
    requires 1 <= w <= end <= |term|
    ensures 1 <= r <= w
    ensures term[end - r..end] in inv || r == 1
    ensures forall v :: r < v <= w ==> Behind(term, end, v) !in inv
    ensures LongestBehind(inv, term, end, w, r)
    decreases w
  {
    if Behind(term, end, w) in inv || w == 1 then w else BmmWidth(inv, term, end, w - 1)
  }

  /** Greedy backward segmentation of `term[..end]`, pieces listed right to
      left: each piece ends where the previous one began, is in the
      inventory or one character long, and no longer window up to `max_len`
      (or the start of the term) is in the inventory. */
  ghost predicate BmmGreedy(inv: seq<string>, maxLen: pos, term: string, end: nat, r: seq<string>)
    requires end <= |term|
    decreases |r|
  {
    if r == [] then end == 0
    else
      var w := |r[0]|;
      0 < end && 1 <= w <= Min(maxLen, end) && r[0] == Behind(term, end, w)
      && LongestBehind(inv, term, end, Min(maxLen, end), w)
      && BmmGreedy(inv, maxLen, term, end - w, r[1..])
  }

  /** The outer `while` loop of `BMM` from position `end` down to 0: the
      pieces it appends, right to left. */
  function BmmFrom(inv: seq<string>, maxLen: pos, term: string, end: nat): (r: seq<string>)
    requires end <= |term|
    ensures Concat(Reverse(r)) == term[..end]
    ensures Bounded(inv, maxLen, r)
    ensures BmmGreedy(inv, maxLen, term, end, r)
    decreases end
  {
    if end == 0 then []
    else
      var w := BmmWidth(inv, term, end, Min(maxLen, end));
      var rest := BmmFrom(inv, maxLen, term, end - w);
      var r := [term[end - w..end]] + rest;
      assert r[1..] == rest;
      BmmGreedyCons(inv, maxLen, term, end, w, rest);
      ConcatAppend(Reverse(rest), [term[end - w..end]]);
      assert term[..end] == term[..end - w] + term[end - w..end];
      r
  }

  function Bmm(inv: seq<string>, maxLen: pos, term: string): seq<string>
  {
    BmmFrom(inv, maxLen, term, |term|)
  }

  /** `get_subword(term)` as a list: `['']` for an empty term, otherwise the
      FMM pieces followed by the BMM pieces without repeats. */
  function SubwordList(inv: seq<string>, maxLen: pos, term: string): (r: seq<string>)
    ensures term == "" ==> r == [""]
    ensures term != "" ==> forall x :: x in r <==> x in Fmm(inv, maxLen, term) || x in Bmm(inv, maxLen, term)
    ensures term != "" ==> forall x :: x in r ==> 1 <= |x| <= maxLen && (x in inv || |x| == 1)
    ensures forall i, j :: 0 <= i < j < |r| ==> r[i] != r[j]
  {
    if term == "" then [""] else Dedup(Fmm(inv, maxLen, term) + Bmm(inv, maxLen, term))
  }

  /** `get_subword(term)`: `list(set(...))` is modelled as the set itself. */
  function GetSubword(inv: seq<string>, maxLen: pos, term: string): (r: set<string>)
    ensures term == "" ==> r == {""}
    ensures term != "" ==> forall x :: x in r <==> x in Fmm(inv, maxLen, term) || x in Bmm(inv, maxLen, term)
    ensures term != "" ==> "" !in r
  {
    set x | x in SubwordList(inv, maxLen, term)
  }

  /** FMM's width at a position is determined. */
  lemma AheadWidthUnique(inv: seq<string>, term: string, start: nat, bound: nat, w: nat, m: nat)
    requires start + bound <= |term|
    requires LongestAhead(inv, term, start, bound, w) && LongestAhead(inv, term, start, bound, m)
    ensures w == m
  {
  }

  /** BMM's width at a position is determined. */
  lemma BehindWidthUnique(inv: seq<string>, term: string, end: nat, bound: nat, w: nat, m: nat)
    requires bound <= end <= |term|
    requires LongestBehind(inv, term, end, bound, w) && LongestBehind(inv, term, end, bound, m)
    ensures w == m
  {
  }

  /** One step of FMM's outer loop. */
  lemma {:induction false} FmmFromStep(inv: seq<string>, maxLen: pos, term: string, start: nat, m: nat)
    requires start < |term|
    requires m == FmmWidth(inv, term, start, Min(maxLen, |term| - start))
    ensures FmmFrom(inv, maxLen, term, start) == [Ahead(term, start, m)] + FmmFrom(inv, maxLen, term, start + m)
  {
    var rest := FmmFrom(inv, maxLen, term, start + m);
    assert FmmFrom(inv, maxLen, term, start) == [term[start..start + m]] + rest;
  }

  /** One step of BMM's outer loop. */
  lemma {:induction false} BmmFromStep(inv: seq<string>, maxLen: pos, term: string, end: nat, m: nat)
    requires 0 < end <= |term|
    requires m == BmmWidth(inv, term, end, Min(maxLen, end))
    ensures BmmFrom(inv, maxLen, term, end) == [Behind(term, end, m)] + BmmFrom(inv, maxLen, term, end - m)
  {
    var rest := BmmFrom(inv, maxLen, term, end - m);
    assert BmmFrom(inv, maxLen, term, end) == [term[end - m..end]] + rest;
  }

  /** A greedy forward piece followed by a greedy segmentation of the rest. */
  lemma FmmGreedyCons(inv: seq<string>, maxLen: pos, term: string, start: nat, m: nat, rest: seq<string>)
    requires start < |term|
    requires LongestAhead(inv, term, start, Min(maxLen, |term| - start), m)
    requires FmmGreedy(inv, maxLen, term, start + m, rest)
    ensures FmmGreedy(inv, maxLen, term, start, [Ahead(term, start, m)] + rest)
  {
    var r := [Ahead(term, start, m)] + rest;
    assert r[0] == Ahead(term, start, m) && r[1..] == rest;
  }

  /** A greedy backward piece followed by a greedy segmentation of the rest. */
  lemma BmmGreedyCons(inv: seq<string>, maxLen: pos, term: string, end: nat, m: nat, rest: seq<string>)
    requires 0 < end <= |term|
    requires LongestBehind(inv, term, end, Min(maxLen, end), m)
    requires BmmGreedy(inv, maxLen, term, end - m, rest)
    ensures BmmGreedy(inv, maxLen, term, end, [Behind(term, end, m)] + rest)
  {
    var r := [Behind(term, end, m)] + rest;
    assert r[0] == Behind(term, end, m) && r[1..] == rest;
  }

  /** The first piece of a greedy forward segmentation, and the rest. */
  lemma FmmGreedyHead(inv: seq<string>, maxLen: pos, term: string, start: nat, r: seq<string>)
    requires start <= |term| && r != []
    requires FmmGreedy(inv, maxLen, term, start, r)
    ensures start < |term| && start + |r[0]| <= |term|
    ensures r == [Ahead(term, start, |r[0]|)] + r[1..]
    ensures LongestAhead(inv, term, start, Min(maxLen, |term| - start), |r[0]|)
    ensures FmmGreedy(inv, maxLen, term, start + |r[0]|, r[1..])
  {
  }

  /** The first piece of a greedy backward segmentation, and the rest. */
  lemma BmmGreedyHead(inv: seq<string>, maxLen: pos, term: string, end: nat, r: seq<string>)
    requires end <= |term| && r != []
    requires BmmGreedy(inv, maxLen, term, end, r)
    ensures 0 < end && |r[0]| <= end
    ensures r == [Behind(term, end, |r[0]|)] + r[1..]
    ensures LongestBehind(inv, term, end, Min(maxLen, end), |r[0]|)
    ensures BmmGreedy(inv, maxLen, term, end - |r[0]|, r[1..])
  {
  }

  /** The greedy forward segmentation is unique: any segmentation that
      takes the longest inventory window at every step is FMM's. */
  lemma {:induction false} FmmGreedyUnique(inv: seq<string>, maxLen: pos, term: string, start: nat, r: seq<string>)
    requires start <= |term|
    requires FmmGreedy(inv, maxLen, term, start, r)
    ensures r == FmmFrom(inv, maxLen, term, start)
    decreases |r|
  {
    if r != [] {
      FmmGreedyHead(inv, maxLen, term, start, r);
      var w := |r[0]|;
      var m := FmmWidth(inv, term, start, Min(maxLen, |term| - start));
      AheadWidthUnique(inv, term, start, Min(maxLen, |term| - start), w, m);
      FmmGreedyUnique(inv, maxLen, term, start + w, r[1..]);
      FmmFromStep(inv, maxLen, term, start, m);
    }
  }

  /** The greedy backward segmentation is unique in the same way. */
  lemma {:induction false} BmmGreedyUnique(inv: seq<string>, maxLen: pos, term: string, end: nat, r: seq<string>)
    requires end <= |term|
    requires BmmGreedy(inv, maxLen, term, end, r)
    ensures r == BmmFrom(inv, maxLen, term, end)
    decreases |r|
  {
    if r != [] {
      BmmGreedyHead(inv, maxLen, term, end, r);
      var w := |r[0]|;
      var m := BmmWidth(inv, term, end, Min(maxLen, end));
      BehindWidthUnique(inv, term, end, Min(maxLen, end), w, m);
      BmmGreedyUnique(inv, maxLen, term, end - w, r[1..]);
      BmmFromStep(inv, maxLen, term, end, m);
    }
  }

  /** Both segmentations cover the term: FMM pieces in emission order, BMM
      pieces in reverse emission order. */
  lemma {:induction false} SegmentationsCover(inv: seq<string>, maxLen: pos, term: string)
    ensures Concat(Fmm(inv, maxLen, term)) == term
    ensures Concat(Reverse(Bmm(inv, maxLen, term))) == term
  {
    assert term[0..] == term;
    assert term[..|term|] == term;
  }

  /** A term short enough and listed in the inventory is its own only
      subword. */
  lemma {:induction false} WholeTermFound(inv: seq<string>, maxLen: pos, term: string)
    requires term != "" && |term| <= maxLen && term in inv
    ensures Fmm(inv, maxLen, term) == [term]
    ensures Bmm(inv, maxLen, term) == [term]
    ensures GetSubword(inv, maxLen, term) == {term}
  {
    assert term[0..|term|] == term;
    assert Fmm(inv, maxLen, term) == [term] + FmmFrom(inv, maxLen, term, |term|);
    assert Bmm(inv, maxLen, term) == [term] + BmmFrom(inv, maxLen, term, 0);
  }
}

=== FILE: strings.dfy ===
/** Python string primitives the modelled code relies on: `''.join`,
    `sep.join`, `str.split()`, `str.replace(p, '')`, `p in s`, `s.index(p)`,
    clamped slicing `s[a:b]` and ASCII lower-casing. */
module Strings {
  import opened Wrappers

  /** `''.join(ss)`. */
  function Concat(ss: seq<string>): string
  {
    if ss == [] then "" else ss[0] + Concat(ss[1..])
  }

  lemma {:induction false} ConcatAppend(a: seq<string>, b: seq<string>)
    ensures Concat(a + b) == Concat(a) + Concat(b)
  {
    if a != [] {
      assert (a + b)[0] == a[0] && (a + b)[1..] == a[1..] + b;
      ConcatAppend(a[1..], b);
      assert Concat(a + b) == a[0] + (Concat(a[1..]) + Concat(b));
    } else {
      assert a + b == b;
    }
  }

  /** Every piece occurs in the concatenation. */
  lemma {:induction false} OccursInConcat(ss: seq<string>, s: string)
    requires s in ss
    ensures Occurs(s, Concat(ss))
  {
    var c := Concat(ss);
    assert c == ss[0] + Concat(ss[1..]);
    if ss[0] == s {
      assert c[0..|s|] == s;
      assert OccursAt(c, s, 0);
    } else {
      OccursInConcat(ss[1..], s);
      var k: nat :| k <= |Concat(ss[1..])| && OccursAt(Concat(ss[1..]), s, k);
      assert c[|ss[0]| + k..|ss[0]| + k + |s|] == Concat(ss[1..])[k..k + |s|];
      assert OccursAt(c, s, |ss[0]| + k);
    }
  }

  /** `sep.join(ss)`. */
  function Join(sep: string, ss: seq<string>): string
  {
    if ss == [] then ""
    else if |ss| == 1 then ss[0]
    else ss[0] + sep + Join(sep, ss[1..])
  }

  /** The characters Python's `str.isspace()` (and so `str.split()`) treats
      as whitespace. */
  predicate IsSpace(c: char)
  {
    || '\U{9}' <= c <= '\U{D}'
    || '\U{1C}' <= c <= '\U{20}'
    || c == '\U{85}' || c == '\U{A0}' || c == '\U{1680}'
    || '\U{2000}' <= c <= '\U{200A}'
    || c == '\U{2028}' || c == '\U{2029}' || c == '\U{202F}'
    || c == '\U{205F}' || c == '\U{3000}'
  }

  /** The regular-expression class `[a-zA-Z0-9]`. */
  predicate IsAsciiAlnum(c: char)
  {
    'a' <= c <= 'z' || 'A' <= c <= 'Z' || '0' <= c <= '9'
  }

  predicate IsNotAsciiAlnum(c: char)
  {
    !IsAsciiAlnum(c)
  }

  /** The characters of `s` that `drop` does not hold of, in order. */
  function Drop(s: string, drop: char -> bool): (r: string)
    ensures |r| <= |s|
    ensures forall c :: c in r ==> c in s && !drop(c)
  {
    if s == [] then ""
    else (if drop(s[0]) then "" else [s[0]]) + Drop(s[1..], drop)
  }

  lemma {:induction false} DropAppend(a: string, b: string, drop: char -> bool)
    ensures Drop(a + b, drop) == Drop(a, drop) + Drop(b, drop)
  {
    if a != [] {
      assert (a + b)[0] == a[0] && (a + b)[1..] == a[1..] + b;
      DropAppend(a[1..], b, drop);
      var h := if drop(a[0]) then "" else [a[0]];
      assert Drop(a + b, drop) == h + (Drop(a[1..], drop) + Drop(b, drop));
    } else {
      assert a + b == b;
    }
  }

  lemma {:induction false} DropNone(s: string, drop: char -> bool)
    requires forall c :: c in s ==> !drop(c)
    ensures Drop(s, drop) == s
  {
    if s != [] {
      assert s[0] in s;
      DropNone(s[1..], drop);
    }
  }

  lemma {:induction false} DropAll(s: string, drop: char -> bool)
    requires forall c :: c in s ==> drop(c)
    ensures Drop(s, drop) == ""
  {
    if s != [] {
      assert s[0] in s;
      DropAll(s[1..], drop);
    }
  }

  /** No character of `w` is a separator. */
  predicate NoSep(w: string, sep: char -> bool)
  {
    forall c :: c in w ==> !sep(c)
  }

  /** Every element of `r` is a non-empty run without separators. */
  predicate Runs(r: seq<string>, sep: char -> bool)
  {
    forall k :: 0 <= k < |r| ==> r[k] != "" && NoSep(r[k], sep)
  }

  /** Runs without separators concatenate to a string without separators. */
  lemma {:induction false} ConcatRuns(r: seq<string>, sep: char -> bool)
    requires Runs(r, sep)
    ensures NoSep(Concat(r), sep)
  {
    if r != [] {
      assert Runs(r[1..], sep) by {
        forall k | 0 <= k < |r[1..]| ensures r[1..][k] != "" && NoSep(r[1..][k], sep) {
          assert r[1..][k] == r[k + 1];
        }
      }
      ConcatRuns(r[1..], sep);
      assert Concat(r) == r[0] + Concat(r[1..]);
    }
  }

  /** The scan behind `str.split()` and `re.findall`: `cur` is the run
      being collected, `sep` tells separators from run characters. */
  function SplitFrom(s: string, cur: string, sep: char -> bool): (r: seq<string>)
    requires NoSep(cur, sep)
    ensures Runs(r, sep)
    ensures Concat(r) == cur + Drop(s, sep)
    decreases |s|
  {
    if s == [] then
      (if cur == "" then [] else [cur])
    else if sep(s[0]) then
      var head := if cur == "" then [] else [cur];
      var rest := SplitFrom(s[1..], "", sep);
      ConcatAppend(head, rest);
      assert Concat(head) == cur;
      assert Drop(s, sep) == Drop(s[1..], sep);
      head + rest
    else
      assert NoSep(cur + [s[0]], sep);
      assert Drop(s, sep) == [s[0]] + Drop(s[1..], sep);
      SplitFrom(s[1..], cur + [s[0]], sep)
  }

  /** The maximal runs of non-separator characters of `s`, left to right. */
  function SplitBy(s: string, sep: char -> bool): (r: seq<string>)
    ensures Runs(r, sep)
    ensures Concat(r) == Drop(s, sep)
  {
    SplitFrom(s, "", sep)
  }

  /** `s.split()` with no argument. */
  function Split(s: string): seq<string>
  {
    SplitBy(s, IsSpace)
  }

  /** Every character of `g` is a separator. */
  predicate AllSep(g: string, sep: char -> bool)
  {
    forall c :: c in g ==> sep(c)
  }

  /** `gaps[0] + runs[0] + gaps[1] + ... + runs[n-1] + gaps[n]`. */
  function Interleave(gaps: seq<string>, runs: seq<string>): string
    requires |gaps| == |runs| + 1
    decreases |runs|
  {
    if runs == [] then gaps[0] else gaps[0] + runs[0] + Interleave(gaps[1..], runs[1..])
  }

  /** `gaps` are separator strings fitting around `runs`, those between
      two runs being non-empty. */
  predicate Gapped(gaps: seq<string>, runs: seq<string>, sep: char -> bool)
  {
    |gaps| == |runs| + 1 &&
    (forall k :: 0 <= k < |gaps| ==> AllSep(gaps[k], sep)) &&
    (forall k :: 0 < k < |runs| ==> gaps[k] != "")
  }

  /** `runs` are the maximal separator-free pieces of `s`: `s` is the runs
      with separator gaps around them, two neighbouring runs being split
      by at least one separator. */
  ghost predicate MaximalRuns(s: string, runs: seq<string>, sep: char -> bool)
  {
    Runs(runs, sep) && exists gaps :: Gapped(gaps, runs, sep) && Interleave(gaps, runs) == s
  }

  lemma {:induction false} InterleavePrefix(p: string, gaps: seq<string>, runs: seq<string>)
    requires |gaps| == |runs| + 1
    ensures Interleave([p + gaps[0]] + gaps[1..], runs) == p + Interleave(gaps, runs)
  {
    var g := [p + gaps[0]] + gaps[1..];
    assert g[1..] == gaps[1..];
  }

  /** The scan splits `cur + s` into maximal runs, `gaps` being the
      separators around them; a run being collected opens the first run,
      so no gap comes before it. */
  lemma {:induction false} SplitFromGaps(s: string, cur: string, sep: char -> bool) returns (gaps: seq<string>)
    requires NoSep(cur, sep)
    ensures Gapped(gaps, SplitFrom(s, cur, sep), sep)
    ensures cur != "" ==> gaps[0] == ""
    ensures Interleave(gaps, SplitFrom(s, cur, sep)) == cur + s
    decreases |s|
  {
    if s == [] {
      gaps := GapsAtEnd(cur, sep);
      assert cur + s == cur;
    } else if sep(s[0]) {
      var gs := SplitFromGaps(s[1..], "", sep);
      gaps := GapsAtSeparator(s, cur, sep, gs);
    } else {
      assert NoSep(cur + [s[0]], sep);
      var gs := SplitFromGaps(s[1..], cur + [s[0]], sep);
      gaps := GapsInRun(s, cur, sep, gs);
    }
  }

  /** A run character extends the run being collected. */
  lemma {:induction false} GapsInRun(s: string, cur: string, sep: char -> bool, gs: seq<string>) returns (gaps: seq<string>)
    requires s != [] && !sep(s[0]) && NoSep(cur, sep)
    requires Gapped(gs, SplitFrom(s[1..], cur + [s[0]], sep), sep) && gs[0] == ""
    requires Interleave(gs, SplitFrom(s[1..], cur + [s[0]], sep)) == cur + [s[0]] + s[1..]
    ensures Gapped(gaps, SplitFrom(s, cur, sep), sep)
    ensures cur != "" ==> gaps[0] == ""
    ensures Interleave(gaps, SplitFrom(s, cur, sep)) == cur + s
  {
    var c := cur + [s[0]];
    assert NoSep(c, sep);
    assert SplitFrom(s, cur, sep) == SplitFrom(s[1..], c, sep);
    AppendAssoc(cur, [s[0]], s[1..]);
    assert [s[0]] + s[1..] == s;
    gaps := gs;
  }

  /** The end of the text closes the run being collected. */
  lemma {:induction false} GapsAtEnd(cur: string, sep: char -> bool) returns (gaps: seq<string>)
    requires NoSep(cur, sep)
    ensures Gapped(gaps, SplitFrom("", cur, sep), sep)
    ensures cur != "" ==> gaps[0] == ""
    ensures Interleave(gaps, SplitFrom("", cur, sep)) == cur
  {
    var r := SplitFrom("", cur, sep);
    if cur == "" {
      gaps := [""];
      assert r == [];
    } else {
      gaps := ["", ""];
      assert r == [cur];
      assert Interleave(gaps, r) == "" + cur + Interleave([""], []);
      assert "" + cur + "" == cur;
    }
  }

  /** A separator closes the run being collected and widens the gap
      before the split of the remaining text. */
  lemma {:induction false} GapsAtSeparator(s: string, cur: string, sep: char -> bool, gs: seq<string>) returns (gaps: seq<string>)
    requires s != [] && sep(s[0]) && NoSep(cur, sep)
    requires Gapped(gs, SplitFrom(s[1..], "", sep), sep)
    requires Interleave(gs, SplitFrom(s[1..], "", sep)) == s[1..]
    ensures Gapped(gaps, SplitFrom(s, cur, sep), sep)
    ensures cur != "" ==> gaps[0] == ""
    ensures Interleave(gaps, SplitFrom(s, cur, sep)) == cur + s
  {
    var r := SplitFrom(s, cur, sep);
    var rest := SplitFrom(s[1..], "", sep);
    var tail := [[s[0]] + gs[0]] + gs[1..];
    InterleavePrefix([s[0]], gs, rest);
    assert Interleave(tail, rest) == [s[0]] + s[1..] == s;
    assert tail[0] == [s[0]] + gs[0] && tail[1..] == gs[1..];
    assert Gapped(tail, rest, sep) by {
      assert AllSep(tail[0], sep);
      forall k | 1 <= k < |tail| ensures tail[k] == gs[k] {
        assert tail[k] == tail[1..][k - 1];
      }
    }
    if cur == "" {
      assert r == rest;
      gaps := tail;
    } else {
      assert r == [cur] + rest;
      gaps := [""] + tail;
      SeparatedStep(cur, tail, rest, sep);
    }
  }

  /** A run closed by a separator: putting it, with an empty gap, before
      a gapped split whose first gap is non-empty keeps the gaps valid. */
  lemma {:induction false} SeparatedStep(cur: string, tail: seq<string>, rest: seq<string>, sep: char -> bool)
    requires Gapped(tail, rest, sep) && tail[0] != ""
    ensures Gapped([""] + tail, [cur] + rest, sep)
    ensures Interleave([""] + tail, [cur] + rest) == cur + Interleave(tail, rest)
  {
    var gaps, r := [""] + tail, [cur] + rest;
    assert gaps[1..] == tail && r[1..] == rest;
    forall k | 1 <= k < |gaps| ensures gaps[k] == tail[k - 1] {
    }
    assert "" + cur == cur;
  }

  /** `SplitBy` yields the maximal runs of `s`. */
  lemma {:induction false} SplitByMaximal(s: string, sep: char -> bool)
    ensures MaximalRuns(s, SplitBy(s, sep), sep)
  {
    var gaps := SplitFromGaps(s, "", sep);
    assert "" + s == s;
  }

  /** The length of the longest prefix of `t` made of `p`-characters. */
  function PrefixLen(t: string, p: char -> bool): (n: nat)
    ensures n <= |t|
  {
    if t == [] || !p(t[0]) then 0 else 1 + PrefixLen(t[1..], p)
  }

  /** A prefix of `p`-characters that a non-`p` character or the end of
      the string follows is the longest one. */
  lemma {:induction false} PrefixIsLongest(a: string, b: string, p: char -> bool)
    requires forall c :: c in a ==> p(c)
    requires b == [] || !p(b[0])
    ensures PrefixLen(a + b, p) == |a|
    decreases |a|
  {
    var t := a + b;
    if a == [] {
      assert t == b;
    } else {
      assert a[0] in a && t[0] == a[0];
      assert t[1..] == a[1..] + b;
      assert forall c :: c in a[1..] ==> c in a;
      PrefixIsLongest(a[1..], b, p);
    }
  }

  /** Cutting a string after its longest prefix of `p`-characters: two
      such cuts agree. */
  lemma {:induction false} LongestPrefixCut(a: string, b: string, a2: string, b2: string, p: char -> bool)
    requires a + b == a2 + b2
    requires forall c :: c in a ==> p(c)
    requires forall c :: c in a2 ==> p(c)
    requires b == [] || !p(b[0])
    requires b2 == [] || !p(b2[0])
    ensures a == a2 && b == b2
  {
    var t := a + b;
    PrefixIsLongest(a, b, p);
    PrefixIsLongest(a2, b2, p);
    assert a == t[..|a|] == a2;
    assert b == t[|a|..] == b2;
  }

  /** What follows a run in a gapped split: nothing, or a separator. */
  lemma {:induction false} AfterRun(gaps: seq<string>, runs: seq<string>, sep: char -> bool)
    requires Gapped(gaps, runs, sep) && runs != []
    ensures var y := Interleave(gaps[1..], runs[1..]); y == [] || sep(y[0])
  {
    var y := Interleave(gaps[1..], runs[1..]);
    if |runs| == 1 {
      assert y == gaps[1];
      if y != [] { assert y[0] in gaps[1]; }
    } else {
      assert gaps[1] != "";
      assert y == gaps[1] + runs[1] + Interleave(gaps[2..], runs[2..]);
      assert y[0] == gaps[1][0] && y[0] in gaps[1];
    }
  }

  /** Dropping the first gap and run keeps a gapped split gapped. */
  lemma {:induction false} GappedTail(gaps: seq<string>, runs: seq<string>, sep: char -> bool)
    requires Gapped(gaps, runs, sep) && Runs(runs, sep) && runs != []
    ensures Gapped(gaps[1..], runs[1..], sep) && Runs(runs[1..], sep)
  {
    forall k | 0 <= k < |gaps| - 1 ensures gaps[1..][k] == gaps[k + 1] {
    }
    forall k | 0 <= k < |runs| - 1 ensures runs[1..][k] == runs[k + 1] {
    }
  }

  /** A string has one split into maximal runs. */
  lemma {:induction false} MaximalUnique(g1: seq<string>, r1: seq<string>, g2: seq<string>, r2: seq<string>, sep: char -> bool)
    requires Gapped(g1, r1, sep) && Runs(r1, sep)
    requires Gapped(g2, r2, sep) && Runs(r2, sep)
    requires Interleave(g1, r1) == Interleave(g2, r2)
    ensures r1 == r2
    decreases |r1|
  {
    var x1 := if r1 == [] then "" else r1[0] + Interleave(g1[1..], r1[1..]);
    var x2 := if r2 == [] then "" else r2[0] + Interleave(g2[1..], r2[1..]);
    assert Interleave(g1, r1) == g1[0] + x1;
    assert Interleave(g2, r2) == g2[0] + x2;
    assert AllSep(g1[0], sep) && AllSep(g2[0], sep);
    assert x1 == [] || !sep(x1[0]) by {
      if r1 != [] { assert x1[0] == r1[0][0] && r1[0][0] in r1[0]; }
    }
    assert x2 == [] || !sep(x2[0]) by {
      if r2 != [] { assert x2[0] == r2[0][0] && r2[0][0] in r2[0]; }
    }
    LongestPrefixCut(g1[0], x1, g2[0], x2, sep);
    if r1 != [] && r2 != [] {
      var y1, y2 := Interleave(g1[1..], r1[1..]), Interleave(g2[1..], r2[1..]);
      AfterRun(g1, r1, sep);
      AfterRun(g2, r2, sep);
      assert NoSep(r1[0], sep) && NoSep(r2[0], sep);
      LongestPrefixCut(r1[0], y1, r2[0], y2, c => !sep(c));
      GappedTail(g1, r1, sep);
      GappedTail(g2, r2, sep);
      MaximalUnique(g1[1..], r1[1..], g2[1..], r2[1..], sep);
      assert r1 == [r1[0]] + r1[1..] && r2 == [r2[0]] + r2[1..];
    }
  }

  /** The maximal runs of `s` are exactly what `SplitBy` yields. */
  lemma {:induction false} MaximalRunsAreSplit(s: string, runs: seq<string>, sep: char -> bool)
    requires MaximalRuns(s, runs, sep)
    ensures runs == SplitBy(s, sep)
  {
    var gaps :| Gapped(gaps, runs, sep) && Interleave(gaps, runs) == s;
    var g2 := SplitFromGaps(s, "", sep);
    assert "" + s == s;
    MaximalUnique(gaps, runs, g2, SplitBy(s, sep), sep);
  }

  lemma {:induction false} SplitFromRun(w: string, cur: string, sep: char -> bool)
    requires NoSep(cur + w, sep)
    requires cur + w != ""
    ensures SplitFrom(w, cur, sep) == [cur + w]
    decreases |w|
  {
    if w == [] {
      assert cur + w == cur;
    } else {
      assert w[0] in cur + w;
      assert cur + [w[0]] + w[1..] == cur + w;
      assert NoSep(cur, sep) by {
        forall c | c in cur ensures !sep(c) {
          assert c in cur + w;
        }
      }
      SplitFromRun(w[1..], cur + [w[0]], sep);
    }
  }

  lemma {:induction false} SplitFromSeparator(a: string, c: char, b: string, cur: string, sep: char -> bool)
    requires sep(c)
    requires NoSep(cur, sep)
    ensures SplitFrom(a + [c] + b, cur, sep) == SplitFrom(a, cur, sep) + SplitFrom(b, "", sep)
    decreases |a|
  {
    var s := a + [c] + b;
    if a == [] {
      assert s[0] == c && s[1..] == b;
    } else {
      assert s[0] == a[0] && s[1..] == a[1..] + [c] + b;
      if sep(a[0]) {
        SplitFromSeparator(a[1..], c, b, "", sep);
      } else {
        SplitFromSeparator(a[1..], c, b, cur + [a[0]], sep);
      }
    }
  }

  /** A run without separators splits into itself. */
  lemma {:induction false} SplitRun(w: string, sep: char -> bool)
    requires w != "" && NoSep(w, sep)
    ensures SplitBy(w, sep) == [w]
  {
    assert "" + w == w;
    SplitFromRun(w, "", sep);
  }

  /** Joining separator-free runs with a separator and splitting again
      gives the runs back. */
  lemma {:induction false} SplitJoin(syms: seq<string>, sep: char -> bool)
    requires sep(' ')
    requires Runs(syms, sep)
    ensures SplitBy(Join(" ", syms), sep) == syms
  {
    if |syms| == 1 {
      SplitRun(syms[0], sep);
    } else if |syms| > 1 {
      var j := Join(" ", syms[1..]);
      JoinStep(syms);
      SplitRunThenSpace(syms[0], j, sep);
      SplitJoin(syms[1..], sep);
      assert syms == [syms[0]] + syms[1..];
    }
  }

  lemma {:induction false} SplitRunThenSpace(w: string, rest: string, sep: char -> bool)
    requires sep(' ')
    requires w != "" && NoSep(w, sep)
    ensures SplitBy((w + " ") + rest, sep) == [w] + SplitBy(rest, sep)
  {
    assert (w + " ") + rest == w + [' '] + rest;
    SplitFromSeparator(w, ' ', rest, "", sep);
    SplitRun(w, sep);
  }

  lemma {:induction false} JoinStep(xs: seq<string>)
    requires |xs| > 1
    ensures Join(" ", xs) == (xs[0] + " ") + Join(" ", xs[1..])
  {
  }

  lemma {:induction false} ConcatStep(xs: seq<string>)
    requires xs != []
    ensures Concat(xs) == xs[0] + Concat(xs[1..])
  {
  }

  lemma {:induction false} DropSeparator(sep: char -> bool)
    requires sep(' ')
    ensures Drop(" ", sep) == ""
  {
    assert Drop(" ", sep) == (if sep(' ') then "" else " ") + Drop("", sep);
  }

  /** Joining with a space and dropping the separators is concatenating
      and dropping them. */
  lemma {:induction false} JoinDropsSeparators(xs: seq<string>, sep: char -> bool)
    requires sep(' ')
    ensures Drop(Join(" ", xs), sep) == Drop(Concat(xs), sep)
  {
    if |xs| == 1 {
      assert Concat(xs) == xs[0] + Concat([]);
      assert xs[0] + "" == xs[0];
    } else if |xs| > 1 {
      var a, j, c := xs[0], Join(" ", xs[1..]), Concat(xs[1..]);
      JoinDropsSeparators(xs[1..], sep);
      JoinStep(xs);
      ConcatStep(xs);
      DropSeparator(sep);
      DropAppend(a + " ", j, sep);
      DropAppend(a, " ", sep);
      DropAppend(a, c, sep);
    }
  }

  /** The one-character strings of `s`, in order. */
  function Letters(s: string): (r: seq<string>)
    ensures |r| == |s|
    ensures forall i :: 0 <= i < |s| ==> r[i] == [s[i]]
  {
    seq(|s|, i requires 0 <= i < |s| => [s[i]])
  }

  lemma {:induction false} ConcatLetters(s: string)
    ensures Concat(Letters(s)) == s
    decreases |s|
  {
    if s != "" {
      var ls := Letters(s);
      assert ls[0] == [s[0]];
      assert ls[1..] == Letters(s[1..]);
      assert Concat(ls) == [s[0]] + Concat(Letters(s[1..]));
      ConcatLetters(s[1..]);
      assert s == [s[0]] + s[1..];
    }
  }

  /** `s.replace(pat, '')`: every non-overlapping occurrence of `pat`,
      scanning left to right, is deleted; an empty `pat` changes nothing. */
  function Remove(s: string, pat: string): (r: string)
    ensures |r| <= |s|
    ensures forall c :: c in r ==> c in s
    decreases |s|
  {
    if pat == "" then s
    else if |pat| <= |s| && s[..|pat|] == pat then
      var rest := Remove(s[|pat|..], pat);
      assert forall c :: c in rest ==> c in s by {
        forall c | c in rest ensures c in s {
          var i :| 0 <= i < |s[|pat|..]| && s[|pat|..][i] == c;
          assert s[|pat| + i] == c;
        }
      }
      rest
    else if s == "" then ""
    else [s[0]] + Remove(s[1..], pat)
  }

  /** Deleting a pattern made only of dropped characters leaves the kept
      characters of the string untouched. */
  lemma {:induction false} RemoveKeepsOthers(s: string, pat: string, drop: char -> bool)
    requires forall c :: c in pat ==> drop(c)
    ensures Drop(Remove(s, pat), drop) == Drop(s, drop)
    decreases |s|
  {
    if pat == "" {
    } else if |pat| <= |s| && s[..|pat|] == pat {
      assert s == s[..|pat|] + s[|pat|..];
      DropAppend(s[..|pat|], s[|pat|..], drop);
      DropAll(pat, drop);
      RemoveKeepsOthers(s[|pat|..], pat, drop);
    } else if s != "" {
      assert s == [s[0]] + s[1..];
      DropAppend([s[0]], s[1..], drop);
      DropAppend([s[0]], Remove(s[1..], pat), drop);
      RemoveKeepsOthers(s[1..], pat, drop);
    }
  }

  /** Deleting a pattern keeps the other characters in order: the result
      is a subsequence of the string. */
  lemma {:induction false} RemoveSubsequence(s: string, pat: string)
    ensures IsSubsequence(Remove(s, pat), s)
    decreases |s|
  {
    if pat == "" {
      SubsequenceRefl(s);
    } else if |pat| <= |s| && s[..|pat|] == pat {
      RemoveSubsequence(s[|pat|..], pat);
      SubsequenceSuffix(Remove(s[|pat|..], pat), s, |pat|);
    } else if s != "" {
      var rest := Remove(s[1..], pat);
      RemoveSubsequence(s[1..], pat);
      assert ([s[0]] + rest)[0] == s[0] && ([s[0]] + rest)[1..] == rest;
    }
  }

  /** Deleting a one-character pattern deletes every copy of it. */
  lemma {:induction false} RemoveChar(s: string, c: char)
    ensures c !in Remove(s, [c])
    decreases |s|
  {
    if s != "" {
      RemoveChar(s[1..], c);
    }
  }

  predicate OccursAt(s: string, p: string, k: nat)
  {
    k + |p| <= |s| && s[k..k + |p|] == p
  }

  /** Python's `p in s` for strings. */
  predicate Occurs(p: string, s: string)
  {
    exists k: nat | k <= |s| :: OccursAt(s, p, k)
  }

  /** Deleting a pattern that occurs makes the string strictly shorter. */
  lemma {:induction false} RemoveShortens(s: string, pat: string)
    requires pat != "" && Occurs(pat, s)
    ensures |Remove(s, pat)| + |pat| <= |s|
    decreases |s|
  {
    var k: nat :| k <= |s| && OccursAt(s, pat, k);
    if |pat| <= |s| && s[..|pat|] == pat {
    } else {
      assert k != 0;
      assert k + |pat| <= |s|;
      assert s[1..][k - 1..k - 1 + |pat|] == s[k..k + |pat|];
      assert OccursAt(s[1..], pat, k - 1);
      RemoveShortens(s[1..], pat);
    }
  }

  function FindFrom(s: string, p: string, k: nat): (r: Option<nat>)
    requires k <= |s|
    ensures r.Some? ==> k <= r.value && OccursAt(s, p, r.value)
    ensures r.Some? ==> forall j: nat :: k <= j < r.value ==> !OccursAt(s, p, j)
    ensures r.None? ==> forall j: nat :: k <= j ==> !OccursAt(s, p, j)
    decreases |s| - k
  {
    if k + |p| > |s| then None
    else if s[k..k + |p|] == p then Some(k)
    else FindFrom(s, p, k + 1)
  }

  /** `s.index(p)`: the first position where `p` occurs, `None` where
      Python raises `ValueError`. */
  function IndexOf(s: string, p: string): (r: Option<nat>)
    ensures r.Some? <==> Occurs(p, s)
    ensures r.Some? ==> OccursAt(s, p, r.value) && forall j: nat :: j < r.value ==> !OccursAt(s, p, j)
  {
    FindFrom(s, p, 0)
  }

  function Min(a: int, b: int): int
  {
    if a <= b then a else b
  }

  /** `s[a:b]` for non-negative bounds: Python clamps both to `len(s)` and
      yields `''` when the window is empty. */
  function PySlice(s: string, a: nat, b: nat): (r: string)
    ensures |r| <= |s|
    ensures a <= b <= |s| ==> r == s[a..b]
    ensures b <= a ==> r == ""
  {
    if a >= b || a >= |s| then "" else s[a..Min(b, |s|)]
  }

  function LowerChar(c: char): char
  {
    if 'A' <= c <= 'Z' then (c as int + 32) as char else c
  }

  /** `s.lower()` restricted to ASCII letters. */
  function Lower(s: string): (r: string)
    ensures |r| == |s|
    ensures forall i :: 0 <= i < |s| ==> r[i] == LowerChar(s[i])
  {
    seq(|s|, i requires 0 <= i < |s| => LowerChar(s[i]))
  }

  /** `xs` without repeats, each element at its first position. */
  function Dedup(xs: seq<string>): (r: seq<string>)
    ensures forall x :: x in r <==> x in xs
    ensures forall i, j :: 0 <= i < j < |r| ==> r[i] != r[j]
    ensures |r| <= |xs|
  {
    if xs == [] then []
    else
      var rest := Dedup(xs[..|xs| - 1]);
      assert xs == xs[..|xs| - 1] + [xs[|xs| - 1]];
      if xs[|xs| - 1] in rest then rest else rest + [xs[|xs| - 1]]
  }

  /** Dropping repeats keeps a list of runs a list of runs. */
  lemma {:induction false} DedupRuns(xs: seq<string>, sep: char -> bool)
    requires Runs(xs, sep)
    ensures Runs(Dedup(xs), sep)
  {
    var r := Dedup(xs);
    forall k | 0 <= k < |r| ensures r[k] != "" && NoSep(r[k], sep) {
      assert r[k] in xs;
    }
  }

  /** Strictly increasing positions. */
  predicate Ascending(ix: seq<nat>)
  {
    forall i, j :: 0 <= i < j < |ix| ==> ix[i] < ix[j]
  }

  lemma {:induction false} AscendingCons(x: nat, ix: seq<nat>)
    requires Ascending(ix) && forall j :: 0 <= j < |ix| ==> x < ix[j]
    ensures Ascending([x] + ix)
  {
    var ix' := [x] + ix;
    forall i, j | 0 <= i < j < |ix'| ensures ix'[i] < ix'[j] {
      assert ix'[j] == ix[j - 1];
      if i > 0 {
        assert ix'[i] == ix[i - 1];
      }
    }
  }

  /** The positions of `opts[1..]`, shifted into `opts`. */
  function Shifted(ix: seq<nat>): (r: seq<nat>)
    ensures |r| == |ix| && forall j :: 0 <= j < |ix| ==> r[j] == ix[j] + 1
  {
    seq(|ix|, j requires 0 <= j < |ix| => ix[j] + 1)
  }

  lemma {:induction false} AscendingSnoc(ix: seq<nat>, x: nat)
    requires Ascending(ix) && forall j :: 0 <= j < |ix| ==> ix[j] < x
    ensures Ascending(ix + [x])
  {
    var ix' := ix + [x];
    forall i, j | 0 <= i < j < |ix'| ensures ix'[i] < ix'[j] {
      assert ix'[i] == ix[i];
      if j < |ix| {
        assert ix'[j] == ix[j];
      }
    }
  }

  /** `xs.index(x)` on a list: the first position holding `x`, `None` where
      Python raises `ValueError`. */
  function Find<T(==)>(xs: seq<T>, x: T): (r: Option<nat>)
    ensures r.Some? <==> x in xs
    ensures r.Some? ==> r.value < |xs| && xs[r.value] == x && forall j :: 0 <= j < r.value ==> xs[j] != x
  {
    if xs == [] then None
    else if xs[0] == x then Some(0)
    else match Find(xs[1..], x)
      case None => None
      case Some(i) =>
        assert forall j :: 1 <= j < i + 1 ==> xs[j] == xs[1..][j - 1];
        Some(i + 1)
  }

  lemma {:induction false} AppendAssoc<T>(a: seq<T>, b: seq<T>, c: seq<T>)
    ensures (a + b) + c == a + (b + c)
  {
  }

  /** `a` is `b` with some elements left out, order kept. */
  predicate IsSubsequence<T(==)>(a: seq<T>, b: seq<T>)
    decreases |b|
  {
    if a == [] then true
    else if b == [] then false
    else if a[0] == b[0] then IsSubsequence(a[1..], b[1..])
    else IsSubsequence(a, b[1..])
  }

  /** Dropping the head of `b` keeps `a` a subsequence of it. */
  lemma {:induction false} SubsequenceSkip<T>(a: seq<T>, b: seq<T>)
    requires b != [] && IsSubsequence(a, b[1..])
    ensures IsSubsequence(a, b)
    decreases |b|, |a|
  {
    if a != [] && a[0] == b[0] {
      SubsequenceTail(a, b[1..]);
    }
  }

  lemma {:induction false} SubsequenceRefl<T>(a: seq<T>)
    ensures IsSubsequence(a, a)
    decreases |a|
  {
    if a != [] {
      SubsequenceRefl(a[1..]);
    }
  }

  /** A subsequence of a suffix is a subsequence of the whole. */
  lemma {:induction false} SubsequenceSuffix<T>(a: seq<T>, b: seq<T>, k: nat)
    requires k <= |b| && IsSubsequence(a, b[k..])
    ensures IsSubsequence(a, b)
    decreases k
  {
    if k > 0 {
      assert b[k - 1..][1..] == b[k..];
      SubsequenceSkip(a, b[k - 1..]);
      SubsequenceSuffix(a, b, k - 1);
    }
  }

  lemma {:induction false} SubsequenceTrans<T>(a: seq<T>, b: seq<T>, c: seq<T>)
    requires IsSubsequence(a, b) && IsSubsequence(b, c)
    ensures IsSubsequence(a, c)
    decreases |c|
  {
    if a != [] {
      assert b != [] && c != [];
      if b[0] == c[0] {
        if a[0] == b[0] {
          SubsequenceTrans(a[1..], b[1..], c[1..]);
        } else {
          SubsequenceTrans(a, b[1..], c[1..]);
        }
      } else {
        SubsequenceTrans(a, b, c[1..]);
        SubsequenceSkip(a, c);
      }
    }
  }

  lemma {:induction false} SubsequenceTail<T>(a: seq<T>, b: seq<T>)
    requires a != [] && IsSubsequence(a, b)
    ensures IsSubsequence(a[1..], b)
    decreases |b|, |a|
  {
    if a[0] == b[0] {
      SubsequenceSkip(a[1..], b);
    } else {
      SubsequenceTail(a, b[1..]);
      SubsequenceSkip(a[1..], b);
    }
  }
}

=== FILE: wrappers.dfy ===
/** Failure-carrying results used throughout the model. Python exceptions that
    the modelled code can raise become `Failure` values instead of a
    precondition that rules the input out. */
module Wrappers {

  datatype Option<+T> = None | Some(value: T)

  /** The Python exceptions the modelled code can raise. */
  datatype Exception =
    | IndexError      // indexing an empty list (the strict `kmp`)
    | ValueError      // `max` of an empty sequence, `list.index` of a missing value
    | UnboundLocal    // reading a loop variable after a loop that never ran

  datatype Result<+T> = Success(value: T) | Failure(error: Exception) {

    predicate IsFailure() {
      Failure?
    }

    function PropagateFailure<U>(): Result<U>
      requires Failure?
    {
      Failure(error)
    }

    function Extract(): T
      requires Success?
    {
      value
    }
  }
}
